=== FILE: README.md ===
# MCP tool server core, modelled in Dafny

This project models the decision and data logic of the `new_project_bundle` MCP tool
server. It also models its bundle-downloader command-line tool. Each tool handler is a
pure function. Its I/O results are inputs: the environment, the outcome of running a
command, HTTP responses, file contents, directory trees, the clock and parsed JSON.
Each handler returns the text block it answers with. Where a security gate is involved,
it also returns the log of external operations it performed (`Tools.ToolRun`): every
command run, request, file read or write, directory read and `stat`, including the
reads of subdirectories in a recursive listing or search. So a contract can say that a
denied request touched nothing, and exactly what an allowed one touched.

The modules follow the source files:

| module | file | models |
|---|---|---|
| `SystemTools` | `system_tools.dfy` | the command allow-list gate `isCommandSafe`, `get_env` / `list_env` with the sensitive-name filter, `run_command`, and the `random_generate` string length rule |
| `FetchTools` | `fetch_tools.dfy` | the URL blocklist `isUrlSafe`, the gate in front of `http_get`, `http_post`, `check_url` and `fetch_webpage`, body truncation, and the entity-decoding chain |
| `Paths` | `paths.dfy` | the lexical POSIX `path.resolve` over segment lists |
| `FileSystemTools` | `filesystem_tools.dfy` | `isPathAllowed`, and the gate in front of `read_file`, `write_file`, `list_directory`, `file_info` and `search_files`; directory contents are a given entry tree |
| `MemoryTools` | `memory_tools.dfy` | the insertion-ordered `Map` store and its eight handlers as store transitions |
| `BundleDownloader` | `bundles.dfy` | include resolution with a shared visited list, naive file counting, `downloadBundle`'s de-duplication and counters, the interactive menu choice, `parseInt`, and the argument loop of `main` |
| `TimeTools` | `time_tools.dfy` | `time_difference` arithmetic, `format_time` input classification with its unix and relative branches, `get_current_time` unix, `convert_timezone` error paths, and `list_timezones` |
| `RuleMarkdown` | `rule_markdown.dfy` | the title, description and tag regular expressions of `scanRulesDirectory`, and the rule id |
| `RulesTools` | `rules_tools.dfy` | the directory scan, `rules_list`, `rules_get`, `rules_search`, `rules_by_category` and `rules_categories` |
| `McpConfig` | `mcp_config.dfy` | JSON values as ordered field lists, object spread and `Object.assign`, `getConfigTemplate`, `getDefaultConfigPath`, `mcp_install_config`'s merge, `mcp_list_config_paths` and `mcp_check_config` |

`Text`, `Seqs` and `Wrappers` hold shared helpers: JS string operations, ordered
de-duplication and filtering, and `Option` / `Result`.

The three gates are modelled exactly as written, not as they were presumably meant.
Their gaps are proved as lemmas:
- `SystemTools.AcceptsReadingAnyFile`, `SystemTools.AcceptsFindDelete` and
  `SystemTools.AcceptsEnvLaunch`: the command gate accepts `cat /etc/passwd`,
  `find . -delete` and `env python3 x.py`.
- `FetchTools.AcceptsLinkLocal`: the URL gate accepts the link-local metadata address
  `169.254.169.254`.
- `FetchTools.RejectsVersionInPath`: the URL gate rejects `https://example.com/v10.2`,
  because `10.` is searched in the whole href.
- `FileSystemTools.SiblingPrefixAllowed`: the path gate accepts a sibling directory
  whose name extends the working directory's last segment, e.g. `/a/bc/x` under
  `/a/b`.

Other behaviours of the code as written are also proved:
- `RuleMarkdown.DescriptionPicksLastParagraph`: the description regex has the `s` flag
  and a greedy `.+` for the title. So it picks the last paragraph that ends in a blank
  line, not the first one. `RuleMarkdown.DescriptionMatchIsFirst` proves that the
  computed match is the one backtracking reports, and
  `RuleMarkdown.DescriptionAfterBareHeading` shows `\s+` giving back a line break.
- `BundleDownloader.HelpFlagUnreachable`: `--help` is dropped by the flag filter, so it
  never reaches the help branch.
- `BundleDownloader.NumberShadowsName`: in the menu a number wins over a bundle
  literally named by that number.
- `TimeTools.DifferenceAsymmetric`: floor division makes `time_difference`'s whole
  units round away from zero for negative differences.
- `RulesTools.SingleEmptyTagShownDifferently`: a rule with a single empty tag shows
  `Tags: ` in `rules_list` but `Tags: None` in `rules_by_category`.
- `McpConfig.GenericMergeReportedButNotDone`: installing for `generic` with `merge`
  set reports `**Action:** Merged` but writes the template alone.
- `McpConfig.EmptyServersListNothing`: `mcp_check_config` on `"mcpServers": {}` lists
  nothing rather than `None`.
- `BundleDownloader.SelfIncludeOverflows`: the file count has no cycle guard, so a
  self-including bundle exhausts the stack.

The source's own comment calls the rule description "the first paragraph after the
title", but its regular expression takes the last one. The model follows the regular
expression.

## Model

| member | source | states |
|---|---|---|
| SystemTools.FirstToken | src/mcp-server/tools/system.ts:43 | the base command is the longest whitespace-free prefix of the command line, ending at whitespace or the end |
| SystemTools.CommandSafeCharacterization | src/mcp-server/tools/system.ts:42-74 | a command is accepted exactly when its lower-cased first token is allow-listed and no dangerous pattern matches anywhere in the line |
| SystemTools.DangerousPatternsSpec | src/mcp-server/tools/system.ts:52-71 | the list of dangerous regexes tests true exactly when one of them matches somewhere in the command |
| SystemTools.AnyOfFromSpec | src/mcp-server/tools/system.ts:53 | the metacharacter scan finds exactly the lines holding one of the listed characters at or after the start |
| SystemTools.WordFromSpec | src/mcp-server/tools/system.ts:54-65 | the word scan finds exactly the lines holding the word delimited by word boundaries |
| SystemTools.FlagOnLineFromSpec | src/mcp-server/tools/system.ts:57 | the force-flag scan finds exactly a `-r` or `-f` (either case) later on the same line; `--recursive` and `--force` contain one |
| SystemTools.ForceCopyFromSpec | src/mcp-server/tools/system.ts:57 | the forced-copy scan finds exactly a `cp` word in either case followed later on its line by a force flag |
| SystemTools.RedirectFromSpec | src/mcp-server/tools/system.ts:66 | the redirect scan finds exactly a `>` followed by optional spaces and `/` |
| SystemTools.SafeCommandsLetters | src/mcp-server/tools/system.ts:16-37 | every allow-listed name is one to eight lower-case ASCII letters, so lower-casing leaves it unchanged |
| SystemTools.SafeCommandsShape | src/mcp-server/tools/system.ts:16-49 | every allow-listed name is non-empty, has no path separator and does not start with `.`, so the path check never rejects an allowed base |
| SystemTools.EmptyBaseRejected | src/mcp-server/tools/system.ts:43-44 | an empty command, or one starting with whitespace, is rejected |
| SystemTools.PathLikeBaseRejected | src/mcp-server/tools/system.ts:47-49 | a base token containing `/` or `\`, or starting with `.`, is rejected |
| SystemTools.MetacharRejected | src/mcp-server/tools/system.ts:53 | a semicolon, ampersand, pipe, backquote, dollar sign, parenthesis or brace anywhere in the line causes rejection |
| SystemTools.RedirectRejected | src/mcp-server/tools/system.ts:66-71 | a redirect to an absolute path anywhere causes rejection |
| SystemTools.DangerWordRejected | src/mcp-server/tools/system.ts:54-65 | a whole-word dangerous verb anywhere causes rejection, even after an allowed base command |
| SystemTools.SafeImpliesAllowListed | src/mcp-server/tools/system.ts:73 | an accepted command has an allow-listed base and no shell metacharacter |
| SystemTools.AcceptedWhenQuiet | src/mcp-server/tools/system.ts:42-74 | an allow-listed base with no dangerous match is accepted (the converse direction) |
| SystemTools.AcceptedWord | src/mcp-server/tools/system.ts:42-74 | a line that is an allow-listed word followed by nothing or by text starting with whitespace, and that matches no dangerous pattern, is accepted |
| SystemTools.NoDangerByCharacters | src/mcp-server/tools/system.ts:52-71 | a line free of metacharacters, force flags and the first two letters of any dangerous word matches no dangerous pattern |
| SystemTools.AcceptedQuietCommand | src/mcp-server/tools/system.ts:42-74 | an allow-listed word followed by nothing or by white space, with no dangerous character or character pair anywhere, is accepted |
| SystemTools.AcceptsListing | src/mcp-server/tools/system.ts:16-37 | `ls -la` is accepted |
| SystemTools.RejectsRemove | src/mcp-server/tools/system.ts:55 | `rm -rf /` is rejected |
| SystemTools.RejectsVerbAfterAllowedCommand | src/mcp-server/tools/system.ts:55 | `echo rm` is rejected although `echo` is allowed |
| SystemTools.RejectsChainedCommand | src/mcp-server/tools/system.ts:53 | `ls; ls` is rejected |
| SystemTools.RejectsCurl | src/mcp-server/tools/system.ts:16-37 | `curl` followed by any URL is rejected, because `curl` is not allow-listed |
| SystemTools.AcceptsReadingAnyFile | src/mcp-server/tools/system.ts:42-74 | `cat /etc/passwd` is accepted: the gate does not restrict arguments |
| SystemTools.AcceptsFindDelete | src/mcp-server/tools/system.ts:42-74 | `find . -delete` is accepted |
| SystemTools.AcceptsEnvLaunch | src/mcp-server/tools/system.ts:42-74 | `env python3 x.py` is accepted, so `env` launches any program |
| SystemTools.SensitiveNameSpec | src/mcp-server/tools/system.ts:124-132 | a name is sensitive exactly when it contains one of the sensitive words, ignoring case |
| SystemTools.GetEnv | src/mcp-server/tools/system.ts:114-156 | a sensitive name reads nothing and answers `Error: Cannot access sensitive environment variable '<name>'`; any other name reads exactly that variable, and a set one answers `<name>=<value>`; an unset name that every object inherits answers with the inherited value's text, any other unset name with `is not set` |
| SystemTools.GetEnvInherited | src/mcp-server/tools/system.ts:143-151 | with no such variable, `toString` answers `toString=function toString() { [native code] }` rather than `is not set` |
| SystemTools.NotSensitiveByLetters | src/mcp-server/tools/system.ts:124-132 | a name without any of the letters a, c, e, k and p, in either case, contains no sensitive word |
| SystemTools.GetEnvHidesSensitive | src/mcp-server/tools/system.ts:124-143 | the answer for a sensitive name does not depend on the environment at all |
| SystemTools.GetEnvReadsOnlyName | src/mcp-server/tools/system.ts:114-156 | the answer depends on the environment only through the requested variable |
| SystemTools.DisplayValue | src/mcp-server/tools/system.ts:186-190 | values of at most 100 characters are shown unchanged; longer ones as their first 100 characters plus `...` |
| SystemTools.EnvLines | src/mcp-server/tools/system.ts:171-190 | every line comes from a kept variable, every kept variable has its line, and there are none exactly when nothing is kept |
| SystemTools.ListEnv | src/mcp-server/tools/system.ts:159-203 | the fallback message appears exactly when no variable is non-sensitive and starts with the prefix; otherwise the answer is the lines of exactly those variables, joined by newlines |
| SystemTools.ListEnvShowsEntry | src/mcp-server/tools/system.ts:171-198 | every non-sensitive variable starting with the prefix appears in the answer as `name=value`, its value shortened for display |
| SystemTools.ListEnvLinesAreListed | src/mcp-server/tools/system.ts:171-190 | every line of the listing is `name=value` of a non-sensitive variable starting with the prefix |
| SystemTools.JoinedLinesNotFallback | src/mcp-server/tools/system.ts:194-198 | joined `name=value` lines are empty only for no lines and never equal the fallback text |
| SystemTools.RunCommand | src/mcp-server/tools/system.ts:206-262 | a rejected command executes nothing and answers the allow-list message; an accepted one executes exactly that command once |
| SystemTools.RunCommandDeniedIgnoresOutcome | src/mcp-server/tools/system.ts:221-230 | the answer to a rejected command does not depend on what running it would have produced |
| SystemTools.RunCommandOutputFromStreams | src/mcp-server/tools/system.ts:232-246 | a completed command answers with a piece of its stdout or stderr, or `(no output)` |
| SystemTools.CeilHalf | src/mcp-server/tools/system.ts:329 | the byte count is the least h with 2h not below the length |
| SystemTools.Hex | src/mcp-server/tools/system.ts:330 | hex encoding gives two hex digits per byte |
| SystemTools.RandomString | src/mcp-server/tools/system.ts:327-331 | it succeeds exactly for -1 <= L <= 0x1fffffe8, a string of length L >= 0 having exactly L hex digits; a byte count outside `randomBytes`' range fails with the stand-in text `SizeError`, and a hex string longer than V8's longest string fails with the stand-in text `TooLongError` |
| FetchTools.UrlSafeCharacterization | src/mcp-server/tools/fetch.ts:11-32 | a parsed href is accepted exactly when no blocked pattern matches anywhere in it |
| FetchTools.TestSpec | src/mcp-server/tools/fetch.ts:11-20 | each blocked regex tests true exactly when it matches somewhere in the href |
| FetchTools.Private172FromSpec | src/mcp-server/tools/fetch.ts:19 | the `172.16.`-`172.31.` scan finds exactly an occurrence of such a prefix |
| FetchTools.UnparsableRejected | src/mcp-server/tools/fetch.ts:26-31 | a URL that does not parse is rejected |
| FetchTools.FileSchemeRejected | src/mcp-server/tools/fetch.ts:12 | an href starting with `file:` in any case is rejected |
| FetchTools.LocalhostRejected | src/mcp-server/tools/fetch.ts:13 | `localhost` in any case anywhere in the href causes rejection |
| FetchTools.LiteralRejected | src/mcp-server/tools/fetch.ts:14-18 | `127.0.0.1`, `::1`, `0.0.0.0`, `192.168.` or `10.` anywhere causes rejection |
| FetchTools.Private172Rejected | src/mcp-server/tools/fetch.ts:19 | a `172.16.` to `172.31.` prefix anywhere causes rejection |
| FetchTools.SafeByPairs | src/mcp-server/tools/fetch.ts:11-32 | an href without a `file` start and without any blocked pattern's first two characters is accepted |
| FetchTools.AcceptsPublicPage | src/mcp-server/tools/fetch.ts:11-20 | `https://example.com/page` is accepted |
| FetchTools.AcceptsLinkLocal | src/mcp-server/tools/fetch.ts:11-20 | `http://169.254.169.254/` is accepted: no pattern covers link-local addresses |
| FetchTools.RejectsVersionInPath | src/mcp-server/tools/fetch.ts:16 | `https://example.com/v10.2` is rejected, because the whole href is searched |
| FetchTools.RejectsFileScheme | src/mcp-server/tools/fetch.ts:12 | `FILE:///x` is rejected |
| FetchTools.RejectsPrivate172 | src/mcp-server/tools/fetch.ts:19 | `http://172.20.0.5/` is rejected |
| FetchTools.Truncate | src/mcp-server/tools/fetch.ts:89-92 | a body within the limit is unchanged; a longer one is its first limit characters plus the truncation mark |
| FetchTools.TruncateBound | src/mcp-server/tools/fetch.ts:178-182 | truncation adds at most the mark's length and keeps the first limit characters |
| FetchTools.ResponseText | src/mcp-server/tools/fetch.ts:94-99 | the response text ends with the truncated body |
| FetchTools.HttpGet | src/mcp-server/tools/fetch.ts:39-115 | a rejected URL fetches nothing and answers the blocked message; an accepted one fetches it once with GET |
| FetchTools.HttpPost | src/mcp-server/tools/fetch.ts:118-205 | a rejected URL fetches nothing and answers the blocked message; an accepted one fetches it once with POST |
| FetchTools.CheckUrl | src/mcp-server/tools/fetch.ts:208-274 | a rejected URL fetches nothing and answers the blocked message; an accepted one issues a single HEAD |
| FetchTools.FetchWebpage | src/mcp-server/tools/fetch.ts:277-370 | a rejected URL fetches nothing and answers the blocked message; an accepted one fetches it once |
| FetchTools.BlockedIgnoresOutcome | src/mcp-server/tools/fetch.ts:55-64 | for a rejected URL no handler's answer depends on the network |
| FetchTools.DecodeEntities | src/mcp-server/tools/fetch.ts:331-336 | entity decoding never lengthens the text |
| FetchTools.DecodeInvertsEscape | src/mcp-server/tools/fetch.ts:331-336 | for text without `&`, decoding undoes HTML escaping of `<`, `>`, `"` and `'` (round trip) |
| FetchTools.DecodeStage | src/mcp-server/tools/fetch.ts:333-336 | replacing one entity undoes the escaping of its character and leaves the later entities in place |
| FetchTools.DecodesTwice | src/mcp-server/tools/fetch.ts:331-336 | `&amp;lt;` decodes all the way to `<`, because `&amp;` is decoded first |
| FetchTools.DecodeWithoutAmpersand | src/mcp-server/tools/fetch.ts:331-336 | text without `&` is unchanged by decoding |
| FetchTools.CollapseSpaces | src/mcp-server/tools/fetch.ts:338-340 | after collapsing, every whitespace is a single space, no two spaces are adjacent, and a leading space stays only where one was |
| FetchTools.PageText | src/mcp-server/tools/fetch.ts:338-341 | page text is one line, with no double spaces and no space at either end |
| FetchTools.WebpageSingleLine | src/mcp-server/tools/fetch.ts:336-353 | a page that fits the limit is reported on a single content line |
| Paths.Walk | src/mcp-server/tools/filesystem.ts:19 | applying path parts to a normal segment list keeps it normal (no empty, `.` or `..` segment) |
| Paths.Resolve | src/mcp-server/tools/filesystem.ts:19 | lexical resolution against the working directory yields a normal segment list |
| Paths.Render | src/mcp-server/tools/filesystem.ts:19 | a resolved path renders as an absolute path |
| Paths.ResolveRender | src/mcp-server/tools/filesystem.ts:19 | resolving a rendered normal path gives back its segments (round trip) |
| Paths.ResolveIdempotent | src/mcp-server/tools/filesystem.ts:19 | resolving an already resolved path changes nothing |
| Paths.RelativeStaysBelow | src/mcp-server/tools/filesystem.ts:19 | a relative path without `..` resolves beneath the working directory |
| Paths.ParentThenDown | src/mcp-server/tools/filesystem.ts:19 | `<cwd>/../tail` resolves to the parent of cwd followed by the tail |
| Paths.WalkExtends | src/mcp-server/tools/filesystem.ts:19 | parts without `..` only extend the segment list |
| Paths.WalkAppend | src/mcp-server/tools/filesystem.ts:19 | walking two part lists in turn equals walking their concatenation |
| Paths.RenderFromPrefix | src/mcp-server/tools/filesystem.ts:20-21 | one rendered path is a text prefix of another exactly when the segments agree except that the last base segment is a text prefix of the matching one |
| Paths.RenderedPrefixCharacterization | src/mcp-server/tools/filesystem.ts:20-21 | the rendered-prefix test agrees with that segment-wise description, the root included |
| Paths.ExtensionBeneath | src/mcp-server/tools/filesystem.ts:20-21 | a segment list extending the base passes the text-prefix test |
| FileSystemTools.Absolute | src/mcp-server/tools/filesystem.ts:19 | the resolved path is absolute |
| FileSystemTools.PathAllowedCharacterization | src/mcp-server/tools/filesystem.ts:13-23 | a path is allowed exactly when its resolved text starts with the resolved working directory, i.e. segment-wise beneath it up to a prefix of the last name |
| FileSystemTools.BeneathAllowed | src/mcp-server/tools/filesystem.ts:18-23 | every path resolving beneath the working directory is allowed |
| FileSystemTools.CwdAllowed | src/mcp-server/tools/filesystem.ts:18-23 | the working directory itself is allowed, as `.` and as its absolute path |
| FileSystemTools.RelativeAllowed | src/mcp-server/tools/filesystem.ts:18-23 | a relative path with no `..` part is allowed |
| FileSystemTools.RootAllowsAll | src/mcp-server/tools/filesystem.ts:18-23 | with `/` as the working directory every path is allowed |
| FileSystemTools.ParentRejected | src/mcp-server/tools/filesystem.ts:18-23 | `..` is rejected below the root |
| FileSystemTools.EscapeRejected | src/mcp-server/tools/filesystem.ts:18-23 | `<cwd>/../tail` is rejected whenever the resolved text does not start with the working directory |
| FileSystemTools.EscapeExample | src/mcp-server/tools/filesystem.ts:18-23 | under `/a/b`, `/a/b/../c` is rejected |
| FileSystemTools.SiblingPrefixAllowed | src/mcp-server/tools/filesystem.ts:20-21 | a sibling whose name extends the working directory's name is allowed though it is not beneath it |
| FileSystemTools.SiblingExample | src/mcp-server/tools/filesystem.ts:20-21 | under `/a/b`, `/a/bc/x` is allowed |
| FileSystemTools.ReadFileTool | src/mcp-server/tools/filesystem.ts:30-80 | a denied path performs no I/O and answers the access-denied message; an allowed one reads exactly the resolved file |
| FileSystemTools.WriteFileTool | src/mcp-server/tools/filesystem.ts:83-136 | a denied path performs no I/O; an allowed one creates the parent only on request and writes the content to the resolved path, unless creating the parent failed |
| FileSystemTools.DirName | src/mcp-server/tools/filesystem.ts:112 | the parent directory drops exactly the last segment |
| FileSystemTools.FileInfoTool | src/mcp-server/tools/filesystem.ts:217-270 | a denied path performs no I/O; an allowed one stats exactly the resolved path |
| FileSystemTools.ListDirectoryTool | src/mcp-server/tools/filesystem.ts:139-214 | a denied path performs no I/O; an allowed one reads the resolved directory, then each subdirectory the listing descends into, in order, and answers exactly the text of `Listing` of the entries, or `(empty directory)` when there are none, or the error message when the first read fails; without recursion or with a depth bound of 0 it reads only the resolved directory |
| FileSystemTools.ReadsBelow | src/mcp-server/tools/filesystem.ts:174 | the subdirectory reads are one `readdir` per descended directory, in order, each on its path under the resolved directory |
| FileSystemTools.ShallowReads | src/mcp-server/tools/filesystem.ts:183-184 | without recursion, or at the depth bound, the listing reads no subdirectory |
| FileSystemTools.DeepReads | src/mcp-server/tools/filesystem.ts:170-190 | when the depth bound is not reached, the listing reads exactly the directories of the pre-order walk, in walk order |
| FileSystemTools.Listing | src/mcp-server/tools/filesystem.ts:170-190 | every entry is listed, and no line is nested deeper than the depth bound allows |
| FileSystemTools.TopLevelLines | src/mcp-server/tools/filesystem.ts:170-190 | the unindented lines of a listing are exactly the top-level entries, in order |
| FileSystemTools.ShallowListing | src/mcp-server/tools/filesystem.ts:183 | without recursion, or at the depth bound, only the top-level entries are listed |
| FileSystemTools.IndentText | src/mcp-server/tools/filesystem.ts:176 | one more level of nesting adds two spaces in front of the line |
| FileSystemTools.ListingTextStart | src/mcp-server/tools/filesystem.ts:196 | a non-empty listing never looks like the empty-directory message |
| FileSystemTools.Preorder | src/mcp-server/tools/filesystem.ts:303-323 | the pre-order walk is at least as long as the top-level list |
| FileSystemTools.PreorderAppend | src/mcp-server/tools/filesystem.ts:303-320 | walking two entry lists in turn equals walking their concatenation |
| FileSystemTools.PreorderVisitsEachEntry | src/mcp-server/tools/filesystem.ts:303-320 | each entry is visited, at its path, after the subtrees of the entries before it and before those of the entries after it, its own subtree following it |
| FileSystemTools.PreorderCountsEntries | src/mcp-server/tools/filesystem.ts:303-320 | the walk visits every entry of the tree exactly once: its length is the number of entries |
| FileSystemTools.AllMatchesArePreorderHits | src/mcp-server/tools/filesystem.ts:303-323 | the recursive search finds exactly the matching names of the pre-order walk, in order |
| FileSystemTools.SearchTakesFirstMatches | src/mcp-server/tools/filesystem.ts:303-323 | the early-stopping search returns the first maxResults matches of the full search |
| FileSystemTools.SearchFilesTool | src/mcp-server/tools/filesystem.ts:273-350 | a denied directory, or a bound of at most 0, performs no I/O; otherwise the directory is read, then each subdirectory the search enters before reaching the bound, and the first matches are reported |
| FileSystemTools.SearchReadsUnbounded | src/mcp-server/tools/filesystem.ts:303-320 | when the bound exceeds the number of matches, the search reads exactly the directories of the pre-order walk, in order |
| FileSystemTools.SearchResultsAreMatches | src/mcp-server/tools/filesystem.ts:304-315 | every result is an entry whose name contains the pattern ignoring case, and there are at most maxResults |
| FileSystemTools.SearchFindsEveryMatch | src/mcp-server/tools/filesystem.ts:304-315 | with a large enough bound, every matching entry is found |
| FileSystemTools.DeniedIgnoresFileSystem | src/mcp-server/tools/filesystem.ts:42-51 | for a denied path no handler's answer depends on the file system |
| MemoryTools.Find | src/mcp-server/tools/memory.ts:18 | lookup finds an entry exactly for stored keys, and the entry is the stored one |
| MemoryTools.Put | src/mcp-server/tools/memory.ts:41-46 | setting keeps the position of an existing key or appends a new one, stores the entry and leaves every other key unchanged |
| MemoryTools.Remove | src/mcp-server/tools/memory.ts:103 | deleting removes the key, leaves every other key unchanged and adds nothing |
| MemoryTools.PutKeepsKeysDistinct | src/mcp-server/tools/memory.ts:41-46 | setting never duplicates a key |
| MemoryTools.RemoveKeepsKeysDistinct | src/mcp-server/tools/memory.ts:103 | deleting never duplicates a key |
| MemoryTools.RemoveLength | src/mcp-server/tools/memory.ts:103 | deleting shrinks the store by one exactly when the key was present |
| MemoryTools.SetTool | src/mcp-server/tools/memory.ts:25-57 | after set, the key holds the new value, tags and update time, keeps its old creation time if it existed, and nothing else changes |
| MemoryTools.SetTwice | src/mcp-server/tools/memory.ts:38-46 | setting a key twice leaves one entry with the second value and the first creation time |
| MemoryTools.GetTool | src/mcp-server/tools/memory.ts:60-93 | a missing key gives the not-found message; a stored one shows its key and value |
| MemoryTools.DeleteTool | src/mcp-server/tools/memory.ts:96-116 | the answer says deleted exactly when the key was present; afterwards the key is absent and the rest unchanged |
| MemoryTools.Listed | src/mcp-server/tools/memory.ts:131-137 | list keeps stored entries in insertion order, only those with the tag if one is given, at most limit of them |
| MemoryTools.ListedComplete | src/mcp-server/tools/memory.ts:131-137 | with a large enough limit, every entry with the tag is listed |
| MemoryTools.ListTool | src/mcp-server/tools/memory.ts:119-170 | an empty result gives the tag or empty-store message; otherwise the answer starts with the entry count and holds the line of each listed entry, in list order |
| MemoryTools.ListShowsEntry | src/mcp-server/tools/memory.ts:152-170 | every listed entry's line appears in the answer |
| MemoryTools.Found | src/mcp-server/tools/memory.ts:184-193 | search returns at most limit stored entries whose key, value or a tag contains the query ignoring case, and all of them when the limit allows |
| MemoryTools.Preview | src/mcp-server/tools/memory.ts:209-211 | short values are shown whole; longer ones as their first 100 characters plus a mark |
| MemoryTools.SearchTool | src/mcp-server/tools/memory.ts:172-226 | no match gives the not-found message; otherwise the answer starts with the match count and holds the block of each match, in result order |
| MemoryTools.SearchShowsEntry | src/mcp-server/tools/memory.ts:205-226 | every match's block appears in the answer |
| MemoryTools.ClearTool | src/mcp-server/tools/memory.ts:228-259 | an unconfirmed clear changes nothing; a confirmed one empties the store and reports the old size |
| MemoryTools.AppendTool | src/mcp-server/tools/memory.ts:263-305 | append on a missing key changes nothing; otherwise the value becomes old + separator + new, keeping tags, creation time, position and the other keys |
| MemoryTools.AllTags | src/mcp-server/tools/memory.ts:315 | the collected tags are exactly the tags of some entry |
| MemoryTools.UniqueTagCount | src/mcp-server/tools/memory.ts:315-325 | the unique-tag count is the size of the union of all tag sets |
| MemoryTools.TotalSizePut | src/mcp-server/tools/memory.ts:314 | replacing an entry changes the total size by the difference of the value lengths |
| MemoryTools.AppendGrowsTotalSize | src/mcp-server/tools/memory.ts:263-314 | append grows the total size by the separator and the appended text |
| MemoryTools.StatsTool | src/mcp-server/tools/memory.ts:309-330 | the statistics show the entry count, the total value size and the number of distinct tags; with no tags the tag list is `(none)` |
| MemoryTools.ClearedStats | src/mcp-server/tools/memory.ts:228-325 | after a confirmed clear, stats count no size and no tags |
| BundleDownloader.Resolve | src/cli/bundle-downloader.ts:108-131 | a visited key resolves to nothing, a missing key only gets marked visited, and a present bundle's direct files come first |
| BundleDownloader.ResolveAll | src/cli/bundle-downloader.ts:124-128 | resolving a list of includes visits every one of them and only grows the visited list |
| BundleDownloader.VisitShrinks | src/cli/bundle-downloader.ts:112 | visiting a new bundle strictly decreases the number of unvisited bundles, so resolution terminates on cycles |
| BundleDownloader.ResolveVisitsOnce | src/cli/bundle-downloader.ts:108-131 | the visited list never repeats, and the files are those of the newly visited bundles in visiting order |
| BundleDownloader.ResolveAllVisitsOnce | src/cli/bundle-downloader.ts:124-128 | across sibling includes each bundle is visited once, and the files are those of the newly visited bundles in order |
| BundleDownloader.SelfIncludeResolves | src/cli/bundle-downloader.ts:109-111 | a bundle that includes only itself resolves to its own files |
| BundleDownloader.OnlyVisitedResolveToNothing | src/cli/bundle-downloader.ts:110 | includes that are all visited contribute no files |
| BundleDownloader.Count | src/cli/bundle-downloader.ts:88-103 | a missing bundle counts 0, and a present one counts at least its direct files |
| BundleDownloader.CycleOverflows | src/cli/bundle-downloader.ts:88-103 | a key from which an endless include chain is reachable (a cycle) exhausts every stack depth |
| BundleDownloader.AcyclicCounts | src/cli/bundle-downloader.ts:88-103 | on an acyclic manifest, witnessed by a rank every include lowers, the count finishes once the stack is two frames deeper than the key's rank |
| BundleDownloader.CountsWithinBundleCount | src/cli/bundle-downloader.ts:88-103 | with ranks below the number of bundles, a stack deeper than that number plus one counts every bundle |
| BundleDownloader.CountFuelMonotone | src/cli/bundle-downloader.ts:88-103 | once the count is defined, more stack does not change it |
| BundleDownloader.SelfIncludeOverflows | src/cli/bundle-downloader.ts:95-99 | a self-including bundle exhausts any stack |
| BundleDownloader.OneFailureFailsAll | src/cli/bundle-downloader.ts:95-99 | one overflowing include makes the whole count overflow |
| BundleDownloader.CountBoundsResolve | src/cli/bundle-downloader.ts:88-131 | the naive count bounds the number of resolved files |
| BundleDownloader.DownloadBundle | src/cli/bundle-downloader.ts:166-197 | an unloaded manifest, or a key that is neither defined nor inherited from `Object.prototype`, fails; an inherited name downloads nothing and reports 0 and 0; otherwise the files are the first-occurrence de-duplication of the resolved files, and successes plus failures equal their number |
| BundleDownloader.CountDownloads | src/cli/bundle-downloader.ts:184-194 | every unique file is attempted once: successes are the files that downloaded, and successes plus failures equal the number of files |
| BundleDownloader.ParseInt | src/cli/bundle-downloader.ts:234 | text without any digit does not parse |
| BundleDownloader.ParseIntOfNatToString | src/cli/bundle-downloader.ts:234 | parsing a number's decimal text gives the number back |
| BundleDownloader.ParseIntOfDigits | src/cli/bundle-downloader.ts:234 | an all-digit string parses to its decimal value |
| BundleDownloader.Choose | src/cli/bundle-downloader.ts:225-244 | quit words end the menu; an in-range number picks that bundle; otherwise an exact name is used, else the choice is invalid |
| BundleDownloader.ChooseByNumber | src/cli/bundle-downloader.ts:234-239 | answering n picks the n-th bundle |
| BundleDownloader.NumberShadowsName | src/cli/bundle-downloader.ts:234-244 | a bundle named by an in-range number cannot be chosen by name |
| BundleDownloader.Scan | src/cli/bundle-downloader.ts:337-351 | positionals never start with `--`, and only the three value flags consume a value |
| BundleDownloader.Step | src/cli/bundle-downloader.ts:337-350 | a skipped token changes nothing; a setting changes only through its own flag; the command changes only through a positional while it is empty or `interactive`, and the bundle name only through a positional |
| BundleDownloader.Parse | src/cli/bundle-downloader.ts:325-351 | each value flag takes its last value, else its default, and the command is `interactive` or one of the positionals |
| BundleDownloader.ParseArgs | src/cli/bundle-downloader.ts:325-351 | the argument loop computes the token-wise option fold |
| BundleDownloader.LastFlagWins | src/cli/bundle-downloader.ts:337-346 | each of `--repo`, `--branch` and `--output` takes the last value given, else the default |
| BundleDownloader.FirstPositionalIsCommand | src/cli/bundle-downloader.ts:347-350 | the first positional replaces the default command and the last later positional names the bundle |
| BundleDownloader.LastPositionalIsBundle | src/cli/bundle-downloader.ts:347-350 | once a command is set, the last positional names the bundle |
| BundleDownloader.CommandIsPositional | src/cli/bundle-downloader.ts:347-350 | the command is the default or one of the positionals |
| BundleDownloader.Dispatch | src/cli/bundle-downloader.ts:355-392 | each action is taken exactly for its commands: interactive for `interactive`/`i`, the list for `list`/`ls`, for `download`/`dl` the missing-name error exactly when the bundle name is empty and otherwise a download of that bundle, the wget commands for `wget`, usage for the three help spellings, and the unknown-command error, naming the command, for every other command |
| BundleDownloader.HelpFlagUnreachable | src/cli/bundle-downloader.ts:381-385 | `--help` can never become the command, so only `help` and `-h` show usage |
| TimeTools.Differences | src/mcp-server/tools/time.ts:178-184 | each unit is the magnitude of the floored quotient of the difference, milliseconds are its magnitude, and the sign is kept separately |
| TimeTools.DifferenceAsymmetric | src/mcp-server/tools/time.ts:178-184 | a negative difference that is not whole seconds shows one second more than its opposite |
| TimeTools.NegativeMarker | src/mcp-server/tools/time.ts:186-195 | the `(negative)` marker appears exactly for a negative difference |
| TimeTools.TimeDifferenceTool | src/mcp-server/tools/time.ts:163-196 | an unparsable start or end gives the error; `now` as end uses the clock; otherwise the text describes end minus start |
| TimeTools.Classify | src/mcp-server/tools/time.ts:235-242 | `now` in any case is the clock, a non-empty all-digit string is Unix seconds, anything else is a date string |
| TimeTools.NoLeadingZeroRoundTrip | src/mcp-server/tools/time.ts:237-239 | a digit string without a leading zero is the decimal text of its value |
| TimeTools.InstantOf | src/mcp-server/tools/time.ts:235-250 | Unix seconds become seconds times 1000, valid only within the date range |
| TimeTools.UnixTime | src/mcp-server/tools/time.ts:264 | the Unix output is the floor of the milliseconds divided by 1000 |
| TimeTools.Relative | src/mcp-server/tools/time.ts:271-289 | the direction is past exactly when the difference is non-negative; the unit is the largest with a non-zero amount, falling back to seconds |
| TimeTools.SecondsToMinutes | src/mcp-server/tools/time.ts:273-276 | successive floor divisions equal a single division by the unit's length |
| TimeTools.FormatTimeTool | src/mcp-server/tools/time.ts:235-289 | an invalid input gives the error; the unix and relative formats report the instant as described |
| TimeTools.UnixRoundTrip | src/mcp-server/tools/time.ts:237-264 | formatting Unix seconds as unix gives the same text back |
| TimeTools.UnixOutOfRange | src/mcp-server/tools/time.ts:244-250 | Unix seconds beyond the date range give the invalid-time error in every format |
| TimeTools.CurrentTimeTool | src/mcp-server/tools/time.ts:37-38 | unix format shows the floor of the clock in seconds |
| TimeTools.ConvertTimezoneTool | src/mcp-server/tools/time.ts:88-150 | an unparsable time gives the format error; `now` uses the clock; a zone that fails to render gives `Error converting timezone: ` and the message, the source zone checked first; for any valid time (including `now`) whose two renderings succeed, the answer is both renderings with their zones |
| TimeTools.ConvertSucceedsExactly | src/mcp-server/tools/time.ts:97-150 | the answer is a conversion exactly when the time is valid and both zones render; an unknown source zone is reported with its error message |
| TimeTools.UnknownZoneReported | src/mcp-server/tools/time.ts:98-150 | for `now`, an unknown source zone is reported whatever the parser does |
| TimeTools.TimezoneLines | src/mcp-server/tools/time.ts:370-376 | the list is `UTC` followed by the region's zones |
| TimeTools.ListTimezonesTool | src/mcp-server/tools/time.ts:368-382 | the listing starts with `UTC` and names every zone of the region |
| TimeTools.AllRegionsListsEveryZone | src/mcp-server/tools/time.ts:370 | `all` lists 28 lines, including every zone of every region |
| RuleMarkdown.LineEnd | src/mcp-server/tools/rules.ts:46 | the line end is the first line terminator at or after the start |
| RuleMarkdown.TitleAt | src/mcp-server/tools/rules.ts:46 | a title match starts a line with `#` and captures a non-empty single line |
| RuleMarkdown.FirstTitle | src/mcp-server/tools/rules.ts:46 | the title is the capture of the first matching line, and no match means no earlier line matches |
| RuleMarkdown.Title | src/mcp-server/tools/rules.ts:46-47 | content without `#` takes its title from the file name minus `.md` |
| RuleMarkdown.TitleOfHeading | src/mcp-server/tools/rules.ts:46-47 | content starting with `# heading` takes that heading as its title |
| RuleMarkdown.TitleFallback | src/mcp-server/tools/rules.ts:47 | content with no heading line falls back to the file name |
| RuleMarkdown.DescriptionMatch | src/mcp-server/tools/rules.ts:50 | a returned match is a match of the expression: `#`, white space, a title, a newline run, the lazy group and a paragraph break |
| RuleMarkdown.DescriptionMatchIsFirst | src/mcp-server/tools/rules.ts:50 | whenever the expression matches, a match is returned, and it is the first in backtracking order |
| RuleMarkdown.DescriptionCapture | src/mcp-server/tools/rules.ts:50 | a captured description is non-empty |
| RuleMarkdown.DescriptionCaptureShape | src/mcp-server/tools/rules.ts:50 | a capture lies between a newline run and the following paragraph break |
| RuleMarkdown.DescriptionPicksLastParagraph | src/mcp-server/tools/rules.ts:50 | with two paragraphs after the title, the last one is taken |
| RuleMarkdown.BareHeadingMatch | src/mcp-server/tools/rules.ts:50 | in `#\n\n\nPara\n\nX` the white space stops one line break early so that the title and the newline run can match |
| RuleMarkdown.DescriptionAfterBareHeading | src/mcp-server/tools/rules.ts:50-53 | `#\n\n\nPara\n\nX` has the description `Para` |
| RuleMarkdown.NoBreakNoDescription | src/mcp-server/tools/rules.ts:50-53 | content without a paragraph break has `No description` |
| RuleMarkdown.Description | src/mcp-server/tools/rules.ts:50-53 | no match gives `No description`; otherwise the trimmed capture, cut to its first 200 characters when longer |
| RuleMarkdown.TagHeader | src/mcp-server/tools/rules.ts:56 | a tag header is `**Tag:**` or `**Tags:**` in any case |
| RuleMarkdown.TagMatchAt | src/mcp-server/tools/rules.ts:56 | a tag match has a header and captures a non-empty single line |
| RuleMarkdown.SplitTags | src/mcp-server/tools/rules.ts:58-59 | a tag list splits into at least one piece, none holding `,` or `;` |
| RuleMarkdown.TagsFrom | src/mcp-server/tools/rules.ts:56-61 | tags hold no separator characters |
| RuleMarkdown.NoHeaderNoTags | src/mcp-server/tools/rules.ts:56-61 | content without a tag header has no tags |
| RuleMarkdown.TagLine | src/mcp-server/tools/rules.ts:56-61 | a leading tag line contributes its split list first, followed by later tag lines |
| RuleMarkdown.IdOfMarkdownFile | src/mcp-server/tools/rules.ts:64 | the id of `name.md` in a category is `category/name` |
| RulesTools.RuleOf | src/mcp-server/tools/rules.ts:44-70 | a rule carries its category and the id derived from category and file name |
| RulesTools.ScanFiles | src/mcp-server/tools/rules.ts:38-71 | only `.md` files become rules, all in the given category |
| RulesTools.ScanFilesComplete | src/mcp-server/tools/rules.ts:38-71 | when every read succeeds, the scan does not fail and yields one rule per `.md` file |
| RulesTools.ScanEntries | src/mcp-server/tools/rules.ts:31-72 | every rule comes from a `.md` file and belongs to a category directory of the listing |
| RulesTools.ListedRules | src/mcp-server/tools/rules.ts:102-104 | a category filter keeps exactly the rules of that category; no filter keeps them all |
| RulesTools.Groups | src/mcp-server/tools/rules.ts:120-129 | the group keys are exactly the rules' categories, each once, and each group holds exactly that category's rules in scan order; in `Object.entries` order, a category that is an array index is preceded only by array indices of no greater value, and the other categories keep the order of their first rule |
| RulesTools.OwnKeyOrder | src/mcp-server/tools/rules.ts:129 | the entry order is a permutation of the inserted keys, with array indices first in ascending value and the named keys in insertion order |
| RulesTools.GroupsPartition | src/mcp-server/tools/rules.ts:120-127 | the group sizes add up to the number of rules |
| RulesTools.CountsCoverAll | src/mcp-server/tools/rules.ts:120-127 | per-category counts over distinct categories covering all rules add up to the number of rules |
| RulesTools.RulesListTool | src/mcp-server/tools/rules.ts:99-150 | an empty selection gives the category or empty-store message; a selected rule whose category is an inherited name such as `constructor` makes `push` throw its `TypeError`; otherwise the listing is headed by the total and shows every selected rule's entry and its category's heading |
| RulesTools.InheritedCategoryFails | src/mcp-server/tools/rules.ts:121-123 | listing a rule of category `constructor` fails |
| RulesTools.SingleEmptyTagShownDifferently | src/mcp-server/tools/rules.ts:140-289 | a single empty tag shows as empty in `rules_list` but as `None` in `rules_by_category` |
| RulesTools.RulesByCategoryTool | src/mcp-server/tools/rules.ts:266-293 | the not-found message appears exactly when no rule has the category; otherwise the answer starts with the heading and the count of the category's rules, then holds the entry of each such rule, in scan order |
| RulesTools.RulesByCategoryShowsRule | src/mcp-server/tools/rules.ts:276-293 | every rule of the category has its entry in the answer |
| RulesTools.FindRule | src/mcp-server/tools/rules.ts:171 | a found rule is one of the rules and has the requested id |
| RulesTools.FindRuleFirst | src/mcp-server/tools/rules.ts:171 | nothing is found exactly when no rule has the id; otherwise the first such rule is found |
| RulesTools.RulesGetTool | src/mcp-server/tools/rules.ts:169-200 | `Rule not found` appears exactly for an unknown id; a read error is reported; otherwise the title heads the answer and the content ends it |
| RulesTools.SearchMatches | src/mcp-server/tools/rules.ts:218-224 | search keeps exactly the rules whose title, description, a tag or the category contains the query ignoring case |
| RulesTools.SearchFindsCategory | src/mcp-server/tools/rules.ts:218-224 | searching for a rule's category finds that rule |
| RulesTools.RulesSearchTool | src/mcp-server/tools/rules.ts:214-252 | the no-match message appears exactly when nothing matches; otherwise the answer starts with the heading and the number of matches, then holds the entry of each match, in scan order |
| RulesTools.RulesSearchShowsRule | src/mcp-server/tools/rules.ts:218-252 | every matching rule has its entry in the answer |
| RulesTools.StringLeqTotal | src/mcp-server/tools/rules.ts:313 | the string order used for sorting is total |
| RulesTools.Sort | src/mcp-server/tools/rules.ts:313 | sorting by a total order yields a sorted permutation |
| RulesTools.CategoryList | src/mcp-server/tools/rules.ts:308-313 | the categories are sorted, distinct, and exactly those of some rule |
| RulesTools.CategoryCountsSum | src/mcp-server/tools/rules.ts:308-319 | the per-category counts add up to the number of rules |
| RulesTools.RulesCategoriesTool | src/mcp-server/tools/rules.ts:298-322 | the answer is headed by the number of distinct categories and has a line for every rule's category |
| RulesTools.DistinctCategoryCount | src/mcp-server/tools/rules.ts:308-313 | the category list is as long as the set of categories of the rules |
| McpConfig.Get | src/mcp-server/tools/mcp-config.ts:174 | a field lookup succeeds exactly for present keys |
| McpConfig.Put | src/mcp-server/tools/mcp-config.ts:175-181 | a spread assignment keeps the key's position or appends it, sets the value and leaves other keys unchanged |
| McpConfig.Assign | src/mcp-server/tools/mcp-config.ts:175-181 | spreading one object over another keeps the target's keys in order and has exactly the keys of both |
| McpConfig.AssignOverrides | src/mcp-server/tools/mcp-config.ts:175-181 | after the spread, a key holds the source's value if the source has it, else the target's |
| McpConfig.AssignKeepsKeysDistinct | src/mcp-server/tools/mcp-config.ts:175-181 | spreading never duplicates a key |
| McpConfig.SpreadOf | src/mcp-server/tools/mcp-config.ts:179 | spreading an object gives its fields |
| McpConfig.Template | src/mcp-server/tools/mcp-config.ts:17-85 | every template is an object with distinct keys; it has `mcpServers` exactly for the three named clients, holding one entry under the server name |
| McpConfig.TemplateRunsNode | src/mcp-server/tools/mcp-config.ts:27-68 | every template's server entry runs `node` with the server path as its only argument |
| McpConfig.UnknownClientIsGeneric | src/mcp-server/tools/mcp-config.ts:61-84 | any other client gets the generic template, named after the server |
| McpConfig.ServerNameDefault | src/mcp-server/tools/mcp-config.ts:20 | without a name the server is called `new-project-bundle` |
| McpConfig.DefaultConfigPath | src/mcp-server/tools/mcp-config.ts:90-98 | every default path is a dot-entry directly in the home directory; an unlisted client gets `.mcp/config.json` there |
| McpConfig.FallbackPath | src/mcp-server/tools/mcp-config.ts:90-98 | every unlisted client, including `generic`, uses `~/.mcp/config.json` |
| McpConfig.NamedPathsDistinct | src/mcp-server/tools/mcp-config.ts:92-97 | the four listed clients have pairwise different paths |
| McpConfig.PathLines | src/mcp-server/tools/mcp-config.ts:220-224 | one line per listed client |
| McpConfig.ListConfigPathsTool | src/mcp-server/tools/mcp-config.ts:216-240 | the answer starts with its heading and has the path lines of `claude-desktop`, `cursor`, `cline` and `generic`, each ending before the next begins |
| McpConfig.ListedPathsAreDefaults | src/mcp-server/tools/mcp-config.ts:220-234 | the path listing shows each listed client's default path |
| McpConfig.FinalConfig | src/mcp-server/tools/mcp-config.ts:165-186 | without an applicable merge the new config is written; with one, the existing fields are kept and `mcpServers` is the override of existing by new |
| McpConfig.MergeOverrides | src/mcp-server/tools/mcp-config.ts:177-182 | after a merge, each server comes from the new config if it names it, else from the existing one |
| McpConfig.InstallKeepsOtherServers | src/mcp-server/tools/mcp-config.ts:165-186 | installing for a named client sets its server to the template entry and keeps every other server |
| McpConfig.GenericNeverMerges | src/mcp-server/tools/mcp-config.ts:61-81 | the generic template is written as it is, whatever exists |
| McpConfig.InstallConfigTool | src/mcp-server/tools/mcp-config.ts:155-211 | a failed mkdir or write reports the error and writes nothing; otherwise the final config is written to the client's path |
| McpConfig.GenericMergeReportedButNotDone | src/mcp-server/tools/mcp-config.ts:165-195 | installing `generic` with merge says merged but writes the template alone |
| McpConfig.ServerLines | src/mcp-server/tools/mcp-config.ts:262-266 | one line per server name |
| McpConfig.ServerListing | src/mcp-server/tools/mcp-config.ts:262-266 | a missing or falsy `mcpServers` lists `None` |
| McpConfig.ListingNamesEveryServer | src/mcp-server/tools/mcp-config.ts:262-266 | every configured server name is listed |
| McpConfig.EmptyServersListNothing | src/mcp-server/tools/mcp-config.ts:262-266 | an empty `mcpServers` object lists nothing rather than `None` |
| McpConfig.CheckConfigTool | src/mcp-server/tools/mcp-config.ts:250-281 | an unreadable or null config gives the not-found text; otherwise the answer ends with the server listing |

## Left out

- Tool registration, argument schemas and the response envelope are not modelled: they live in the MCP SDK and zod. The entry point registers only six tool modules, so the rules and config tools are not reachable through it. Their logic is modelled as plain functions.
- `github.ts` and `git.ts` are not part of this model. They are REST and `exec` pass-throughs.
- All real I/O is replaced by inputs or the effect log: the environment, process execution, `fetch`, file reads, writes, `readdir`, `stat` and `mkdir`, readline and console output. This includes the manifest loading, URL construction, file downloads and `listBundles` output of the bundle downloader.
- Timeouts and redirect following are not modelled, nor are request headers.
- WHATWG URL parsing is not modelled: the serialised `href`, or its absence for an unparsable URL, is an input.
- Date parsing is a `parse` parameter; `toISOString`, `toLocaleString` and Intl rendering in `format_time` and `get_current_time` are a `display` parameter, and in `convert_timezone` a `render` parameter.
- Randomness is an input: `randomBytes` is a byte function; UUIDs, random numbers and base64 bytes are not modelled.
- `system_info`, hashing, base64 and `json_format` are not modelled.
- JSON parsing and serialisation are not modelled: parsed configs are inputs and `stringify` is a parameter. JSON numbers are reals.
- The HTML tag- and script-stripping regexes of `fetch_webpage` are not modelled; the stripped text is an input. Entity decoding and whitespace collapsing are modelled.
- `list_env` sorts with `localeCompare`; the model takes the environment in the order it is listed.
- `Object.keys` moves integer-like keys to the front. The model states this order for the groups of `rules_list` (OwnKeyOrder) but keeps insertion order for all keys in templates, merges and server listings.
- String lengths are UTF-16 code units in the source and characters here. This affects `write_file`'s byte count, memory total size and all truncation.
- `toLowerCase` and case-insensitive regexes are modelled for ASCII letters only.
- Every `readdir` of `list_directory` and `search_files` is logged, but only the top-level one can fail; errors deeper in the tree are not modelled.
- `path.resolve` is modelled for a normalised working directory; `..` above the root stays at the root. Symlinks are not resolved; the gates are lexical, as in the source.
- The rule scan takes the category directories as already listed, with the outcome of `stat`, `readdir` and each file read as inputs.
- `mcp_generate_config` and `mcp_setup_guide` are not modelled: they only render the template or static text.
- `mcpServers` lookups on inherited object properties such as `constructor` are not modelled; client names outside the schema's enum cannot reach the handlers.
- BundleDownloader.Count: the stack depth is a fuel parameter; `None` stands for the `RangeError` of unbounded recursion.
- BundleDownloader.AcyclicCounts: acyclicity is given as a rank witness; that every acyclic manifest has one is not proved.
- BundleDownloader.Resolve: the null-manifest guard is modelled in `DownloadBundle` only; the resolver always receives a loaded manifest.
- BundleDownloader.ParseInt: only the one-argument `parseInt` is modelled: decimal digits, or hexadecimal digits after a `0x` or `0X` prefix. Numbers beyond 2^53 are exact here.
- FileSystemTools.Listing: a fractional `maxDepth` is not modelled; depths are integers.
- JavaScript numbers given as arguments are integers here. A fractional `limit`, `maxResults`, `maxDepth` or `length` behaves differently in the source: `slice` and `substring` truncate it, while the `results.length >= maxResults` test of `search_files` and the `Math.ceil` of `random_generate` round it up.
- McpConfig.DefaultConfigPath: the path is the home directory, `/` and the client's relative path; `path.join` normalisation is not modelled, so a home directory of `/` or one ending in `/` gives a doubled separator here.
- An error a handler throws is represented by a fixed stand-in text, not by the engine's own message. `PushError` is the `TypeError` of `rules_list`. `SizeError` stands for Node's `ERR_OUT_OF_RANGE` `RangeError` of `randomBytes`, whose real message names the bounds and the value received. `TooLongError` stands for V8's string-length error. How the MCP SDK turns a thrown error into a response is not modelled.
- TimeTools.FormatTimeTool: one clock reading, `now`, serves both the `now` input and the reference point of the relative format; the source reads the clock a second time for the relative format, so the two can differ by the time in between.
- SystemTools.RandomString: the longest string, MaxStringLength, is V8's limit on 64-bit platforms; other engines and 32-bit builds differ.
- TimeTools.ConvertTimezoneTool: `toLocaleString` in a zone is the `render` parameter, which returns the rendered text or the message of its `RangeError`.
- FetchTools.DecodeEntities: its own contract states only the length bound; what decoding does is stated by DecodeInvertsEscape, DecodesTwice and DecodeWithoutAmpersand.
- FileSystemTools.Preorder: its own contract states only a length bound; the walk's order and size are stated by PreorderAppend, PreorderVisitsEachEntry and PreorderCountsEntries.
- RuleMarkdown.DescriptionCapture: its own contract states only that a capture is non-empty; which stretch is captured is stated by DescriptionMatch, DescriptionMatchIsFirst and DescriptionCaptureShape.

=== FILE: bundles.dfy ===
/**
 * The bundle downloader CLI: include resolution over a bundle manifest, the
 * recursive file count shown in the bundle list, the de-duplicated download
 * loop with its counters, the interactive menu selection and the argument loop
 * of the entry point.
 */
module BundleDownloader {
  import opened Wrappers
  import opened Seqs
  import opened Text

  const DefaultRepo: string := "cbwinslow/new_project_bundle"
  const DefaultBranch: string := "main"
  const DefaultOutput: string := "./downloaded-bundles"

  /** One bundle of `bundles.json`. An absent `files` or `includes` array
      behaves exactly like an empty one in every use, so both are sequences. */
  datatype Bundle = Bundle(name: string, description: string, files: seq<string>, includes: seq<string>)

  /** The parsed manifest: `bundles` is the lookup `manifest.bundles[key]` and
      `keys` is the order `Object.keys` reports the same keys in. */
  datatype Manifest = Manifest(version: string, keys: seq<string>, bundles: map<string, Bundle>)

  ghost predicate WellFormed(m: Manifest) {
    NoDuplicates(m.keys) && forall k :: k in m.bundles <==> k in m.keys
  }

  // ---- resolveBundleFiles ----

  /** The result of one resolution call: the files it returns and the shared
      `visited` set afterwards, kept in insertion order as a JavaScript `Set` is. */
  datatype Resolution = Resolution(files: seq<string>, visited: seq<string>)

  /** How many bundles of the manifest are not yet visited: the measure that
      makes resolution terminate on any manifest, cyclic or not. */
  function Unvisited(m: Manifest, visited: seq<string>): nat {
    |m.bundles.Keys - set k | k in visited|
  }

  lemma UnvisitedMonotone(m: Manifest, a: seq<string>, b: seq<string>)
    requires a <= b
    ensures Unvisited(m, b) <= Unvisited(m, a)
  {
    var sa := set k | k in a;
    var sb := set k | k in b;
    assert sa <= sb;
    SubsetCardinality(m.bundles.Keys - sb, m.bundles.Keys - sa);
  }

  lemma SubsetCardinality<T>(small: set<T>, big: set<T>)
    requires small <= big
    ensures |small| <= |big|
  {
    assert big == small + (big - small);
  }

  lemma VisitShrinks(m: Manifest, visited: seq<string>, key: string)
    requires key in m.bundles && key !in visited
    ensures Unvisited(m, visited + [key]) < Unvisited(m, visited)
  {
    var before := m.bundles.Keys - set k | k in visited;
    var after := m.bundles.Keys - set k | k in visited + [key];
    assert after == before - {key};
    assert key in before;
  }

  /** `resolveBundleFiles(key, visited)`: a key already visited, or one the
      manifest lacks, contributes nothing; every key is marked visited before
      its bundle is looked up; a bundle contributes its own files and then the
      resolution of each include in order, all sharing one `visited` set. */
  function Resolve(m: Manifest, key: string, visited: seq<string>): (r: Resolution)
    ensures visited <= r.visited && key in r.visited
    ensures Unvisited(m, r.visited) <= Unvisited(m, visited)
    ensures key in visited ==> r == Resolution([], visited)
    ensures key !in visited && key !in m.bundles ==> r == Resolution([], visited + [key])
    ensures key !in visited && key in m.bundles ==> m.bundles[key].files <= r.files
    decreases Unvisited(m, visited), 0, 0
  {
    if key in visited then Resolution([], visited)
    else
      var v := visited + [key];
      UnvisitedMonotone(m, visited, v);
      if key !in m.bundles then Resolution([], v)
      else
        VisitShrinks(m, visited, key);
        var inner := ResolveAll(m, m.bundles[key].includes, v);
        assert inner.visited[|v| - 1] == key;
        Resolution(m.bundles[key].files + inner.files, inner.visited)
  }

  /** The `for (const includedKey of bundle.includes)` loop of the resolution. */
  function ResolveAll(m: Manifest, keys: seq<string>, visited: seq<string>): (r: Resolution)
    ensures visited <= r.visited
    ensures forall k :: k in keys ==> k in r.visited
    ensures Unvisited(m, r.visited) <= Unvisited(m, visited)
    decreases Unvisited(m, visited), 1, |keys|
  {
    if |keys| == 0 then Resolution([], visited)
    else
      var first := Resolve(m, keys[0], visited);
      var rest := ResolveAll(m, keys[1..], first.visited);
      assert forall k :: k in keys ==> k == keys[0] || k in keys[1..];
      Resolution(first.files + rest.files, rest.visited)
  }

  /** The files of one visited key: none when the manifest lacks it. */
  function FilesOf(m: Manifest, key: string): seq<string> {
    if key in m.bundles then m.bundles[key].files else []
  }

  /** The files of a run of visited keys, in visiting order. */
  function FilesOfAll(m: Manifest, keys: seq<string>): seq<string>
    decreases |keys|
  {
    if |keys| == 0 then [] else FilesOf(m, keys[0]) + FilesOfAll(m, keys[1..])
  }

  lemma {:induction false} FilesOfAllAppend(m: Manifest, a: seq<string>, b: seq<string>)
    ensures FilesOfAll(m, a + b) == FilesOfAll(m, a) + FilesOfAll(m, b)
    decreases |a|
  {
    if |a| > 0 {
      assert (a + b)[1..] == a[1..] + b;
      FilesOfAllAppend(m, a[1..], b);
    } else {
      assert a + b == b;
    }
  }

  lemma VisitedSplit(v0: seq<string>, v1: seq<string>, v2: seq<string>)
    requires v0 <= v1 <= v2
    ensures v2[|v0|..] == v1[|v0|..] + v2[|v1|..]
  {
  }

  /** The shared `visited` set makes every bundle contribute at most once: a
      resolution visits keys it had not visited before, each once, and returns
      exactly the files of the newly visited keys, in the order it visited them. */
  lemma {:induction false} ResolveVisitsOnce(m: Manifest, key: string, visited: seq<string>)
    requires NoDuplicates(visited)
    ensures NoDuplicates(Resolve(m, key, visited).visited)
    ensures Resolve(m, key, visited).files == FilesOfAll(m, Resolve(m, key, visited).visited[|visited|..])
    decreases Unvisited(m, visited), 0, 0
  {
    var r := Resolve(m, key, visited);
    if key !in visited {
      var v := visited + [key];
      NoDuplicatesAppend(visited, key);
      if key in m.bundles {
        VisitShrinks(m, visited, key);
        var inner := ResolveAll(m, m.bundles[key].includes, v);
        ResolveAllVisitsOnce(m, m.bundles[key].includes, v);
        VisitedSplit(visited, v, inner.visited);
        assert v[|visited|..] == [key];
        FilesOfAllAppend(m, [key], inner.visited[|v|..]);
      } else {
        assert r.visited[|visited|..] == [key];
      }
    }
  }

  lemma {:induction false} ResolveAllVisitsOnce(m: Manifest, keys: seq<string>, visited: seq<string>)
    requires NoDuplicates(visited)
    ensures NoDuplicates(ResolveAll(m, keys, visited).visited)
    ensures ResolveAll(m, keys, visited).files == FilesOfAll(m, ResolveAll(m, keys, visited).visited[|visited|..])
    decreases Unvisited(m, visited), 1, |keys|
  {
    if |keys| > 0 {
      var first := Resolve(m, keys[0], visited);
      var rest := ResolveAll(m, keys[1..], first.visited);
      ResolveVisitsOnce(m, keys[0], visited);
      ResolveAllVisitsOnce(m, keys[1..], first.visited);
      VisitedSplit(visited, first.visited, rest.visited);
      FilesOfAllAppend(m, first.visited[|visited|..], rest.visited[|first.visited|..]);
    }
  }

  lemma NoDuplicatesAppend(xs: seq<string>, x: string)
    requires NoDuplicates(xs) && x !in xs
    ensures NoDuplicates(xs + [x])
  {
  }

  /** A bundle that includes only itself resolves to its own files: the cycle
      is cut by the `visited` set. */
  lemma SelfIncludeResolves(m: Manifest, key: string)
    requires key in m.bundles
    requires forall k :: k in m.bundles[key].includes ==> k == key
    ensures Resolve(m, key, []).files == m.bundles[key].files
  {
    var v: seq<string> := [] + [key];
    OnlyVisitedResolveToNothing(m, m.bundles[key].includes, v);
    var inner := ResolveAll(m, m.bundles[key].includes, v);
    assert Resolve(m, key, []).files == m.bundles[key].files + inner.files;
  }

  lemma {:induction false} OnlyVisitedResolveToNothing(m: Manifest, keys: seq<string>, visited: seq<string>)
    requires forall k :: k in keys ==> k in visited
    ensures ResolveAll(m, keys, visited) == Resolution([], visited)
    decreases |keys|
  {
    if |keys| > 0 {
      assert keys[0] in keys;
      OnlyVisitedResolveToNothing(m, keys[1..], visited);
    }
  }

  // ---- getBundleFileCount ----

  /** `getBundleFileCount(key)`: the direct files plus the counts of the
      includes, with no cycle guard. `fuel` is the call-stack depth still
      available; `None` is the `RangeError` an exhausted stack raises. */
  function Count(m: Manifest, key: string, fuel: nat): (r: Option<nat>)
    ensures fuel > 0 && key !in m.bundles ==> r == Some(0)
    ensures r.Some? && key in m.bundles ==> r.value >= |m.bundles[key].files|
    decreases fuel, 0, 0
  {
    if fuel == 0 then None
    else if key !in m.bundles then Some(0)
    else
      match CountAll(m, m.bundles[key].includes, fuel - 1)
      case None => None
      case Some(n) => Some(|m.bundles[key].files| + n)
  }

  /** `count += getBundleFileCount(includedKey)` over the includes; any
      exception propagates out of the loop. */
  function CountAll(m: Manifest, keys: seq<string>, fuel: nat): (r: Option<nat>)
    decreases fuel, 1, |keys|
  {
    if |keys| == 0 then Some(0)
    else
      match (Count(m, keys[0], fuel), CountAll(m, keys[1..], fuel))
      case (Some(a), Some(b)) => Some(a + b)
      case _ => None
  }

  /** More stack never changes a count that was reached. */
  lemma {:induction false} CountFuelMonotone(m: Manifest, key: string, fuel: nat)
    requires Count(m, key, fuel).Some?
    ensures Count(m, key, fuel + 1) == Count(m, key, fuel)
    decreases fuel, 0, 0
  {
    if key in m.bundles {
      CountAllFuelMonotone(m, m.bundles[key].includes, fuel - 1);
    }
  }

  lemma {:induction false} CountAllFuelMonotone(m: Manifest, keys: seq<string>, fuel: nat)
    requires CountAll(m, keys, fuel).Some?
    ensures CountAll(m, keys, fuel + 1) == CountAll(m, keys, fuel)
    decreases fuel, 1, |keys|
  {
    if |keys| > 0 {
      CountFuelMonotone(m, keys[0], fuel);
      CountAllFuelMonotone(m, keys[1..], fuel);
    }
  }

  /** Without a cycle guard a bundle that includes itself never finishes
      counting: every stack depth is exhausted. */
  lemma {:induction false} SelfIncludeOverflows(m: Manifest, key: string, fuel: nat)
    requires key in m.bundles && key in m.bundles[key].includes
    ensures Count(m, key, fuel) == None
    decreases fuel
  {
    if fuel > 0 {
      SelfIncludeOverflows(m, key, fuel - 1);
      OneFailureFailsAll(m, m.bundles[key].includes, key, fuel - 1);
    }
  }

  lemma {:induction false} OneFailureFailsAll(m: Manifest, keys: seq<string>, bad: string, fuel: nat)
    requires bad in keys && Count(m, bad, fuel) == None
    ensures CountAll(m, keys, fuel) == None
    decreases |keys|
  {
    if keys[0] != bad {
      OneFailureFailsAll(m, keys[1..], bad, fuel);
    }
  }

  /** Keys in which every bundle includes another of the same keys: the
      bundles on an include cycle, together with those on a chain leading to
      one. */
  predicate EndlessIncludes(m: Manifest, keys: set<string>) {
    forall k :: k in keys ==> IncludesOneOf(m, k, keys)
  }

  predicate IncludesOneOf(m: Manifest, k: string, keys: set<string>) {
    k in m.bundles && exists j :: j in m.bundles[k].includes && j in keys
  }

  /** Counting from a key with an endless include chain, a cycle reachable
      from it, exhausts every stack depth. */
  lemma {:induction false} CycleOverflows(m: Manifest, keys: set<string>, key: string, fuel: nat)
    requires EndlessIncludes(m, keys) && key in keys
    ensures Count(m, key, fuel) == None
    decreases fuel
  {
    if fuel > 0 {
      assert IncludesOneOf(m, key, keys);
      var j :| j in m.bundles[key].includes && j in keys;
      CycleOverflows(m, keys, j, fuel - 1);
      OneFailureFailsAll(m, m.bundles[key].includes, j, fuel - 1);
    }
  }

  /** An acyclic include graph, witnessed by a rank that every include of a
      bundle defined in the manifest lowers. */
  predicate Ranked(m: Manifest, rank: map<string, nat>) {
    (forall k :: k in m.bundles ==> k in rank)
    && forall k, j :: k in m.bundles && j in m.bundles && j in m.bundles[k].includes ==> rank[j] < rank[k]
  }

  /** On an acyclic manifest the count finishes once the stack is two frames
      deeper than the key's rank: one per include level, one more for an
      include the manifest lacks. */
  lemma {:induction false} AcyclicCounts(m: Manifest, rank: map<string, nat>, key: string, fuel: nat)
    requires Ranked(m, rank) && key in m.bundles && rank[key] + 1 < fuel
    ensures Count(m, key, fuel).Some?
    decreases fuel, 0, 0
  {
    AcyclicCountsAll(m, rank, m.bundles[key].includes, fuel - 1, rank[key]);
  }

  lemma {:induction false} AcyclicCountsAll(m: Manifest, rank: map<string, nat>, keys: seq<string>, fuel: nat, bound: nat)
    requires Ranked(m, rank) && bound < fuel
    requires forall j :: j in keys && j in m.bundles ==> rank[j] < bound
    ensures CountAll(m, keys, fuel).Some?
    decreases fuel, 1, |keys|
  {
    if |keys| > 0 {
      var j := keys[0];
      if j in m.bundles {
        AcyclicCounts(m, rank, j, fuel);
      }
      assert forall i :: i in keys[1..] ==> i in keys;
      AcyclicCountsAll(m, rank, keys[1..], fuel, bound);
    }
  }

  /** With ranks below the number of bundles, which a topological order
      provides, a stack deeper than that number plus one counts every bundle. */
  lemma CountsWithinBundleCount(m: Manifest, rank: map<string, nat>, key: string, fuel: nat)
    requires Ranked(m, rank) && key in m.bundles
    requires forall k :: k in m.bundles ==> rank[k] < |m.bundles|
    requires fuel > |m.bundles| + 1
    ensures Count(m, key, fuel).Some?
  {
    AcyclicCounts(m, rank, key, fuel);
  }

  /** The displayed count is never below the number of files the bundle
      resolves to: it counts a bundle reached twice twice, where resolution
      takes it once. */
  lemma {:induction false} CountBoundsResolve(m: Manifest, key: string, fuel: nat, visited: seq<string>)
    requires Count(m, key, fuel).Some?
    ensures |Resolve(m, key, visited).files| <= Count(m, key, fuel).value
    decreases fuel, 0, 0
  {
    if key !in visited && key in m.bundles {
      CountAllBoundsResolve(m, m.bundles[key].includes, fuel - 1, visited + [key]);
    }
  }

  lemma {:induction false} CountAllBoundsResolve(m: Manifest, keys: seq<string>, fuel: nat, visited: seq<string>)
    requires CountAll(m, keys, fuel).Some?
    ensures |ResolveAll(m, keys, visited).files| <= CountAll(m, keys, fuel).value
    decreases fuel, 1, |keys|
  {
    if |keys| > 0 {
      var first := Resolve(m, keys[0], visited);
      CountBoundsResolve(m, keys[0], fuel, visited);
      CountAllBoundsResolve(m, keys[1..], fuel, first.visited);
    }
  }

  // ---- downloadBundle ----

  /** What a download run reports: the unique files it fetched, in order, and
      its two counters. */
  datatype Report = Report(files: seq<string>, succeeded: nat, failed: nat)

  /** `downloadBundle(key)`: throws without a manifest or for a key the lookup
      does not find; otherwise fetches each resolved file once, in
      first-occurrence order, and counts successes and failures. An inherited
      name is found, resolves to no files and reports a run of nothing.
      `downloaded(f)` is whether the fetch and write of `f` succeeded. */
  method DownloadBundle(manifest: Option<Manifest>, key: string, downloaded: string -> bool) returns (r: Result<Report>)
    ensures manifest.None? ==> r == Err("Manifest not loaded")
    ensures manifest.Some? && key !in manifest.value.bundles && !InheritedName(key) ==>
              r == Err("Bundle '" + key + "' not found")
    ensures manifest.Some? && key !in manifest.value.bundles && InheritedName(key) ==>
              r == Ok(Report([], 0, 0))
    ensures r.Ok? ==> manifest.Some? && (key in manifest.value.bundles || InheritedName(key))
    ensures r.Ok? ==> var resolved := Resolve(manifest.value, key, []).files;
      NoDuplicates(r.value.files)
      && (forall f :: f in r.value.files <==> f in resolved)
      && (forall i, j :: 0 <= i < j < |r.value.files| ==>
            FirstIndex(resolved, r.value.files[i]) < FirstIndex(resolved, r.value.files[j]))
    ensures r.Ok? ==> r.value.succeeded == |Filter(r.value.files, downloaded)|
    ensures r.Ok? ==> r.value.succeeded + r.value.failed == |r.value.files|
  {
    if manifest.None? {
      return Err("Manifest not loaded");
    }
    var m := manifest.value;
    if key !in m.bundles && !InheritedName(key) {
      return Err("Bundle '" + key + "' not found");
    }
    var resolved := Resolve(m, key, []).files;
    var unique := Dedup(resolved);
    DedupSpec(resolved);
    var ok, bad := CountDownloads(unique, downloaded);
    return Ok(Report(unique, ok, bad));
  }

  /** The counting loop of `downloadBundle`: one attempt per file, each counted
      as a success or a failure. */
  method CountDownloads(files: seq<string>, downloaded: string -> bool) returns (ok: nat, bad: nat)
    ensures ok == |Filter(files, downloaded)|
    ensures ok + bad == |files|
  {
    ok, bad := 0, 0;
    var i := 0;
    while i < |files|
      invariant 0 <= i <= |files|
      invariant ok == |Filter(files[..i], downloaded)|
      invariant ok + bad == i
    {
      FilterAppend(files[..i], [files[i]], downloaded);
      assert files[..i + 1] == files[..i] + [files[i]];
      if downloaded(files[i]) {
        ok := ok + 1;
      } else {
        bad := bad + 1;
      }
      i := i + 1;
    }
    assert files[..i] == files;
  }

  // ---- interactive selection ----

  /** The value of a digit in any radix up to 36; 36 for a non-digit. */
  function DigitOf(c: char): (d: nat)
    ensures d <= 36
  {
    if '0' <= c <= '9' then c as int - '0' as int
    else if 'a' <= c <= 'z' then c as int - 'a' as int + 10
    else if 'A' <= c <= 'Z' then c as int - 'A' as int + 10
    else 36
  }

  /** Length of the longest prefix of digits of `radix`. */
  function DigitRun(s: string, radix: nat): (n: nat)
    ensures n <= |s|
    ensures forall k :: 0 <= k < n ==> DigitOf(s[k]) < radix
    ensures n == |s| || DigitOf(s[n]) >= radix
  {
    if |s| == 0 || DigitOf(s[0]) >= radix then 0 else 1 + DigitRun(s[1..], radix)
  }

  /** The value of a run of digits of `radix`. */
  function RadixValue(s: string, radix: nat): nat
    decreases |s|
  {
    if |s| == 0 then 0 else radix * RadixValue(s[..|s| - 1], radix) + DigitOf(s[|s| - 1])
  }

  /** The unsigned part of `parseInt`: a `0x`/`0X` prefix switches to
      hexadecimal, then the longest run of digits is read; no digit gives `NaN`. */
  function ReadUnsigned(u: string): (r: Option<nat>)
    ensures (|u| == 0 || !IsDigit(u[0])) ==> r.None?
  {
    var hex := |u| >= 2 && u[0] == '0' && (u[1] == 'x' || u[1] == 'X');
    var radix := if hex then 16 else 10;
    var digits := if hex then u[2..] else u;
    var n := DigitRun(digits, radix);
    if n == 0 then None else Some(RadixValue(digits[..n], radix))
  }

  /** The text after one leading sign, if there is one. */
  function AfterSign(t: string): (u: string)
    ensures u == t || (|t| > 0 && u == t[1..])
  {
    if |t| > 0 && (t[0] == '-' || t[0] == '+') then t[1..] else t
  }

  /** `parseInt(s)` without a radix: leading white space is skipped, one sign is
      read, then the unsigned number; `NaN` is written `None`. */
  function ParseInt(s: string): (r: Option<int>)
    ensures (forall k :: 0 <= k < |s| ==> !IsDigit(s[k])) ==> r.None?
  {
    var t := s[SkipSpaces(s, 0)..];
    var u := AfterSign(t);
    assert |u| > 0 ==> u[0] == s[|s| - |u|];
    match ReadUnsigned(u)
    case None => None
    case Some(v) =>
      var value: int := v;
      Some(if |t| > 0 && t[0] == '-' then -value else value)
  }

  predicate IsQuit(answer: string) {
    ToLower(answer) == "quit" || ToLower(answer) == "q"
  }

  /** The menu number an answer names, if it is one: `parseInt` gives an
      integer `n` with `1 <= n <= count`. */
  predicate NumberInRange(answer: string, count: nat) {
    var n := ParseInt(answer);
    n.Some? && 0 < n.value <= count
  }

  datatype Choice = Quit | Chosen(key: string) | Invalid

  /** One answer to the menu prompt: `quit`/`q` in any case leaves; a number in
      range picks that bundle; otherwise only an exact key does; an empty key
      counts as no selection, because the source tests the key for truthiness. */
  function Choose(keys: seq<string>, answer: string): (r: Choice)
    ensures r.Quit? <==> IsQuit(answer)
    ensures r.Chosen? ==> r.key in keys && r.key != ""
    ensures !IsQuit(answer) && NumberInRange(answer, |keys|) ==>
      (var k := keys[ParseInt(answer).value - 1]; r == if k == "" then Invalid else Chosen(k))
    ensures !IsQuit(answer) && !NumberInRange(answer, |keys|) ==>
      (r.Chosen? <==> answer in keys && answer != "") && (r.Chosen? ==> r.key == answer)
  {
    if IsQuit(answer) then Quit
    else
      var key := if NumberInRange(answer, |keys|) then keys[ParseInt(answer).value - 1]
        else if answer in keys then answer else "";
      if key == "" then Invalid else Chosen(key)
  }

  lemma {:induction false} RadixValueDecimal(s: string)
    requires forall k :: 0 <= k < |s| ==> IsDigit(s[k])
    ensures RadixValue(s, 10) == DecimalValue(s)
    decreases |s|
  {
    if |s| > 0 {
      RadixValueDecimal(s[..|s| - 1]);
    }
  }

  /** A non-empty run of decimal digits is read whole, as a decimal number. */
  lemma ParseIntOfDigits(s: string)
    requires |s| > 0 && forall k :: 0 <= k < |s| ==> IsDigit(s[k])
    ensures ParseInt(s) == Some(RadixValue(s, 10))
  {
    ReadDigits(s);
    ParseIntUnsigned(s);
  }

  /** Text starting with a digit has no white space or sign to skip. */
  lemma ParseIntUnsigned(s: string)
    requires |s| > 0 && IsDigit(s[0])
    ensures ParseInt(s) == match ReadUnsigned(s) case None => None case Some(v) => Some(v as int)
  {
    NoLeadingSpace(s);
    var t := s[SkipSpaces(s, 0)..];
    assert t == s;
    assert AfterSign(t) == s && t[0] != '-';
  }

  lemma NoLeadingSpace(s: string)
    requires |s| > 0 && IsDigit(s[0])
    ensures SkipSpaces(s, 0) == 0
  {
    assert !IsSpace(s[0]);
  }

  lemma ReadDigits(s: string)
    requires |s| > 0 && forall k :: 0 <= k < |s| ==> IsDigit(s[k])
    ensures ReadUnsigned(s) == Some(RadixValue(s, 10))
  {
    var hex := |s| >= 2 && s[0] == '0' && (s[1] == 'x' || s[1] == 'X');
    assert !hex by {
      if |s| >= 2 { assert IsDigit(s[1]); }
    }
    AllDigitsRun(s);
    assert s[..|s|] == s;
  }

  /** `parseInt` reads back what `toString` writes for every natural number. */
  lemma ParseIntOfNatToString(n: nat)
    ensures ParseInt(NatToString(n)) == Some(n)
  {
    var s := NatToString(n);
    ParseIntOfDigits(s);
    RadixValueDecimal(s);
    DecimalValueOfNatToString(n);
  }

  lemma {:induction false} AllDigitsRun(s: string)
    requires forall k :: 0 <= k < |s| ==> IsDigit(s[k])
    ensures DigitRun(s, 10) == |s|
    decreases |s|
  {
    if |s| > 0 {
      AllDigitsRun(s[1..]);
    }
  }

  /** Typing the number `n` of a listed bundle selects the `n`-th key. */
  lemma ChooseByNumber(keys: seq<string>, n: nat)
    requires 1 <= n <= |keys| && keys[n - 1] != ""
    ensures Choose(keys, NatToString(n)) == Chosen(keys[n - 1])
  {
    var s := NatToString(n);
    ParseIntOfNatToString(n);
    assert !IsQuit(s) by {
      assert IsDigit(ToLower(s)[0]);
    }
  }

  /** Numbers win over names: a key spelled like a menu number in range is
      reached by its own name only if it sits at that position. */
  lemma NumberShadowsName(keys: seq<string>, n: nat)
    requires 1 <= n <= |keys| && NatToString(n) in keys && keys[n - 1] != NatToString(n)
    ensures Choose(keys, NatToString(n)) != Chosen(NatToString(n))
  {
    var s := NatToString(n);
    ParseIntOfNatToString(n);
    assert !IsQuit(s) by {
      assert IsDigit(ToLower(s)[0]);
    }
  }

  // ---- main: argument loop and dispatch ----

  /** The settings the argument loop of `main` builds. */
  datatype Options = Options(command: string, bundleName: string, repo: string, branch: string, outputDir: string)

  const Defaults: Options := Options("interactive", "", DefaultRepo, DefaultBranch, DefaultOutput)

  predicate IsValueFlag(a: string) {
    a == "--repo" || a == "--branch" || a == "--output"
  }

  /** How the loop reads the arguments: a value flag followed by another
      argument consumes it; any other argument starting with `--` is skipped;
      everything else is positional. */
  datatype Token = Flag(name: string, value: string) | Positional(arg: string) | Skipped(arg: string)

  function Scan(args: seq<string>, i: nat): (r: seq<Token>)
    requires i <= |args|
    ensures forall k :: 0 <= k < |r| && r[k].Positional? ==> !("--" <= r[k].arg)
    ensures forall k :: 0 <= k < |r| && r[k].Flag? ==> IsValueFlag(r[k].name)
    decreases |args| - i
  {
    if i == |args| then []
    else if IsValueFlag(args[i]) && i + 1 < |args| then [Flag(args[i], args[i + 1])] + Scan(args, i + 2)
    else if !("--" <= args[i]) then [Positional(args[i])] + Scan(args, i + 1)
    else [Skipped(args[i])] + Scan(args, i + 1)
  }

  /** The effect of one token on the settings. A positional replaces the
      command while it is still empty or `interactive`, and otherwise becomes
      the bundle name. */
  function Step(o: Options, t: Token): (r: Options)
    ensures t.Skipped? ==> r == o
    ensures r.repo != o.repo ==> t == Flag("--repo", r.repo)
    ensures r.branch != o.branch ==> t == Flag("--branch", r.branch)
    ensures r.outputDir != o.outputDir ==> t == Flag("--output", r.outputDir)
    ensures r.command != o.command ==>
              t == Positional(r.command) && (o.command == "" || o.command == "interactive")
    ensures r.bundleName != o.bundleName ==> t == Positional(r.bundleName)
  {
    match t
    case Flag(name, value) =>
      if name == "--repo" then o.(repo := value)
      else if name == "--branch" then o.(branch := value)
      else if name == "--output" then o.(outputDir := value)
      else o
    case Positional(a) =>
      if o.command == "" || o.command == "interactive" then o.(command := a) else o.(bundleName := a)
    case Skipped(_) => o
  }

  function StepAll(o: Options, ts: seq<Token>): Options
    decreases |ts|
  {
    if |ts| == 0 then o else StepAll(Step(o, ts[0]), ts[1..])
  }

  /** The settings of a whole argument list: each value flag takes its last
      value, else its default, and the command is `interactive` or a
      positional argument. */
  function Parse(args: seq<string>): (r: Options)
    ensures var ts := Scan(args, 0);
      r.repo == LastOr(FlagValues(ts, "--repo"), DefaultRepo)
      && r.branch == LastOr(FlagValues(ts, "--branch"), DefaultBranch)
      && r.outputDir == LastOr(FlagValues(ts, "--output"), DefaultOutput)
    ensures r.command == "interactive" || r.command in Positionals(Scan(args, 0))
  {
    var ts := Scan(args, 0);
    LastFlagWins(Defaults, ts);
    CommandIsPositional(Defaults, ts);
    StepAll(Defaults, ts)
  }

  /** The `for` loop of `main`, index by index. */
  method ParseArgs(args: seq<string>) returns (o: Options)
    ensures o == Parse(args)
  {
    o := Defaults;
    var i := 0;
    while i < |args|
      invariant 0 <= i <= |args|
      invariant StepAll(o, Scan(args, i)) == Parse(args)
      decreases |args| - i
    {
      var arg := args[i];
      if arg == "--repo" && i + 1 < |args| {
        i := i + 1;
        o := o.(repo := args[i]);
      } else if arg == "--branch" && i + 1 < |args| {
        i := i + 1;
        o := o.(branch := args[i]);
      } else if arg == "--output" && i + 1 < |args| {
        i := i + 1;
        o := o.(outputDir := args[i]);
      } else if !("--" <= arg) {
        if o.command == "" || o.command == "interactive" {
          o := o.(command := arg);
        } else {
          o := o.(bundleName := arg);
        }
      }
      i := i + 1;
    }
  }

  /** The values the tokens give to one value flag, in order. */
  function FlagValues(ts: seq<Token>, name: string): seq<string>
    decreases |ts|
  {
    if |ts| == 0 then []
    else (if ts[0].Flag? && ts[0].name == name then [ts[0].value] else []) + FlagValues(ts[1..], name)
  }

  function LastOr(xs: seq<string>, default: string): string {
    if |xs| == 0 then default else xs[|xs| - 1]
  }

  /** The positional arguments, in order. */
  function Positionals(ts: seq<Token>): seq<string>
    decreases |ts|
  {
    if |ts| == 0 then []
    else (if ts[0].Positional? then [ts[0].arg] else []) + Positionals(ts[1..])
  }

  lemma LastOrCons(x: seq<string>, xs: seq<string>, default: string)
    requires |x| <= 1
    ensures LastOr(x + xs, default) == LastOr(xs, if |x| == 1 then x[0] else default)
  {
  }

  /** The last value given to each of `--repo`, `--branch` and `--output` wins;
      a flag with no value after it changes nothing. */
  lemma {:induction false} LastFlagWins(o: Options, ts: seq<Token>)
    ensures StepAll(o, ts).repo == LastOr(FlagValues(ts, "--repo"), o.repo)
    ensures StepAll(o, ts).branch == LastOr(FlagValues(ts, "--branch"), o.branch)
    ensures StepAll(o, ts).outputDir == LastOr(FlagValues(ts, "--output"), o.outputDir)
    decreases |ts|
  {
    if |ts| > 0 {
      var o' := Step(o, ts[0]);
      LastFlagWins(o', ts[1..]);
      var hr := if ts[0].Flag? && ts[0].name == "--repo" then [ts[0].value] else [];
      var hb := if ts[0].Flag? && ts[0].name == "--branch" then [ts[0].value] else [];
      var ho := if ts[0].Flag? && ts[0].name == "--output" then [ts[0].value] else [];
      LastOrCons(hr, FlagValues(ts[1..], "--repo"), o.repo);
      LastOrCons(hb, FlagValues(ts[1..], "--branch"), o.branch);
      LastOrCons(ho, FlagValues(ts[1..], "--output"), o.outputDir);
    }
  }

  /** Once the command is set, every later positional overwrites the bundle
      name: the last one wins. */
  lemma {:induction false} LastPositionalIsBundle(o: Options, ts: seq<Token>)
    requires o.command != "" && o.command != "interactive"
    ensures StepAll(o, ts).command == o.command
    ensures StepAll(o, ts).bundleName == LastOr(Positionals(ts), o.bundleName)
    decreases |ts|
  {
    if |ts| > 0 {
      var o' := Step(o, ts[0]);
      LastPositionalIsBundle(o', ts[1..]);
      var h := if ts[0].Positional? then [ts[0].arg] else [];
      LastOrCons(h, Positionals(ts[1..]), o.bundleName);
    }
  }

  /** The first positional replaces the default command and the last of the
      remaining positionals names the bundle. */
  lemma {:induction false} FirstPositionalIsCommand(o: Options, ts: seq<Token>)
    requires o.command == "" || o.command == "interactive"
    requires |Positionals(ts)| > 0
    requires Positionals(ts)[0] != "" && Positionals(ts)[0] != "interactive"
    ensures StepAll(o, ts).command == Positionals(ts)[0]
    ensures StepAll(o, ts).bundleName == LastOr(Positionals(ts)[1..], o.bundleName)
    decreases |ts|
  {
    var o' := Step(o, ts[0]);
    if ts[0].Positional? {
      assert Positionals(ts) == [ts[0].arg] + Positionals(ts[1..]);
      LastPositionalIsBundle(o', ts[1..]);
    } else {
      assert Positionals(ts) == Positionals(ts[1..]);
      FirstPositionalIsCommand(o', ts[1..]);
    }
  }

  /** The command is either the default or some positional argument. */
  lemma {:induction false} CommandIsPositional(o: Options, ts: seq<Token>)
    ensures StepAll(o, ts).command == o.command || StepAll(o, ts).command in Positionals(ts)
    decreases |ts|
  {
    if |ts| > 0 {
      CommandIsPositional(Step(o, ts[0]), ts[1..]);
    }
  }

  /** The action `main` takes for the parsed settings. */
  datatype Action =
    | RunInteractive
    | ListBundles
    | Download(bundle: string)
    | MissingBundleName
    | ShowWget
    | ShowUsage
    | UnknownCommand(command: string)

  /** Every command the dispatch recognises. */
  const KnownCommands: seq<string> :=
    ["interactive", "i", "list", "ls", "download", "dl", "wget", "help", "--help", "-h"]

  function Dispatch(o: Options): (a: Action)
    ensures a == RunInteractive <==> o.command in ["interactive", "i"]
    ensures a == ListBundles <==> o.command in ["list", "ls"]
    ensures a == MissingBundleName <==> o.command in ["download", "dl"] && o.bundleName == ""
    ensures a.Download? <==> o.command in ["download", "dl"] && o.bundleName != ""
    ensures a.Download? ==> a.bundle == o.bundleName
    ensures a == ShowWget <==> o.command == "wget"
    ensures a == ShowUsage <==> o.command in ["help", "--help", "-h"]
    ensures a.UnknownCommand? <==> o.command !in KnownCommands
    ensures a.UnknownCommand? ==> a.command == o.command
  {
    if o.command == "interactive" || o.command == "i" then RunInteractive
    else if o.command == "list" || o.command == "ls" then ListBundles
    else if o.command == "download" || o.command == "dl" then
      if o.bundleName == "" then MissingBundleName else Download(o.bundleName)
    else if o.command == "wget" then ShowWget
    else if o.command == "help" || o.command == "--help" || o.command == "-h" then ShowUsage
    else UnknownCommand(o.command)
  }

  /** The `--help` case of the dispatch is dead: the argument loop skips every
      argument starting with `--`, so the command can never be `--help`, and
      help is shown only for `help` or `-h`. */
  lemma HelpFlagUnreachable(args: seq<string>)
    ensures Parse(args).command != "--help"
    ensures Dispatch(Parse(args)) == ShowUsage ==> Parse(args).command in ["help", "-h"]
  {
    var ts := Scan(args, 0);
    CommandIsPositional(Defaults, ts);
    PositionalsNotFlags(ts);
  }

  lemma {:induction false} PositionalsNotFlags(ts: seq<Token>)
    requires forall k :: 0 <= k < |ts| && ts[k].Positional? ==> !("--" <= ts[k].arg)
    ensures forall p :: p in Positionals(ts) ==> !("--" <= p)
    decreases |ts|
  {
    if |ts| > 0 {
      PositionalsNotFlags(ts[1..]);
    }
  }
}

=== FILE: fetch_tools.dfy ===
/**
 * The pure parts of the fetch tools (src/mcp-server/tools/fetch.ts): the URL
 * blocklist gate `isUrlSafe` applied to the parsed `href`, the gate-before-fetch
 * of the four handlers, the truncation of long bodies and the entity-decoding
 * chain of `fetch_webpage`.
 */
module FetchTools {
  import opened Wrappers
  import opened Text
  import opened Seqs
  import opened Tools

  /** The shapes of the `BLOCKED_PATTERNS` regexes. */
  datatype UrlPattern =
    | FileScheme                              // /^file:/i
    | Literal(text: string, ignoreCase: bool) // a fixed string, with or without the i flag
    | Private172                              // /172\.(1[6-9]|2[0-9]|3[01])\./

  /** `BLOCKED_PATTERNS`, in source order. */
  const BlockedPatterns: seq<UrlPattern> := [
    FileScheme,
    Literal("localhost", true),
    Literal("127.0.0.1", false),
    Literal("::1", false),
    Literal("0.0.0.0", false),
    Literal("192.168.", false),
    Literal("10.", false),
    Private172
  ]

  /** The patterns matched without case folding. */
  const ExactLiterals: seq<string> := ["127.0.0.1", "::1", "0.0.0.0", "192.168.", "10."]

  /** The href begins with `file:` in any case. */
  predicate HasFileScheme(h: string) {
    |h| >= 5 && ToLower(h[..5]) == "file:"
  }

  /** The second octet alternatives `1[6-9]|2[0-9]|3[01]`. */
  predicate PrivateSecondOctet(a: char, b: char) {
    (a == '1' && '6' <= b <= '9') || (a == '2' && IsDigit(b)) || (a == '3' && (b == '0' || b == '1'))
  }

  /** `172.` then a second octet from 16 to 31 then `.`, starting at index `k`. */
  predicate Private172At(h: string, k: int) {
    0 <= k && k + 7 <= |h| && h[k] == '1' && h[k + 1] == '7' && h[k + 2] == '2' && h[k + 3] == '.'
    && PrivateSecondOctet(h[k + 4], h[k + 5]) && h[k + 6] == '.'
  }

  predicate Private172From(h: string, i: nat)
    decreases |h| - i
  {
    i < |h| && (Private172At(h, i) || Private172From(h, i + 1))
  }

  /** `pattern.test(href)`. */
  predicate Test(p: UrlPattern, h: string) {
    match p
    case FileScheme => HasFileScheme(h)
    case Literal(t, ignoreCase) => if ignoreCase then ContainsIgnoreCase(h, t) else Contains(h, t)
    case Private172 => Private172From(h, 0)
  }

  /** `isUrlSafe(url)`, where `href` is `new URL(url).href`, or `None` when the
      constructor throws. */
  predicate IsUrlSafe(href: Option<string>) {
    match href
    case None => false
    case Some(h) => !(exists p | p in BlockedPatterns :: Test(p, h))
  }

  lemma {:induction false} Private172FromSpec(h: string, i: nat)
    ensures Private172From(h, i) <==> exists k :: i <= k && Private172At(h, k)
    decreases |h| - i
  {
    if i < |h| {
      Private172FromSpec(h, i + 1);
      if exists k :: i <= k && Private172At(h, k) {
        var k :| i <= k && Private172At(h, k);
        if k > i { assert Private172From(h, i + 1); }
      }
    } else {
      forall k | i <= k ensures !Private172At(h, k) {}
    }
  }

  lemma BlockedPatternsMembers(p: UrlPattern)
    ensures p in BlockedPatterns <==>
      p == FileScheme || p == Literal("localhost", true) || p == Private172
      || (p.Literal? && !p.ignoreCase && p.text in ExactLiterals)
  {
  }

  /** Where a pattern matches, stated by positions rather than by a scan. */
  ghost predicate MatchesSomewhere(p: UrlPattern, h: string) {
    match p
    case FileScheme => HasFileScheme(h)
    case Literal(t, ignoreCase) =>
      if ignoreCase then exists j :: OccursAt(ToLower(h), ToLower(t), j) else exists j :: OccursAt(h, t, j)
    case Private172 => exists k :: Private172At(h, k)
  }

  lemma TestSpec(p: UrlPattern, h: string)
    ensures Test(p, h) <==> MatchesSomewhere(p, h)
  {
    match p
    case FileScheme =>
    case Literal(t, ignoreCase) =>
      if ignoreCase { ContainsSpec(ToLower(h), ToLower(t)); } else { ContainsSpec(h, t); }
    case Private172 => Private172FromSpec(h, 0);
  }

  /** A parsed href passes exactly when no blocked pattern matches anywhere in it. */
  lemma UrlSafeCharacterization(h: string)
    ensures IsUrlSafe(Some(h)) <==> forall p | p in BlockedPatterns :: !MatchesSomewhere(p, h)
  {
    forall p | p in BlockedPatterns ensures Test(p, h) <==> MatchesSomewhere(p, h) {
      TestSpec(p, h);
    }
  }

  /** A string the URL constructor rejects is never fetched. */
  lemma UnparsableRejected()
    ensures !IsUrlSafe(None)
  {
  }

  lemma FileSchemeRejected(h: string)
    requires HasFileScheme(h)
    ensures !IsUrlSafe(Some(h))
  {
    BlockedPatternsMembers(FileScheme);
    UrlSafeCharacterization(h);
  }

  lemma LocalhostLower()
    ensures ToLower("localhost") == "localhost"
  {
    ToLowerIdentity("localhost");
  }

  /** `localhost` in any case, anywhere in the href, blocks it. */
  lemma LocalhostRejected(h: string, j: int)
    requires OccursAt(ToLower(h), "localhost", j)
    ensures !IsUrlSafe(Some(h))
  {
    LocalhostLower();
    BlockedPatternsMembers(Literal("localhost", true));
    assert MatchesSomewhere(Literal("localhost", true), h);
    UrlSafeCharacterization(h);
  }

  /** An exact literal anywhere in the href (path and query included) blocks it. */
  lemma LiteralRejected(h: string, t: string, j: int)
    requires t in ExactLiterals && OccursAt(h, t, j)
    ensures !IsUrlSafe(Some(h))
  {
    BlockedPatternsMembers(Literal(t, false));
    assert MatchesSomewhere(Literal(t, false), h);
    UrlSafeCharacterization(h);
  }

  lemma Private172Rejected(h: string, k: int)
    requires Private172At(h, k)
    ensures !IsUrlSafe(Some(h))
  {
    BlockedPatternsMembers(Private172);
    assert MatchesSomewhere(Private172, h);
    UrlSafeCharacterization(h);
  }

  /** The pair `a b` begins one of the blocked texts: `lo`calhost in any case,
      `12`7.0.0.1, `::`1, `0.`0.0.0, `19`2.168., `10`. or `17`2. */
  predicate StartsBlockedText(a: char, b: char) {
    ((a == 'l' || a == 'L') && (b == 'o' || b == 'O'))
    || (a == '1' && (b == '2' || b == '9' || b == '0' || b == '7'))
    || (a == ':' && b == ':') || (a == '0' && b == '.')
  }

  /** No adjacent pair of the href could start a blocked text. */
  predicate NoBlockedPair(h: string) {
    forall k :: 0 <= k < |h| - 1 ==> !StartsBlockedText(h[k], h[k + 1])
  }

  lemma NoBlockedPairLiteral(h: string, t: string)
    requires NoBlockedPair(h) && t in ExactLiterals
    ensures !exists j :: OccursAt(h, t, j)
  {
    forall j | OccursAt(h, t, j) ensures false {
      OccursAtChar(h, t, j, 0);
      OccursAtChar(h, t, j, 1);
    }
  }

  lemma NoBlockedPairLocalhost(h: string)
    requires NoBlockedPair(h)
    ensures !exists j :: OccursAt(ToLower(h), "localhost", j)
  {
    forall j | OccursAt(ToLower(h), "localhost", j) ensures false {
      LocalhostStartsPair(h, ToLower(h), "localhost", j);
    }
  }

  /** Where a text starting `lo` occurs in the lower-cased href, the href holds
      `lo` in some case. */
  lemma LocalhostStartsPair(h: string, lower: string, sub: string, j: int)
    requires |lower| == |h| && forall i :: 0 <= i < |h| ==> lower[i] == Lower(h[i])
    requires |sub| >= 2 && sub[0] == 'l' && sub[1] == 'o'
    requires OccursAt(lower, sub, j)
    ensures 0 <= j < |h| - 1 && StartsBlockedText(h[j], h[j + 1])
  {
    OccursAtChar(lower, sub, j, 0);
    OccursAtChar(lower, sub, j, 1);
    LoStartsBlockedText(h[j], h[j + 1]);
  }

  lemma LoStartsBlockedText(a: char, b: char)
    requires Lower(a) == 'l' && Lower(b) == 'o'
    ensures StartsBlockedText(a, b)
  {
    LowerOf(a, 'l', 'L');
    LowerOf(b, 'o', 'O');
  }

  /** The only characters that lower-case to the letter `d` are `d` and its capital `u`. */
  lemma LowerOf(c: char, d: char, u: char)
    requires 'a' <= d <= 'z' && u as int == d as int - 32
    requires Lower(c) == d
    ensures c == d || c == u
  {
    if 'A' <= c <= 'Z' {
      assert c as int == u as int;
    }
  }

  lemma NoBlockedPair172(h: string)
    requires NoBlockedPair(h)
    ensures !exists k :: Private172At(h, k)
  {
    forall k | Private172At(h, k) ensures false {
    }
  }

  /** A sufficient test on characters alone: no leading `f`, and no adjacent pair
      that could start a blocked text, means the href passes. */
  lemma SafeByPairs(h: string)
    requires |h| == 0 || Lower(h[0]) != 'f'
    requires NoBlockedPair(h)
    ensures IsUrlSafe(Some(h))
  {
    UrlSafeCharacterization(h);
    forall p | p in BlockedPatterns ensures !MatchesSomewhere(p, h) {
      PatternMissesByPairs(p, h);
    }
  }

  lemma NoFileScheme(h: string)
    requires |h| == 0 || Lower(h[0]) != 'f'
    ensures !HasFileScheme(h)
  {
    if |h| >= 5 {
      var l := ToLower(h[..5]);
      assert l[0] == Lower(h[0]);
      assert "file:"[0] == 'f';
    }
  }

  lemma LocalhostMisses(h: string)
    requires NoBlockedPair(h)
    ensures !MatchesSomewhere(Literal("localhost", true), h)
  {
    LocalhostLower();
    NoBlockedPairLocalhost(h);
  }

  /** One blocked pattern at a time, for `SafeByPairs`. */
  lemma PatternMissesByPairs(p: UrlPattern, h: string)
    requires p in BlockedPatterns
    requires |h| == 0 || Lower(h[0]) != 'f'
    requires NoBlockedPair(h)
    ensures !MatchesSomewhere(p, h)
  {
    BlockedPatternsMembers(p);
    if p == FileScheme {
      NoFileScheme(h);
    }
    if p == Literal("localhost", true) {
      LocalhostMisses(h);
    }
    if p.Literal? && !p.ignoreCase {
      NoBlockedPairLiteral(h, p.text);
    }
    if p == Private172 {
      NoBlockedPair172(h);
    }
  }

  /** `NoBlockedPair` as a scan from index `i`, which a concrete href unfolds step by step. */
  predicate PairsClearFrom(h: string, i: nat)
    decreases |h| - i
  {
    i + 1 >= |h| || (!StartsBlockedText(h[i], h[i + 1]) && PairsClearFrom(h, i + 1))
  }

  lemma {:induction false} PairsClearFromSpec(h: string, i: nat)
    requires PairsClearFrom(h, i)
    ensures forall k :: i <= k < |h| - 1 ==> !StartsBlockedText(h[k], h[k + 1])
    decreases |h| - i
  {
    if i + 1 < |h| {
      PairsClearFromSpec(h, i + 1);
    }
  }

  lemma ExamplePageQuiet()
    ensures NoBlockedPair("https://example.com/page")
  {
    var h := "https://example.com/page";
    assert PairsClearFrom(h, 0) by {
      assert PairsClearFrom(h, 20);
      assert PairsClearFrom(h, 16);
      assert PairsClearFrom(h, 12);
      assert PairsClearFrom(h, 8);
      assert PairsClearFrom(h, 4);
    }
    PairsClearFromSpec(h, 0);
  }

  /** An ordinary public page passes. */
  lemma AcceptsPublicPage()
    ensures IsUrlSafe(Some("https://example.com/page"))
  {
    ExamplePageQuiet();
    SafeByPairs("https://example.com/page");
  }

  lemma MetadataQuiet()
    ensures NoBlockedPair("http://169.254.169.254/")
  {
    var h := "http://169.254.169.254/";
    assert PairsClearFrom(h, 0) by {
      assert PairsClearFrom(h, 20);
      assert PairsClearFrom(h, 16);
      assert PairsClearFrom(h, 12);
      assert PairsClearFrom(h, 8);
      assert PairsClearFrom(h, 4);
    }
    PairsClearFromSpec(h, 0);
  }

  /** No pattern covers the link-local range, so the cloud metadata address passes. */
  lemma AcceptsLinkLocal()
    ensures IsUrlSafe(Some("http://169.254.169.254/"))
  {
    MetadataQuiet();
    SafeByPairs("http://169.254.169.254/");
  }

  /** `10.` in a path blocks a public host. */
  lemma RejectsVersionInPath()
    ensures !IsUrlSafe(Some("https://example.com/v10.2"))
  {
    assert OccursAt("https://example.com/v10.2", "10.", 21);
    LiteralRejected("https://example.com/v10.2", "10.", 21);
  }

  lemma RejectsFileScheme()
    ensures !IsUrlSafe(Some("FILE:///x"))
  {
    assert HasFileScheme("FILE:///x");
    FileSchemeRejected("FILE:///x");
  }

  lemma RejectsPrivate172()
    ensures !IsUrlSafe(Some("http://172.20.0.5/"))
  {
    assert Private172At("http://172.20.0.5/", 7);
    Private172Rejected("http://172.20.0.5/", 7);
  }

  // ---- Handlers ----

  const BlockedText: string := "Error: URL is not allowed for security reasons"

  /** What `fetch` produced: a response, or the message of the error it threw. */
  datatype Outcome<T> = Responded(response: T) | Threw(message: string)

  /** A GET or POST response: status line, `content-type` header (`""` when absent)
      and the body text. */
  datatype HttpResponse = HttpResponse(status: nat, statusText: string, contentType: string, body: string)

  /** A HEAD response, with the elapsed milliseconds and the rendered headers object. */
  datatype HeadResponse = HeadResponse(status: nat, statusText: string, elapsedMs: int, headersJson: string)

  /** A `fetch_webpage` response: `response.ok`, the status line, and the page text
      once the script, style and tag replacements have run. */
  datatype PageResponse = PageResponse(ok: bool, status: nat, statusText: string, stripped: string)

  const BodyLimit: int := 50000
  const TruncationMark: string := "\n... (truncated)"

  /** `if (s.length > limit) s = s.substring(0, limit) + "\n... (truncated)"`;
      `substring` clamps a negative end to 0. */
  function Truncate(s: string, limit: int): (r: string)
    ensures limit >= |s| ==> r == s
    ensures limit < |s| ==> var keep := if limit < 0 then 0 else limit;
      |r| == keep + |TruncationMark| && r[..keep] == s[..keep] && r[keep..] == TruncationMark
  {
    if |s| > limit then s[..if limit < 0 then 0 else limit] + TruncationMark else s
  }

  /** The text is never longer than the limit plus the marker. */
  lemma TruncateBound(s: string, limit: nat)
    ensures |Truncate(s, limit)| <= limit + |TruncationMark|
    ensures s[..if |s| < limit then |s| else limit] <= Truncate(s, limit)
  {
  }

  function StatusLine(status: nat, statusText: string): string {
    "Status: " + NatToString(status) + " " + statusText
  }

  /** The answer of `http_get` and `http_post` for a response. */
  function ResponseText(r: HttpResponse): (t: string)
    ensures var body := Truncate(r.body, BodyLimit); |body| <= |t| && t[|t| - |body|..] == body
  {
    StatusLine(r.status, r.statusText) + "\nContent-Type: " + r.contentType + "\n\n" + Truncate(r.body, BodyLimit)
  }

  /** `http_get(url)`; `href` is what the URL constructor made of `url`. */
  function HttpGet(url: string, href: Option<string>, outcome: Outcome<HttpResponse>): (r: ToolRun)
    ensures r.effects == [] <==> !IsUrlSafe(href)
    ensures IsUrlSafe(href) ==> r.effects == [Fetch(Get, url)]
    ensures !IsUrlSafe(href) ==> r.text == BlockedText
  {
    if !IsUrlSafe(href) then ToolRun([], BlockedText)
    else match outcome
      case Responded(resp) => ToolRun([Fetch(Get, url)], ResponseText(resp))
      case Threw(message) => ToolRun([Fetch(Get, url)], "Error fetching URL: " + message)
  }

  /** `http_post(url, body)`; the request body and headers are not part of the answer. */
  function HttpPost(url: string, href: Option<string>, outcome: Outcome<HttpResponse>): (r: ToolRun)
    ensures r.effects == [] <==> !IsUrlSafe(href)
    ensures IsUrlSafe(href) ==> r.effects == [Fetch(Post, url)]
    ensures !IsUrlSafe(href) ==> r.text == BlockedText
  {
    if !IsUrlSafe(href) then ToolRun([], BlockedText)
    else match outcome
      case Responded(resp) => ToolRun([Fetch(Post, url)], ResponseText(resp))
      case Threw(message) => ToolRun([Fetch(Post, url)], "Error posting to URL: " + message)
  }

  /** `check_url(url)`. */
  function CheckUrl(url: string, href: Option<string>, outcome: Outcome<HeadResponse>): (r: ToolRun)
    ensures r.effects == [] <==> !IsUrlSafe(href)
    ensures IsUrlSafe(href) ==> r.effects == [Fetch(Head, url)]
    ensures !IsUrlSafe(href) ==> r.text == BlockedText
  {
    if !IsUrlSafe(href) then ToolRun([], BlockedText)
    else match outcome
      case Responded(resp) =>
        ToolRun([Fetch(Head, url)],
          "URL: " + url + "\n" + StatusLine(resp.status, resp.statusText)
          + "\nResponse Time: " + IntToString(resp.elapsedMs) + "ms\nHeaders:\n" + resp.headersJson)
      case Threw(message) => ToolRun([Fetch(Head, url)], "URL check failed: " + message)
  }

  /** The entity replacements, in source order: `&nbsp;`, `&amp;`, `&lt;`, `&gt;`,
      `&quot;`, `&#39;`. */
  function DecodeEntities(s: string): (r: string)
    ensures |r| <= |s|
  {
    var s1 := ReplaceAll(s, "&nbsp;", " ");
    var s2 := ReplaceAll(s1, "&amp;", "&");
    var s3 := ReplaceAll(s2, "&lt;", "<");
    var s4 := ReplaceAll(s3, "&gt;", ">");
    var s5 := ReplaceAll(s4, "&quot;", "\"");
    ReplaceAllShorter(s, "&nbsp;", " ");
    ReplaceAllShorter(s1, "&amp;", "&");
    ReplaceAllShorter(s2, "&lt;", "<");
    ReplaceAllShorter(s3, "&gt;", ">");
    ReplaceAllShorter(s4, "&quot;", "\"");
    ReplaceAllShorter(s5, "&#39;", "'");
    ReplaceAll(s5, "&#39;", "'")
  }

  // ---- decoding inverts HTML escaping of text without `&` ----

  /** The characters the last four replacements restore, in their order, and
      the entities they restore them from. */
  const Escapable: seq<char> := ['<', '>', '"', '\'']
  const Entities: seq<string> := ["&lt;", "&gt;", "&quot;", "&#39;"]

  /** HTML escaping of one character with the entities from index `k` on;
      stage 0 escapes all four characters and stage 4 none. */
  function EscapeChar(c: char, k: nat): string {
    if k <= 0 && c == '<' then "&lt;"
    else if k <= 1 && c == '>' then "&gt;"
    else if k <= 2 && c == '"' then "&quot;"
    else if k <= 3 && c == '\'' then "&#39;"
    else [c]
  }

  /** `t` with every character escaped at stage `k`. */
  function Escape(t: string, k: nat): (r: string)
    ensures |r| >= |t|
  {
    if |t| == 0 then "" else EscapeChar(t[0], k) + Escape(t[1..], k)
  }

  /** An escaped character that is an entity: `&`, then no other `&`. */
  predicate EntityLike(u: string) {
    |u| >= 2 && u[0] == '&' && forall i :: 1 <= i < |u| ==> u[i] != '&'
  }

  /** The entity for stage `k` and what one character looks like before and
      after that stage's replacement. */
  lemma EscapeCharFacts(c: char, k: nat)
    requires k < 4 && c != '&'
    ensures EntityLike(Entities[k])
    ensures c == Escapable[k] ==> EscapeChar(c, k) == Entities[k] && EscapeChar(c, k + 1) == [c]
    ensures c != Escapable[k] ==> EscapeChar(c, k) == EscapeChar(c, k + 1)
    ensures var u := EscapeChar(c, k + 1);
      u == [c] || (EntityLike(u) && u[1] != Entities[k][1])
  {
  }

  /** Every character escaped at stage 0 is itself or an entity that starts
      neither `&nbsp;` nor `&amp;`. */
  lemma EscapeCharStart(c: char)
    requires c != '&'
    ensures var u := EscapeChar(c, 0);
      u == [c] || (EntityLike(u) && u[1] != 'n' && u[1] != 'a')
  {
  }

  /** Replacement skips a character or an entity that cannot start the pattern. */
  lemma KeepUnit(u: string, c: char, rest: string, pat: string, rep: string)
    requires EntityLike(pat) && c != '&'
    requires u == [c] || (EntityLike(u) && u[1] != pat[1])
    ensures ReplaceAll(u + rest, pat, rep) == u + ReplaceAll(rest, pat, rep)
  {
    if u == [c] {
      ReplaceAllKeepsFirst(c, rest, pat, rep);
    } else {
      KeepEntity(u, rest, pat, rep);
    }
  }

  /** An entity whose second character differs from the pattern's is not
      replaced, and nothing inside it can start the pattern. */
  lemma KeepEntity(u: string, rest: string, pat: string, rep: string)
    requires EntityLike(pat) && EntityLike(u) && u[1] != pat[1]
    ensures ReplaceAll(u + rest, pat, rep) == u + ReplaceAll(rest, pat, rep)
  {
    var tail := u[1..];
    assert u + rest == [u[0]] + (tail + rest);
    assert (tail + rest)[0] == u[1];
    ReplaceAllKeepsFirst(u[0], tail + rest, pat, rep);
    assert forall i :: 0 <= i < |tail| ==> tail[i] == u[i + 1] != pat[0];
    ReplaceAllKeepsText(tail, rest, pat, rep);
    assert [u[0]] + (tail + ReplaceAll(rest, pat, rep)) == u + ReplaceAll(rest, pat, rep);
  }

  /** Stage `k`'s replacement turns stage-`k` escaping into stage `k + 1`. */
  lemma {:induction false} DecodeStage(t: string, k: nat)
    requires k < 4
    requires forall i :: 0 <= i < |t| ==> t[i] != '&'
    ensures ReplaceAll(Escape(t, k), Entities[k], [Escapable[k]]) == Escape(t, k + 1)
    decreases |t|
  {
    var pat := Entities[k];
    var rep := [Escapable[k]];
    if |t| == 0 {
      EscapeCharFacts('a', k);
    } else {
      var c := t[0];
      var rest := Escape(t[1..], k);
      EscapeCharFacts(c, k);
      DecodeStage(t[1..], k);
      if c == Escapable[k] {
        ReplaceAllAtPattern(pat, rest, rep);
      } else {
        KeepUnit(EscapeChar(c, k + 1), c, rest, pat, rep);
      }
    }
  }

  /** The first two replacements leave stage-0 escaping alone. */
  lemma {:induction false} KeepStage(t: string, pat: string, rep: string)
    requires pat == "&nbsp;" || pat == "&amp;"
    requires forall i :: 0 <= i < |t| ==> t[i] != '&'
    ensures ReplaceAll(Escape(t, 0), pat, rep) == Escape(t, 0)
    decreases |t|
  {
    assert EntityLike(pat) && (pat[1] == 'n' || pat[1] == 'a');
    if |t| > 0 {
      var c := t[0];
      EscapeCharStart(c);
      KeepUnit(EscapeChar(c, 0), c, Escape(t[1..], 0), pat, rep);
      KeepStage(t[1..], pat, rep);
    }
  }

  /** Stage 4 escapes nothing. */
  lemma {:induction false} EscapeNothing(t: string)
    ensures Escape(t, 4) == t
    decreases |t|
  {
    if |t| > 0 {
      EscapeNothing(t[1..]);
      assert [t[0]] + t[1..] == t;
    }
  }

  /** Decoding inverts HTML escaping of `<`, `>`, `"` and `'` on every text
      without `&`; with `&` it need not (`DecodesTwice`). */
  lemma DecodeInvertsEscape(t: string)
    requires forall i :: 0 <= i < |t| ==> t[i] != '&'
    ensures DecodeEntities(Escape(t, 0)) == t
  {
    KeepStage(t, "&nbsp;", " ");
    KeepStage(t, "&amp;", "&");
    DecodeFourStages(t);
  }

  /** The last four replacements undo stage-0 escaping. */
  lemma DecodeFourStages(t: string)
    requires forall i :: 0 <= i < |t| ==> t[i] != '&'
    ensures ReplaceAll(ReplaceAll(ReplaceAll(ReplaceAll(Escape(t, 0), "&lt;", "<"), "&gt;", ">"), "&quot;", "\""), "&#39;", "'") == t
  {
    var k: nat := 0;
    DecodeFromStage(t, k);
    EntityTable();
  }

  /** The four entities and the characters they stand for, in decoding order. */
  lemma EntityTable()
    ensures Entities[0] == "&lt;" && [Escapable[0]] == "<"
    ensures Entities[1] == "&gt;" && [Escapable[1]] == ">"
    ensures Entities[2] == "&quot;" && [Escapable[2]] == "\""
    ensures Entities[3] == "&#39;" && [Escapable[3]] == "'"
  {
  }

  /** Decoding the entities of `Entities` from stage `k` on undoes stage-`k` escaping. */
  lemma DecodeFromStage(t: string, k: nat)
    requires k == 0
    requires forall i :: 0 <= i < |t| ==> t[i] != '&'
    ensures ReplaceAll(ReplaceAll(ReplaceAll(ReplaceAll(Escape(t, k), Entities[k], [Escapable[k]]),
              Entities[k + 1], [Escapable[k + 1]]), Entities[k + 2], [Escapable[k + 2]]), Entities[k + 3], [Escapable[k + 3]]) == t
  {
    DecodeStage(t, k);
    var s1 := ReplaceAll(Escape(t, k), Entities[k], [Escapable[k]]);
    assert s1 == Escape(t, k + 1);
    DecodeStage(t, k + 1);
    var s2 := ReplaceAll(s1, Entities[k + 1], [Escapable[k + 1]]);
    assert s2 == Escape(t, k + 2);
    DecodeStage(t, k + 2);
    var s3 := ReplaceAll(s2, Entities[k + 2], [Escapable[k + 2]]);
    assert s3 == Escape(t, k + 3);
    DecodeStage(t, k + 3);
    EscapeNothing(t);
  }

  /** `&amp;` is decoded before `&lt;`, so an escaped entity is decoded twice. */
  lemma DecodesTwice()
    ensures DecodeEntities("&amp;lt;") == "<"
  {
    DecodeWithoutAmpersand("<");
    NbspStep();
    AmpStep();
    LtStep();
  }

  /** The steps of `DecodeEntities` on `&amp;lt;`, one literal at a time. */
  lemma NbspStep()
    ensures ReplaceAll("&amp;lt;", "&nbsp;", " ") == "&amp;lt;"
  {
  }

  lemma AmpStep()
    ensures ReplaceAll("&amp;lt;", "&amp;", "&") == "&lt;"
  {
  }

  lemma LtStep()
    ensures ReplaceAll("&lt;", "&lt;", "<") == "<"
  {
  }

  /** Text without `&` comes through unchanged. */
  lemma DecodeWithoutAmpersand(s: string)
    requires forall k :: 0 <= k < |s| ==> s[k] != '&'
    ensures DecodeEntities(s) == s
  {
    forall pat | pat in ["&nbsp;", "&amp;", "&lt;", "&gt;", "&quot;", "&#39;"] ensures !Contains(s, pat) {
      ContainsSpec(s, pat);
      if exists j :: OccursAt(s, pat, j) {
        var j :| OccursAt(s, pat, j);
        OccursAtChar(s, pat, j, 0);
      }
    }
    ReplaceAllAbsent(s, "&nbsp;", " ");
    ReplaceAllAbsent(s, "&amp;", "&");
    ReplaceAllAbsent(s, "&lt;", "<");
    ReplaceAllAbsent(s, "&gt;", ">");
    ReplaceAllAbsent(s, "&quot;", "\"");
    ReplaceAllAbsent(s, "&#39;", "'");
  }

  /** `s.replace(/\s+/g, " ")`: each maximal run of `\s` becomes one space. */
  function CollapseSpaces(s: string): (r: string)
    ensures forall k :: 0 <= k < |r| && IsSpace(r[k]) ==> r[k] == ' '
    ensures forall k :: 0 <= k < |r| - 1 ==> !(r[k] == ' ' && r[k + 1] == ' ')
    ensures |s| > 0 ==> |r| > 0 && (r[0] == ' ' <==> IsSpace(s[0]))
    ensures |r| <= |s|
    decreases |s|
  {
    if |s| == 0 then ""
    else if IsSpace(s[0]) then
      var j := SkipSpaces(s, 0);
      var rest := CollapseSpaces(s[j..]);
      assert |rest| > 0 ==> !IsSpace(s[j..][0]);
      " " + rest
    else [s[0]] + CollapseSpaces(s[1..])
  }

  /** The text `fetch_webpage` extracts from the tag-free page: entities decoded,
      whitespace runs collapsed, then trimmed. The replacements of `\n\s+` and
      `\n{3,}` that sit between the collapse and the trim find no newline left, so
      they change nothing and are not written out. */
  function PageText(stripped: string): (r: string)
    ensures forall k :: 0 <= k < |r| ==> !IsLineTerminator(r[k])
    ensures forall k :: 0 <= k < |r| - 1 ==> !(r[k] == ' ' && r[k + 1] == ' ')
    ensures |r| > 0 ==> r[0] != ' ' && r[|r| - 1] != ' '
  {
    var c := CollapseSpaces(DecodeEntities(stripped));
    var r := Trim(c);
    var i :| OccursAt(c, r, i);
    forall k | 0 <= k < |r| ensures r[k] == c[i + k] { OccursAtChar(c, r, i, k); }
    r
  }

  /** `fetch_webpage(url, maxLength)`. */
  function FetchWebpage(url: string, href: Option<string>, maxLength: int, outcome: Outcome<PageResponse>): (r: ToolRun)
    ensures r.effects == [] <==> !IsUrlSafe(href)
    ensures IsUrlSafe(href) ==> r.effects == [Fetch(Get, url)]
    ensures !IsUrlSafe(href) ==> r.text == BlockedText
    ensures r.text != ""
  {
    if !IsUrlSafe(href) then ToolRun([], BlockedText)
    else match outcome
      case Threw(message) => ToolRun([Fetch(Get, url)], "Error fetching webpage: " + message)
      case Responded(page) =>
        if !page.ok then
          ToolRun([Fetch(Get, url)], "Error: HTTP " + NatToString(page.status) + " " + page.statusText)
        else
          var text := Truncate(PageText(page.stripped), maxLength);
          ToolRun([Fetch(Get, url)], if text == "" then "(No text content found)" else text)
  }

  /** Up to the limit, a page answer is a single line: only the truncation marker
      can bring a newline in. */
  lemma WebpageSingleLine(url: string, h: string, maxLength: nat, page: PageResponse)
    requires IsUrlSafe(Some(h)) && page.ok && |PageText(page.stripped)| <= maxLength
    ensures var t := FetchWebpage(url, Some(h), maxLength, Responded(page)).text;
      forall k :: 0 <= k < |t| ==> !IsLineTerminator(t[k])
  {
  }

  /** A blocked URL's answer does not depend on what fetching it would have returned. */
  lemma BlockedIgnoresOutcome(url: string, href: Option<string>, a: Outcome<HttpResponse>, b: Outcome<HttpResponse>,
                              c: Outcome<HeadResponse>, d: Outcome<HeadResponse>,
                              maxLength: int, e: Outcome<PageResponse>, f: Outcome<PageResponse>)
    requires !IsUrlSafe(href)
    ensures HttpGet(url, href, a) == HttpGet(url, href, b)
    ensures HttpPost(url, href, a) == HttpPost(url, href, b)
    ensures CheckUrl(url, href, c) == CheckUrl(url, href, d)
    ensures FetchWebpage(url, href, maxLength, e) == FetchWebpage(url, href, maxLength, f)
  {
  }
}

=== FILE: filesystem_tools.dfy ===
/**
 * The file-system tools: one path gate (`isPathAllowed`) in front of five
 * handlers. The working directory is a parameter (a list of path segments),
 * directory contents are given as a tree of entries, and every read, write,
 * listing or stat outcome is an input. Each handler reports the operations it
 * performed in its effect log.
 */
module FileSystemTools {
  import opened Wrappers
  import opened Text
  import opened Seqs
  import opened Tools
  import opened Paths

  // ---- The gate ----

  /** `ALLOWED_PATHS`: just the process working directory. */
  function AllowedPaths(cwd: seq<string>): seq<string> {
    [Render(cwd)]
  }

  /** `ALLOWED_PATHS.some(a => absolute.startsWith(path.resolve(a)))`. */
  predicate SomeAllowed(cwd: seq<string>, allowed: seq<string>, absolute: string)
    requires Normal(cwd)
    decreases |allowed|
  {
    |allowed| > 0 &&
    (Render(Resolve(cwd, allowed[0])) <= absolute || SomeAllowed(cwd, allowed[1..], absolute))
  }

  /** `isPathAllowed(filePath)`: a text-prefix test on lexically resolved paths. */
  predicate IsPathAllowed(cwd: seq<string>, filePath: string)
    requires Normal(cwd)
  {
    SomeAllowed(cwd, AllowedPaths(cwd), Render(Resolve(cwd, filePath)))
  }

  /** The absolute path a handler works on: `path.resolve(filePath)`. */
  function Absolute(cwd: seq<string>, filePath: string): (r: string)
    requires Normal(cwd)
    ensures |r| > 0 && r[0] == '/'
  {
    Render(Resolve(cwd, filePath))
  }

  /**
   * The gate in terms of segments: allowed exactly when the resolved path keeps
   * the leading segments of the working directory and its segment at the last
   * position starts with the working directory's last segment.
   */
  lemma PathAllowedCharacterization(cwd: seq<string>, filePath: string)
    requires Normal(cwd)
    ensures IsPathAllowed(cwd, filePath) <==> TextBeneath(cwd, Resolve(cwd, filePath))
    ensures IsPathAllowed(cwd, filePath) <==> Render(cwd) <= Absolute(cwd, filePath)
  {
    ResolveRender(cwd, cwd);
    var absolute := Render(Resolve(cwd, filePath));
    assert SomeAllowed(cwd, AllowedPaths(cwd), absolute) <==> Render(cwd) <= absolute by {
      assert AllowedPaths(cwd)[1..] == [];
    }
    RenderedPrefixCharacterization(cwd, Resolve(cwd, filePath));
  }

  /** The working directory itself and everything that resolves beneath it pass. */
  lemma BeneathAllowed(cwd: seq<string>, filePath: string)
    requires Normal(cwd)
    requires cwd <= Resolve(cwd, filePath)
    ensures IsPathAllowed(cwd, filePath)
  {
    PathAllowedCharacterization(cwd, filePath);
    ExtensionBeneath(cwd, Resolve(cwd, filePath));
  }

  lemma CwdAllowed(cwd: seq<string>)
    requires Normal(cwd)
    ensures IsPathAllowed(cwd, ".") && IsPathAllowed(cwd, Render(cwd))
  {
    SplitNoSlashWord(".");
    assert Resolve(cwd, ".") == Walk(cwd, ["."]) == Walk(cwd, []);
    BeneathAllowed(cwd, ".");
    ResolveRender(cwd, cwd);
    BeneathAllowed(cwd, Render(cwd));
  }

  /** A relative path without `..` parts always passes. */
  lemma RelativeAllowed(cwd: seq<string>, filePath: string)
    requires Normal(cwd)
    requires !(|filePath| > 0 && filePath[0] == '/')
    requires forall part :: part in SplitWhere(filePath, IsSlash) ==> part != ".."
    ensures IsPathAllowed(cwd, filePath)
  {
    RelativeStaysBelow(cwd, filePath);
    BeneathAllowed(cwd, filePath);
  }

  /** With the root as working directory every path passes. */
  lemma RootAllowsAll(filePath: string)
    ensures IsPathAllowed([], filePath)
  {
    BeneathAllowed([], filePath);
  }

  /** `..` leaves any working directory other than the root. */
  lemma ParentRejected(cwd: seq<string>)
    requires Normal(cwd) && |cwd| > 0
    ensures !IsPathAllowed(cwd, "..")
  {
    SplitNoSlashWord("..");
    assert Resolve(cwd, "..") == Walk(cwd, [".."]) == Walk(cwd[..|cwd| - 1], []);
    PathAllowedCharacterization(cwd, "..");
  }

  /**
   * `<cwd>/../<tail>` is rejected unless the first segment of `tail` starts with
   * the working directory's own name.
   */
  lemma EscapeRejected(cwd: seq<string>, tail: seq<string>)
    requires Normal(cwd) && |cwd| > 0 && Normal(tail)
    requires |tail| == 0 || !(cwd[|cwd| - 1] <= tail[0])
    ensures !IsPathAllowed(cwd, RenderFrom(cwd + [".."] + tail))
  {
    var p := RenderFrom(cwd + [".."] + tail);
    ParentThenDown(cwd, tail);
    PathAllowedCharacterization(cwd, p);
    var res := cwd[..|cwd| - 1] + tail;
    if |res| >= |cwd| {
      assert res[|cwd| - 1] == tail[0];
    }
  }

  /**
   * The prefix test has no separator check: a sibling directory whose name
   * extends the working directory's name passes, although it is not beneath it.
   */
  lemma SiblingPrefixAllowed(cwd: seq<string>, sibling: string, rest: seq<string>)
    requires Normal(cwd) && |cwd| > 0 && Normal(rest)
    requires IsSegment(sibling) && cwd[|cwd| - 1] <= sibling && sibling != cwd[|cwd| - 1]
    ensures IsPathAllowed(cwd, Render(cwd[..|cwd| - 1] + [sibling] + rest))
    ensures !(cwd <= Resolve(cwd, Render(cwd[..|cwd| - 1] + [sibling] + rest)))
  {
    var segs := cwd[..|cwd| - 1] + [sibling] + rest;
    assert Normal(segs) by {
      assert forall i :: 0 <= i < |segs| ==> segs[i] == sibling || segs[i] in cwd || segs[i] in rest;
    }
    ResolveRender(cwd, segs);
    PathAllowedCharacterization(cwd, Render(segs));
    assert segs[..|cwd| - 1] == cwd[..|cwd| - 1];
    assert segs[|cwd| - 1] == sibling;
  }

  /** With working directory `/a/b`, the path `/a/bc/x` passes the gate. */
  lemma SiblingExample()
    ensures IsPathAllowed(["a", "b"], "/a/bc/x")
  {
    var segs := ["a", "bc", "x"];
    assert ["a", "b"][..1] + ["bc"] + ["x"] == segs;
    assert Render(segs) == "/a/bc/x";
    SiblingPrefixAllowed(["a", "b"], "bc", ["x"]);
  }

  /** With working directory `/a/b`, the path `/a/b/../c` is refused. */
  lemma EscapeExample()
    ensures !IsPathAllowed(["a", "b"], "/a/b/../c")
  {
    var cwd := ["a", "b"];
    var tail := ["c"];
    assert cwd + [".."] + tail == ["a", "b", "..", "c"];
    assert RenderFrom(["a", "b", "..", "c"]) == "/a/b/../c";
    DifferAt("b", "c", 0);
    EscapeRejected(cwd, tail);
  }

  // ---- Handlers ----

  function DeniedText(filePath: string): string {
    "Error: Access denied. Path '" + filePath + "' is outside allowed directories."
  }

  /** `read_file`: the content comes back decoded in the requested encoding. */
  function ReadFileTool(cwd: seq<string>, filePath: string, outcome: Result<string>): (r: ToolRun)
    requires Normal(cwd)
    ensures r.effects == [] <==> !IsPathAllowed(cwd, filePath)
    ensures IsPathAllowed(cwd, filePath) ==> r.effects == [ReadFile(Absolute(cwd, filePath))]
    ensures !IsPathAllowed(cwd, filePath) ==> r.text == DeniedText(filePath)
  {
    if !IsPathAllowed(cwd, filePath) then ToolRun([], DeniedText(filePath))
    else
      var absolute := Absolute(cwd, filePath);
      match outcome
      case Ok(content) => ToolRun([ReadFile(absolute)], content)
      case Err(message) => ToolRun([ReadFile(absolute)], "Error reading file: " + message)
  }

  /** `path.dirname` of a resolved path. */
  function DirName(segs: seq<string>): (r: seq<string>)
    ensures r <= segs
    ensures |segs| > 0 ==> |r| == |segs| - 1
  {
    if |segs| == 0 then segs else segs[..|segs| - 1]
  }

  /**
   * `write_file`: optionally `mkdir -p` of the parent, then the write. The two
   * optional messages are the errors those two steps would raise.
   */
  function WriteFileTool(cwd: seq<string>, filePath: string, content: string, createDirectories: bool,
                         mkdirError: Option<string>, writeError: Option<string>): (r: ToolRun)
    requires Normal(cwd)
    ensures r.effects == [] <==> !IsPathAllowed(cwd, filePath)
    ensures !IsPathAllowed(cwd, filePath) ==> r.text == DeniedText(filePath)
    ensures IsPathAllowed(cwd, filePath) && !createDirectories ==>
              r.effects == [WriteFile(Absolute(cwd, filePath), content)]
    ensures IsPathAllowed(cwd, filePath) && createDirectories ==>
              r.effects[0] == MakeDir(Render(DirName(Resolve(cwd, filePath))))
    ensures WriteFile(Absolute(cwd, filePath), content) in r.effects <==>
              IsPathAllowed(cwd, filePath) && !(createDirectories && mkdirError.Some?)
  {
    if !IsPathAllowed(cwd, filePath) then ToolRun([], DeniedText(filePath))
    else
      var absolute := Absolute(cwd, filePath);
      var made := if createDirectories then [MakeDir(Render(DirName(Resolve(cwd, filePath))))] else [];
      if createDirectories && mkdirError.Some? then
        ToolRun(made, "Error writing file: " + mkdirError.value)
      else
        var effects := made + [WriteFile(absolute, content)];
        match writeError
        case Some(message) => ToolRun(effects, "Error writing file: " + message)
        case None =>
          ToolRun(effects, "Successfully wrote " + NatToString(|content|) + " bytes to " + absolute)
  }

  /** `file_info`: one stat; the rendered JSON of the stat record is an input. */
  function FileInfoTool(cwd: seq<string>, filePath: string, outcome: Result<string>): (r: ToolRun)
    requires Normal(cwd)
    ensures r.effects == [] <==> !IsPathAllowed(cwd, filePath)
    ensures IsPathAllowed(cwd, filePath) ==> r.effects == [Stat(Absolute(cwd, filePath))]
    ensures !IsPathAllowed(cwd, filePath) ==> r.text == DeniedText(filePath)
  {
    if !IsPathAllowed(cwd, filePath) then ToolRun([], DeniedText(filePath))
    else
      var absolute := Absolute(cwd, filePath);
      match outcome
      case Ok(json) => ToolRun([Stat(absolute)], json)
      case Err(message) => ToolRun([Stat(absolute)], "Error getting file info: " + message)
  }

  // ---- Directory trees ----

  /** A directory entry; `children` is what reading it as a directory yields. */
  datatype Entry = Entry(name: string, isDir: bool, children: seq<Entry>)

  /** `path.relative(root, path.join(dir, name))` for an entry of the directory at `dirRel`. */
  function ChildPath(dirRel: string, name: string): string {
    if dirRel == "" then name else dirRel + "/" + name
  }

  /** One line of a listing before rendering: nesting level, kind and relative path. */
  datatype Line = Line(level: nat, isDir: bool, rel: string)

  function Indentation(level: nat): (r: string)
    ensures |r| == 2 * level
  {
    if level == 0 then "" else "  " + Indentation(level - 1)
  }

  function LineText(l: Line): string {
    Indentation(l.level) + (if l.isDir then "[DIR] " else "[FILE]") + " " + l.rel
  }

  /** Nesting a line one level deeper prefixes its text with two spaces. */
  lemma IndentText(l: Line)
    ensures LineText(l.(level := l.level + 1)) == "  " + LineText(l)
  {
  }

  function Indent(lines: seq<Line>): (r: seq<Line>)
    ensures |r| == |lines|
    ensures forall i :: 0 <= i < |r| ==> r[i] == lines[i].(level := lines[i].level + 1)
  {
    seq(|lines|, i requires 0 <= i < |lines| => lines[i].(level := lines[i].level + 1))
  }

  /** The deepest nesting level a listing entered at `depth` can show. */
  function LevelBound(depth: int, recursive: bool, maxDepth: int): nat {
    if recursive && depth < maxDepth then maxDepth - depth else 0
  }

  /**
   * `listDir(dir, depth)`: one line per entry, followed, for a directory when
   * listing recursively below `maxDepth`, by its own listing one level deeper.
   */
  function Listing(entries: seq<Entry>, dirRel: string, depth: int, recursive: bool, maxDepth: int): (r: seq<Line>)
    ensures |r| >= |entries|
    ensures forall i :: 0 <= i < |r| ==> r[i].level <= LevelBound(depth, recursive, maxDepth)
    decreases entries
  {
    if |entries| == 0 then []
    else
      var e := entries[0];
      var rel := ChildPath(dirRel, e.name);
      var nested :=
        if recursive && e.isDir && depth < maxDepth
        then Indent(Listing(e.children, rel, depth + 1, recursive, maxDepth))
        else [];
      [Line(0, e.isDir, rel)] + nested + Listing(entries[1..], dirRel, depth, recursive, maxDepth)
  }

  /** The unindented line of each entry of one directory, in order. */
  function TopLines(entries: seq<Entry>, dirRel: string): (r: seq<Line>)
    ensures |r| == |entries|
    decreases |entries|
  {
    if |entries| == 0 then []
    else [Line(0, entries[0].isDir, ChildPath(dirRel, entries[0].name))] + TopLines(entries[1..], dirRel)
  }

  function IsTopLine(l: Line): bool {
    l.level == 0
  }

  lemma {:induction false} IndentedNotTop(lines: seq<Line>)
    ensures Filter(Indent(lines), IsTopLine) == []
    decreases |lines|
  {
    if |lines| > 0 {
      assert Indent(lines)[1..] == Indent(lines[1..]);
      IndentedNotTop(lines[1..]);
    }
  }

  /** Whatever the recursion, the unindented lines are exactly the directory's own entries. */
  lemma {:induction false} TopLevelLines(entries: seq<Entry>, dirRel: string, depth: int, recursive: bool, maxDepth: int)
    ensures Filter(Listing(entries, dirRel, depth, recursive, maxDepth), IsTopLine) == TopLines(entries, dirRel)
    decreases entries
  {
    if |entries| == 0 {
      assert Filter(Listing(entries, dirRel, depth, recursive, maxDepth), IsTopLine) == [];
    } else {
      var e := entries[0];
      var rel := ChildPath(dirRel, e.name);
      var first := Line(0, e.isDir, rel);
      var nested :=
        if recursive && e.isDir && depth < maxDepth
        then Indent(Listing(e.children, rel, depth + 1, recursive, maxDepth))
        else [];
      var tail := Listing(entries[1..], dirRel, depth, recursive, maxDepth);
      ListingStep(entries, dirRel, depth, recursive, maxDepth);
      assert Filter(nested, IsTopLine) == [] by {
        if recursive && e.isDir && depth < maxDepth {
          IndentedNotTop(Listing(e.children, rel, depth + 1, recursive, maxDepth));
        }
      }
      TopLevelLines(entries[1..], dirRel, depth, recursive, maxDepth);
      assert IsTopLine(first);
      FilterConsSkip(first, nested, tail, IsTopLine);
      assert TopLines(entries, dirRel) == [first] + TopLines(entries[1..], dirRel);
    }
  }

  /** One step of a listing: the entry's line, its nested listing, the rest. */
  lemma ListingStep(entries: seq<Entry>, dirRel: string, depth: int, recursive: bool, maxDepth: int)
    requires |entries| > 0
    ensures var e := entries[0];
            var rel := ChildPath(dirRel, e.name);
            var nested :=
              if recursive && e.isDir && depth < maxDepth
              then Indent(Listing(e.children, rel, depth + 1, recursive, maxDepth))
              else [];
            Listing(entries, dirRel, depth, recursive, maxDepth)
            == [Line(0, e.isDir, rel)] + (nested + Listing(entries[1..], dirRel, depth, recursive, maxDepth))
  {
    var e := entries[0];
    var rel := ChildPath(dirRel, e.name);
    var nested :=
      if recursive && e.isDir && depth < maxDepth
      then Indent(Listing(e.children, rel, depth + 1, recursive, maxDepth))
      else [];
    ConcatAssoc3([Line(0, e.isDir, rel)], nested, Listing(entries[1..], dirRel, depth, recursive, maxDepth));
  }

  /** Without recursion, or at the depth limit, a listing is just the directory's own entries. */
  lemma {:induction false} ShallowListing(entries: seq<Entry>, dirRel: string, depth: int, recursive: bool, maxDepth: int)
    requires !recursive || maxDepth <= depth
    ensures Listing(entries, dirRel, depth, recursive, maxDepth) == TopLines(entries, dirRel)
    decreases entries
  {
    if |entries| > 0 {
      ShallowListing(entries[1..], dirRel, depth, recursive, maxDepth);
    }
  }

  function ListingText(lines: seq<Line>): (r: string)
    decreases |lines|
  {
    if |lines| == 0 then "" else if |lines| == 1 then LineText(lines[0])
    else LineText(lines[0]) + "\n" + ListingText(lines[1..])
  }

  /** A listing with at least one line starts with an indentation or a bracket, never with `(`. */
  lemma ListingTextStart(lines: seq<Line>)
    requires |lines| > 0
    ensures |ListingText(lines)| > 0 && ListingText(lines)[0] != '('
  {
    var first := LineText(lines[0]);
    assert first[0] == ' ' || first[0] == '[';
    if |lines| > 1 {
      assert ListingText(lines) == first + ("\n" + ListingText(lines[1..]));
    }
  }

  /** `path.join(absolute, rel)` for the relative path of an entry below the
      resolved directory; entry names are plain names, without `/`, `.` or `..`. */
  function SubdirPath(absolute: string, rel: string): string {
    if absolute == "/" then "/" + rel else absolute + "/" + rel
  }

  /** One directory read per relative path, below the resolved directory. */
  function ReadsBelow(absolute: string, rels: seq<string>): (r: seq<Effect>)
    ensures |r| == |rels|
    ensures forall i :: 0 <= i < |r| ==> r[i] == ReadDir(SubdirPath(absolute, rels[i]))
    decreases |rels|
  {
    if |rels| == 0 then [] else [ReadDir(SubdirPath(absolute, rels[0]))] + ReadsBelow(absolute, rels[1..])
  }

  /** The subdirectories `listDir` reads, in the order it reads them: each
      directory it descends into, then the ones below it. */
  function ListingReads(entries: seq<Entry>, dirRel: string, depth: int, recursive: bool, maxDepth: int): seq<string>
    decreases entries
  {
    if |entries| == 0 then []
    else
      var e := entries[0];
      var rel := ChildPath(dirRel, e.name);
      (if recursive && e.isDir && depth < maxDepth
       then [rel] + ListingReads(e.children, rel, depth + 1, recursive, maxDepth)
       else [])
      + ListingReads(entries[1..], dirRel, depth, recursive, maxDepth)
  }

  /** How deep directories nest in a tree: 0 when it holds no directory. */
  function DirDepth(entries: seq<Entry>): nat
    decreases entries
  {
    if |entries| == 0 then 0
    else
      var own := if entries[0].isDir then 1 + DirDepth(entries[0].children) else 0;
      var rest := DirDepth(entries[1..]);
      if own < rest then rest else own
  }

  function IsDirVisit(v: Visit): bool {
    v.entry.isDir
  }

  /** The relative paths of the directories among the visits, in order. */
  function DirRels(visits: seq<Visit>): seq<string> {
    Rels(Filter(visits, IsDirVisit))
  }

  lemma DirRelsAppend(a: seq<Visit>, b: seq<Visit>)
    ensures DirRels(a + b) == DirRels(a) + DirRels(b)
  {
    FilterAppend(a, b, IsDirVisit);
    RelsAppend(Filter(a, IsDirVisit), Filter(b, IsDirVisit));
  }

  /** Without recursion, or at the depth limit, no subdirectory is read. */
  lemma {:induction false} ShallowReads(entries: seq<Entry>, dirRel: string, depth: int, recursive: bool, maxDepth: int)
    ensures !recursive || maxDepth <= depth ==> ListingReads(entries, dirRel, depth, recursive, maxDepth) == []
    decreases entries
  {
    if |entries| > 0 && (!recursive || maxDepth <= depth) {
      ShallowReads(entries[1..], dirRel, depth, recursive, maxDepth);
    }
  }

  /** With a depth limit the tree does not reach, a recursive listing reads
      every directory of the tree, in pre-order. */
  lemma {:induction false} DeepReads(entries: seq<Entry>, dirRel: string, depth: int, maxDepth: int)
    requires depth + DirDepth(entries) <= maxDepth
    ensures ListingReads(entries, dirRel, depth, true, maxDepth) == DirRels(Preorder(entries, dirRel))
    decreases entries
  {
    if |entries| == 0 {
      assert Filter(Preorder(entries, dirRel), IsDirVisit) == [];
    } else {
      var e := entries[0];
      var rel := ChildPath(dirRel, e.name);
      var below := if e.isDir then Preorder(e.children, rel) else [];
      var rest := Preorder(entries[1..], dirRel);
      var own := if e.isDir then [rel] + ListingReads(e.children, rel, depth + 1, true, maxDepth) else [];
      assert DirDepth(entries[1..]) <= DirDepth(entries);
      DeepReads(entries[1..], dirRel, depth, maxDepth);
      if e.isDir {
        assert depth + 1 + DirDepth(e.children) <= maxDepth;
        DeepReads(e.children, rel, depth + 1, maxDepth);
      } else {
        assert Filter(below, IsDirVisit) == [];
      }
      assert ListingReads(entries, dirRel, depth, true, maxDepth)
             == own + ListingReads(entries[1..], dirRel, depth, true, maxDepth);
      assert own == (if e.isDir then [rel] else []) + DirRels(below);
      PreorderStep(entries, dirRel);
      DirRelsThreeParts(Visit(rel, e), below, rest);
    }
  }

  lemma DirRelsThreeParts(v: Visit, below: seq<Visit>, rest: seq<Visit>)
    ensures DirRels([v] + (below + rest))
            == (if v.entry.isDir then [v.rel] else []) + DirRels(below) + DirRels(rest)
  {
    assert Filter([v], IsDirVisit) == if v.entry.isDir then [v] else [];
    DirRelsAppend([v], below + rest);
    DirRelsAppend(below, rest);
  }

  /** `list_directory`: the listing starts at depth 0 under the resolved directory. */
  function ListDirectoryTool(cwd: seq<string>, dirPath: string, recursive: bool, maxDepth: int,
                             top: Result<seq<Entry>>): (r: ToolRun)
    requires Normal(cwd)
    ensures r.effects == [] <==> !IsPathAllowed(cwd, dirPath)
    ensures IsPathAllowed(cwd, dirPath) ==>
              r.effects == [ReadDir(Absolute(cwd, dirPath))]
                           + (if top.Ok? then ReadsBelow(Absolute(cwd, dirPath), ListingReads(top.value, "", 0, recursive, maxDepth))
                              else [])
    ensures IsPathAllowed(cwd, dirPath) && (!recursive || maxDepth <= 0) ==>
              r.effects == [ReadDir(Absolute(cwd, dirPath))]
    ensures !IsPathAllowed(cwd, dirPath) ==> r.text == DeniedText(dirPath)
    ensures IsPathAllowed(cwd, dirPath) && top.Ok? ==>
              (r.text == "(empty directory)" <==> top.value == [])
    ensures IsPathAllowed(cwd, dirPath) && top.Ok? && top.value != [] ==>
              r.text == ListingText(Listing(top.value, "", 0, recursive, maxDepth))
    ensures IsPathAllowed(cwd, dirPath) && top.Err? ==> r.text == "Error listing directory: " + top.message
  {
    if !IsPathAllowed(cwd, dirPath) then ToolRun([], DeniedText(dirPath))
    else
      var absolute := Absolute(cwd, dirPath);
      match top
      case Err(message) => ToolRun([ReadDir(absolute)], "Error listing directory: " + message)
      case Ok(entries) =>
        var lines := Listing(entries, "", 0, recursive, maxDepth);
        var log := [ReadDir(absolute)] + ReadsBelow(absolute, ListingReads(entries, "", 0, recursive, maxDepth));
        ShallowReads(entries, "", 0, recursive, maxDepth);
        if |lines| > 0 then
          ListingTextStart(lines);
          ToolRun(log, ListingText(lines))
        else ToolRun(log, "(empty directory)")
  }

  // ---- Search ----

  predicate NameMatches(name: string, pattern: string) {
    ContainsIgnoreCase(name, pattern)
  }

  /** Every entry of a tree with its relative path, in pre-order. */
  datatype Visit = Visit(rel: string, entry: Entry)

  function Preorder(entries: seq<Entry>, dirRel: string): (r: seq<Visit>)
    ensures |r| >= |entries|
    decreases entries
  {
    if |entries| == 0 then []
    else
      var e := entries[0];
      var rel := ChildPath(dirRel, e.name);
      [Visit(rel, e)] + (if e.isDir then Preorder(e.children, rel) else []) + Preorder(entries[1..], dirRel)
  }

  /** The relative paths of the visits whose entry name matches. */
  function MatchesPattern(pattern: string): Visit -> bool {
    (v: Visit) => NameMatches(v.entry.name, pattern)
  }

  function Rels(visits: seq<Visit>): (r: seq<string>)
    ensures |r| == |visits|
    ensures forall i :: 0 <= i < |r| ==> r[i] == visits[i].rel
    decreases |visits|
  {
    if |visits| == 0 then [] else [visits[0].rel] + Rels(visits[1..])
  }

  lemma RelsAppend(a: seq<Visit>, b: seq<Visit>)
    ensures Rels(a + b) == Rels(a) + Rels(b)
  {
    var r := Rels(a + b);
    assert forall i :: 0 <= i < |r| ==> r[i] == (Rels(a) + Rels(b))[i] by {
      forall i | 0 <= i < |r| ensures r[i] == (Rels(a) + Rels(b))[i] {
        if i < |a| {
          assert (a + b)[i] == a[i];
        } else {
          assert (a + b)[i] == b[i - |a|];
        }
      }
    }
  }

  /** The relative paths of the visits whose entry name matches, in order. */
  function Hits(visits: seq<Visit>, pattern: string): seq<string> {
    Rels(Filter(visits, MatchesPattern(pattern)))
  }

  lemma HitsAppend(a: seq<Visit>, b: seq<Visit>, pattern: string)
    ensures Hits(a + b, pattern) == Hits(a, pattern) + Hits(b, pattern)
  {
    FilterAppend(a, b, MatchesPattern(pattern));
    var fa, fb := Filter(a, MatchesPattern(pattern)), Filter(b, MatchesPattern(pattern));
    RelsAppend(fa, fb);
  }

  /** Every match below a directory, in the order the search meets them. */
  function AllMatches(entries: seq<Entry>, dirRel: string, pattern: string): seq<string>
    decreases entries
  {
    if |entries| == 0 then []
    else
      var e := entries[0];
      var rel := ChildPath(dirRel, e.name);
      (if NameMatches(e.name, pattern) then [rel] else [])
      + (if e.isDir then AllMatches(e.children, rel, pattern) else [])
      + AllMatches(entries[1..], dirRel, pattern)
  }

  /** The search order is the pre-order of the tree, filtered by name. */
  lemma {:induction false} AllMatchesArePreorderHits(entries: seq<Entry>, dirRel: string, pattern: string)
    ensures AllMatches(entries, dirRel, pattern) == Hits(Preorder(entries, dirRel), pattern)
    decreases entries
  {
    if |entries| == 0 {
      assert Filter(Preorder(entries, dirRel), MatchesPattern(pattern)) == [];
    } else {
      var e := entries[0];
      var rel := ChildPath(dirRel, e.name);
      var below := if e.isDir then Preorder(e.children, rel) else [];
      var rest := Preorder(entries[1..], dirRel);
      var own := if NameMatches(e.name, pattern) then [rel] else [];
      var belowHits := if e.isDir then AllMatches(e.children, rel, pattern) else [];
      PreorderStep(entries, dirRel);
      AllMatchesStep(entries, dirRel, pattern);
      if e.isDir {
        AllMatchesArePreorderHits(e.children, rel, pattern);
      } else {
        assert Filter(below, MatchesPattern(pattern)) == [];
      }
      assert belowHits == Hits(below, pattern);
      AllMatchesArePreorderHits(entries[1..], dirRel, pattern);
      HitsThreeParts(Visit(rel, e), below, rest, pattern);
    }
  }

  /** One step of the pre-order walk: the entry, what lies below it, the rest. */
  lemma PreorderStep(entries: seq<Entry>, dirRel: string)
    requires |entries| > 0
    ensures var e := entries[0];
            var rel := ChildPath(dirRel, e.name);
            Preorder(entries, dirRel)
            == [Visit(rel, e)] + ((if e.isDir then Preorder(e.children, rel) else []) + Preorder(entries[1..], dirRel))
  {
    var e := entries[0];
    var rel := ChildPath(dirRel, e.name);
    ConcatAssoc3([Visit(rel, e)], if e.isDir then Preorder(e.children, rel) else [], Preorder(entries[1..], dirRel));
  }

  /** The pre-order walk of two runs of sibling entries is the walk of the
      first run followed by the walk of the second. */
  lemma {:induction false} PreorderAppend(a: seq<Entry>, b: seq<Entry>, dirRel: string)
    ensures Preorder(a + b, dirRel) == Preorder(a, dirRel) + Preorder(b, dirRel)
    decreases |a|
  {
    if |a| == 0 {
      assert a + b == b;
    } else {
      var e := a[0];
      var rel := ChildPath(dirRel, e.name);
      var below := if e.isDir then Preorder(e.children, rel) else [];
      assert (a + b)[0] == e && (a + b)[1..] == a[1..] + b;
      PreorderStep(a + b, dirRel);
      PreorderStep(a, dirRel);
      PreorderAppend(a[1..], b, dirRel);
      ConcatAssoc3(below, Preorder(a[1..], dirRel), Preorder(b, dirRel));
      ConcatAssoc3([Visit(rel, e)], below + Preorder(a[1..], dirRel), Preorder(b, dirRel));
    }
  }

  /** An entry with everything below it, in the order the walk meets them. */
  function Subtree(e: Entry, dirRel: string): seq<Visit> {
    var rel := ChildPath(dirRel, e.name);
    [Visit(rel, e)] + (if e.isDir then Preorder(e.children, rel) else [])
  }

  /** Each top-level entry is visited, immediately followed by its own subtree,
      after the subtrees of the entries before it and before those after it. */
  lemma PreorderVisitsEachEntry(entries: seq<Entry>, dirRel: string, i: nat)
    requires i < |entries|
    ensures Preorder(entries, dirRel)
            == Preorder(entries[..i], dirRel) + Subtree(entries[i], dirRel) + Preorder(entries[i + 1..], dirRel)
    ensures Visit(ChildPath(dirRel, entries[i].name), entries[i]) in Preorder(entries, dirRel)
  {
    var e := entries[i];
    var tail := entries[i..];
    assert entries == entries[..i] + tail;
    PreorderAppend(entries[..i], tail, dirRel);
    assert tail[0] == e && tail[1..] == entries[i + 1..];
    PreorderStep(tail, dirRel);
    var rel := ChildPath(dirRel, e.name);
    var below := if e.isDir then Preorder(e.children, rel) else [];
    ConcatAssoc3([Visit(rel, e)], below, Preorder(entries[i + 1..], dirRel));
    ConcatAssoc3(Preorder(entries[..i], dirRel), Subtree(e, dirRel), Preorder(entries[i + 1..], dirRel));
    var r := Preorder(entries, dirRel);
    assert r[|Preorder(entries[..i], dirRel)|] == Visit(rel, e);
  }

  /** The number of entries in a tree, counting every entry of every directory. */
  function EntryCount(entries: seq<Entry>): nat
    decreases entries
  {
    if |entries| == 0 then 0
    else 1 + (if entries[0].isDir then EntryCount(entries[0].children) else 0) + EntryCount(entries[1..])
  }

  /** The walk visits each entry of the tree exactly once: as many visits as entries. */
  lemma {:induction false} PreorderCountsEntries(entries: seq<Entry>, dirRel: string)
    ensures |Preorder(entries, dirRel)| == EntryCount(entries)
    decreases entries
  {
    if |entries| > 0 {
      var e := entries[0];
      var rel := ChildPath(dirRel, e.name);
      if e.isDir {
        PreorderCountsEntries(e.children, rel);
      }
      PreorderCountsEntries(entries[1..], dirRel);
    }
  }

  /** One step of the recursive search: the entry's own match, those below it, the rest. */
  lemma AllMatchesStep(entries: seq<Entry>, dirRel: string, pattern: string)
    requires |entries| > 0
    ensures var e := entries[0];
            var rel := ChildPath(dirRel, e.name);
            AllMatches(entries, dirRel, pattern)
            == (if NameMatches(e.name, pattern) then [rel] else [])
               + ((if e.isDir then AllMatches(e.children, rel, pattern) else []) + AllMatches(entries[1..], dirRel, pattern))
  {
    var e := entries[0];
    var rel := ChildPath(dirRel, e.name);
    ConcatAssoc3(if NameMatches(e.name, pattern) then [rel] else [],
                 if e.isDir then AllMatches(e.children, rel, pattern) else [],
                 AllMatches(entries[1..], dirRel, pattern));
  }

  lemma HitsThreeParts(v: Visit, below: seq<Visit>, rest: seq<Visit>, pattern: string)
    ensures Hits([v] + (below + rest), pattern)
            == (if NameMatches(v.entry.name, pattern) then [v.rel] else []) + (Hits(below, pattern) + Hits(rest, pattern))
  {
    assert Filter([v], MatchesPattern(pattern)) == if NameMatches(v.entry.name, pattern) then [v] else [];
    HitsAppend([v], below + rest, pattern);
    HitsAppend(below, rest, pattern);
  }

  /**
   * `searchDir` with the shared `results` array as an accumulator: stop once
   * `maxResults` results are collected, push a matching name, descend into
   * every directory.
   */
  function Search(entries: seq<Entry>, dirRel: string, pattern: string, maxResults: int, acc: seq<string>): seq<string>
    decreases entries
  {
    if |acc| >= maxResults || |entries| == 0 then acc
    else
      var e := entries[0];
      var rel := ChildPath(dirRel, e.name);
      var found := if NameMatches(e.name, pattern) then acc + [rel] else acc;
      var after := if e.isDir then Search(e.children, rel, pattern, maxResults, found) else found;
      Search(entries[1..], dirRel, pattern, maxResults, after)
  }

  /** The search collects the first matches in pre-order, and no more than the bound allows. */
  lemma {:induction false} SearchTakesFirstMatches(entries: seq<Entry>, dirRel: string, pattern: string,
                                                  maxResults: int, acc: seq<string>)
    ensures Search(entries, dirRel, pattern, maxResults, acc)
            == acc + FirstN(AllMatches(entries, dirRel, pattern), maxResults - |acc|)
    decreases entries
  {
    if |acc| >= maxResults || |entries| == 0 {
      assert Search(entries, dirRel, pattern, maxResults, acc) == acc;
      assert FirstN(AllMatches(entries, dirRel, pattern), maxResults - |acc|) == [];
      assert acc + [] == acc;
    } else {
      var e := entries[0];
      var rel := ChildPath(dirRel, e.name);
      var own := if NameMatches(e.name, pattern) then [rel] else [];
      var found := if NameMatches(e.name, pattern) then acc + [rel] else acc;
      var below := if e.isDir then AllMatches(e.children, rel, pattern) else [];
      var rest := AllMatches(entries[1..], dirRel, pattern);
      var after := if e.isDir then Search(e.children, rel, pattern, maxResults, found) else found;
      assert found == acc + own;
      assert after == found + FirstN(below, maxResults - |found|) by {
        if e.isDir {
          SearchTakesFirstMatches(e.children, rel, pattern, maxResults, found);
        } else {
          assert FirstN(below, maxResults - |found|) == [];
          assert found + [] == found;
        }
      }
      SearchStep(entries, dirRel, pattern, maxResults, acc);
      SearchTakesFirstMatches(entries[1..], dirRel, pattern, maxResults, after);
      AllMatchesStep(entries, dirRel, pattern);
      SearchCombine(acc, own, below, rest, after, maxResults);
    }
  }

  /** The subdirectories `searchDir` reads, in order: a directory entry is
      read when the results are still below the bound after its own match. */
  function SearchReads(entries: seq<Entry>, dirRel: string, pattern: string, maxResults: int, acc: seq<string>): seq<string>
    decreases entries
  {
    if |acc| >= maxResults || |entries| == 0 then []
    else
      var e := entries[0];
      var rel := ChildPath(dirRel, e.name);
      var found := if NameMatches(e.name, pattern) then acc + [rel] else acc;
      var after := if e.isDir then Search(e.children, rel, pattern, maxResults, found) else found;
      (if e.isDir && |found| < maxResults
       then [rel] + SearchReads(e.children, rel, pattern, maxResults, found)
       else [])
      + SearchReads(entries[1..], dirRel, pattern, maxResults, after)
  }

  /** A search that never reaches its bound reads every directory of the
      tree, in pre-order. */
  lemma {:induction false} SearchReadsUnbounded(entries: seq<Entry>, dirRel: string, pattern: string,
                                               maxResults: int, acc: seq<string>)
    requires |acc| + |AllMatches(entries, dirRel, pattern)| < maxResults
    ensures SearchReads(entries, dirRel, pattern, maxResults, acc) == DirRels(Preorder(entries, dirRel))
    decreases entries
  {
    if |entries| == 0 {
      assert Filter(Preorder(entries, dirRel), IsDirVisit) == [];
    } else {
      var e := entries[0];
      var rel := ChildPath(dirRel, e.name);
      var found := if NameMatches(e.name, pattern) then acc + [rel] else acc;
      var belowMatches := if e.isDir then AllMatches(e.children, rel, pattern) else [];
      var restMatches := AllMatches(entries[1..], dirRel, pattern);
      AllMatchesStep(entries, dirRel, pattern);
      assert |found| + |belowMatches| + |restMatches| < maxResults;
      var after := if e.isDir then Search(e.children, rel, pattern, maxResults, found) else found;
      var below := if e.isDir then Preorder(e.children, rel) else [];
      var own := if e.isDir then [rel] + SearchReads(e.children, rel, pattern, maxResults, found) else [];
      if e.isDir {
        SearchTakesFirstMatches(e.children, rel, pattern, maxResults, found);
        assert after == found + belowMatches;
        SearchReadsUnbounded(e.children, rel, pattern, maxResults, found);
      } else {
        assert Filter(below, IsDirVisit) == [];
      }
      assert |after| + |restMatches| < maxResults;
      SearchReadsUnbounded(entries[1..], dirRel, pattern, maxResults, after);
      assert SearchReads(entries, dirRel, pattern, maxResults, acc)
             == own + SearchReads(entries[1..], dirRel, pattern, maxResults, after);
      assert own == (if e.isDir then [rel] else []) + DirRels(below);
      PreorderStep(entries, dirRel);
      DirRelsThreeParts(Visit(rel, e), below, Preorder(entries[1..], dirRel));
    }
  }

  /** The sequence arithmetic that closes one search step. */
  lemma SearchCombine(acc: seq<string>, own: seq<string>, below: seq<string>, rest: seq<string>,
                      after: seq<string>, maxResults: int)
    requires |acc| < maxResults && |own| <= 1
    requires after == acc + own + FirstN(below, maxResults - |acc + own|)
    ensures after + FirstN(rest, maxResults - |after|) == acc + FirstN(own + (below + rest), maxResults - |acc|)
  {
    BoundedAppend(acc, own, below, rest, maxResults);
  }

  /** One step of the search below the bound: the entry, then below it, then the rest. */
  lemma SearchStep(entries: seq<Entry>, dirRel: string, pattern: string, maxResults: int, acc: seq<string>)
    requires |acc| < maxResults && |entries| > 0
    ensures var e := entries[0];
            var rel := ChildPath(dirRel, e.name);
            var found := if NameMatches(e.name, pattern) then acc + [rel] else acc;
            var after := if e.isDir then Search(e.children, rel, pattern, maxResults, found) else found;
            Search(entries, dirRel, pattern, maxResults, acc) == Search(entries[1..], dirRel, pattern, maxResults, after)
  {
  }

  /** The arithmetic of one search step: taking from three consecutive parts, with a shrinking allowance. */
  lemma BoundedAppend(acc: seq<string>, own: seq<string>, below: seq<string>, rest: seq<string>, maxResults: int)
    requires |acc| < maxResults && |own| <= 1
    ensures var found := acc + own;
            var after := found + FirstN(below, maxResults - |found|);
            after + FirstN(rest, maxResults - |after|) == acc + FirstN(own + (below + rest), maxResults - |acc|)
  {
    var k := maxResults - |acc|;
    var found := acc + own;
    var k2 := maxResults - |found|;
    var taken := FirstN(below, k2);
    var after := found + taken;
    var more := FirstN(rest, maxResults - |after|);
    FirstNAppend(own, below + rest, k);
    assert FirstN(own, k) == own;
    FirstNAppend(below, rest, k2);
    assert FirstN(own + (below + rest), k) == own + (taken + more);
    ConcatAssoc(acc, own, taken, more);
  }

  lemma ConcatAssoc<T>(a: seq<T>, b: seq<T>, c: seq<T>, d: seq<T>)
    ensures a + b + c + d == a + (b + (c + d))
  {
  }

  function SearchText(results: seq<string>): string {
    if |results| > 0 then "Found " + NatToString(|results|) + " matches:\n" + Join(results, "\n")
    else "No files found matching the pattern"
  }

  /**
   * `search_files`: the results are the first `maxResults` matches of the
   * pre-order walk, each the relative path of an entry whose name contains the
   * pattern case-insensitively. A non-positive bound returns before reading.
   */
  function SearchFilesTool(cwd: seq<string>, directory: string, pattern: string, maxResults: int,
                           top: Result<seq<Entry>>): (r: ToolRun)
    requires Normal(cwd)
    ensures !IsPathAllowed(cwd, directory) ==> r == ToolRun([], DeniedText(directory))
    ensures IsPathAllowed(cwd, directory) ==>
              r.effects == if maxResults <= 0 then []
                           else [ReadDir(Absolute(cwd, directory))]
                                + (if top.Ok? then ReadsBelow(Absolute(cwd, directory), SearchReads(top.value, "", pattern, maxResults, []))
                                   else [])
    ensures IsPathAllowed(cwd, directory) && top.Ok? ==>
              r.text == SearchText(FirstN(Hits(Preorder(top.value, ""), pattern), maxResults))
  {
    if !IsPathAllowed(cwd, directory) then ToolRun([], DeniedText(directory))
    else if maxResults <= 0 then ToolRun([], SearchText([]))
    else
      var absolute := Absolute(cwd, directory);
      match top
      case Err(message) => ToolRun([ReadDir(absolute)], "Error searching files: " + message)
      case Ok(entries) =>
        SearchTakesFirstMatches(entries, "", pattern, maxResults, []);
        AllMatchesArePreorderHits(entries, "", pattern);
        assert Search(entries, "", pattern, maxResults, [])
               == FirstN(Hits(Preorder(entries, ""), pattern), maxResults);
        ToolRun([ReadDir(absolute)] + ReadsBelow(absolute, SearchReads(entries, "", pattern, maxResults, [])),
                SearchText(Search(entries, "", pattern, maxResults, [])))
  }

  /**
   * The answer of a search lists at most `maxResults` paths, each the relative
   * path of an entry of the tree whose name contains the pattern, ignoring case.
   */
  lemma SearchResultsAreMatches(entries: seq<Entry>, pattern: string, maxResults: int)
    ensures var found := Filter(Preorder(entries, ""), MatchesPattern(pattern));
            var results := FirstN(Hits(Preorder(entries, ""), pattern), maxResults);
            |results| <= (if maxResults > 0 then maxResults else 0) &&
            forall k :: 0 <= k < |results| ==>
              results[k] == found[k].rel && found[k] in Preorder(entries, "") &&
              NameMatches(found[k].entry.name, pattern)
  {
    var found := Filter(Preorder(entries, ""), MatchesPattern(pattern));
    var results := FirstN(Hits(Preorder(entries, ""), pattern), maxResults);
    assert forall k :: 0 <= k < |results| ==> results[k] == Rels(found)[k];
  }

  /** Every matching entry is found when the bound does not cut the search short. */
  lemma SearchFindsEveryMatch(entries: seq<Entry>, pattern: string, maxResults: int, v: Visit)
    requires v in Preorder(entries, "") && NameMatches(v.entry.name, pattern)
    requires maxResults >= |Preorder(entries, "")|
    ensures v.rel in FirstN(Hits(Preorder(entries, ""), pattern), maxResults)
  {
    var found := Filter(Preorder(entries, ""), MatchesPattern(pattern));
    assert MatchesPattern(pattern)(v);
    var k :| 0 <= k < |found| && found[k] == v;
    assert Hits(Preorder(entries, ""), pattern)[k] == v.rel;
  }

  /** A refused request answers the same whatever the file system holds. */
  lemma DeniedIgnoresFileSystem(cwd: seq<string>, p: string, content: string, createDirectories: bool,
                                recursive: bool, maxDepth: int, pattern: string, maxResults: int,
                                o1: Result<string>, o2: Result<string>,
                                m1: Option<string>, m2: Option<string>, w1: Option<string>, w2: Option<string>,
                                t1: Result<seq<Entry>>, t2: Result<seq<Entry>>)
    requires Normal(cwd) && !IsPathAllowed(cwd, p)
    ensures ReadFileTool(cwd, p, o1) == ReadFileTool(cwd, p, o2)
    ensures WriteFileTool(cwd, p, content, createDirectories, m1, w1)
            == WriteFileTool(cwd, p, content, createDirectories, m2, w2)
    ensures FileInfoTool(cwd, p, o1) == FileInfoTool(cwd, p, o2)
    ensures ListDirectoryTool(cwd, p, recursive, maxDepth, t1) == ListDirectoryTool(cwd, p, recursive, maxDepth, t2)
    ensures SearchFilesTool(cwd, p, pattern, maxResults, t1) == SearchFilesTool(cwd, p, pattern, maxResults, t2)
  {
  }
}

=== FILE: mcp_config.dfy ===
/**
 * The MCP configuration tools: the per-client configuration templates and
 * default configuration paths, the `mcpServers` merge of
 * `mcp_install_config`, the path listing of `mcp_list_config_paths` and the
 * server listing of `mcp_check_config`.
 *
 * JSON values are the parsed form: an object is the sequence of its fields in
 * property order, and object spread (`{...a, ...b}`) replaces an existing
 * property in place and appends a new one at the end. The home directory, the
 * existing configuration file (already parsed) and the outcomes of `mkdir`
 * and `writeFile` are inputs.
 */
module McpConfig {
  import opened Wrappers
  import opened Text
  import opened Seqs

  datatype Json =
    | JNull
    | JBool(b: bool)
    | JNumber(n: real)
    | JString(s: string)
    | JArray(items: seq<Json>)
    | JObject(fields: seq<Field>)

  datatype Field = Field(key: string, value: Json)

  /** JavaScript truthiness of a JSON value. */
  predicate Truthy(v: Json) {
    match v
    case JNull => false
    case JBool(b) => b
    case JNumber(n) => n != 0.0
    case JString(s) => s != ""
    case _ => true
  }

  function Keys(fields: seq<Field>): (r: seq<string>)
    ensures |r| == |fields|
    ensures forall i :: 0 <= i < |r| ==> r[i] == fields[i].key
  {
    seq(|fields|, i requires 0 <= i < |fields| => fields[i].key)
  }

  /** The value of a property: the first field with that key. */
  function Get(fields: seq<Field>, key: string): (r: Option<Json>)
    ensures r.Some? <==> key in Keys(fields)
    decreases |fields|
  {
    if |fields| == 0 then None
    else if fields[0].key == key then Some(fields[0].value)
    else
      assert Keys(fields) == [fields[0].key] + Keys(fields[1..]);
      Get(fields[1..], key)
  }

  /** Property access `v.key`; only objects carry the properties read here. */
  function Member(v: Json, key: string): Option<Json> {
    if v.JObject? then Get(v.fields, key) else None
  }

  /** Defines one property, as a property of an object literal or a spread does:
      an existing key keeps its place and takes the new value, a new key is
      appended. */
  function Put(fields: seq<Field>, key: string, value: Json): (r: seq<Field>)
    ensures Keys(r) == if key in Keys(fields) then Keys(fields) else Keys(fields) + [key]
    ensures Get(r, key) == Some(value)
    ensures forall k :: k != key ==> Get(r, k) == Get(fields, k)
    decreases |fields|
  {
    if |fields| == 0 then [Field(key, value)]
    else if fields[0].key == key then
      FieldsCons(Field(key, value), fields[1..]);
      FieldsCons(fields[0], fields[1..]);
      assert [fields[0]] + fields[1..] == fields;
      [Field(key, value)] + fields[1..]
    else
      var rest := Put(fields[1..], key, value);
      PutStep(fields[0], fields[1..], rest, key, value);
      assert [fields[0]] + fields[1..] == fields;
      [fields[0]] + rest
  }

  /** The keys and lookups of a field list with one field in front. */
  lemma FieldsCons(x: Field, rest: seq<Field>)
    ensures Keys([x] + rest) == [x.key] + Keys(rest)
    ensures forall k :: Get([x] + rest, k) == if x.key == k then Some(x.value) else Get(rest, k)
  {
    assert ([x] + rest)[1..] == rest;
  }

  /** Defining a property behind a first field with another key. */
  lemma PutStep(x: Field, tail: seq<Field>, rest: seq<Field>, key: string, value: Json)
    requires x.key != key
    requires Keys(rest) == if key in Keys(tail) then Keys(tail) else Keys(tail) + [key]
    requires Get(rest, key) == Some(value)
    requires forall k :: k != key ==> Get(rest, k) == Get(tail, k)
    ensures Keys([x] + rest) == if key in Keys([x] + tail) then Keys([x] + tail) else Keys([x] + tail) + [key]
    ensures Get([x] + rest, key) == Some(value)
    ensures forall k :: k != key ==> Get([x] + rest, k) == Get([x] + tail, k)
  {
    PutStepKeys(x, tail, rest, key);
    FieldsCons(x, rest);
    FieldsCons(x, tail);
  }

  lemma PutStepKeys(x: Field, tail: seq<Field>, rest: seq<Field>, key: string)
    requires x.key != key
    requires Keys(rest) == if key in Keys(tail) then Keys(tail) else Keys(tail) + [key]
    ensures Keys([x] + rest) == if key in Keys([x] + tail) then Keys([x] + tail) else Keys([x] + tail) + [key]
  {
    var kx := Keys([x] + rest);
    var kt := Keys([x] + tail);
    assert kx == [x.key] + Keys(rest);
    assert kt == [x.key] + Keys(tail);
    if key in Keys(tail) {
      assert key in kt;
    } else {
      assert key !in kt;
      assert kx == kt + [key];
    }
  }

  /** `{...target, ...source}`: the properties of `source` defined over those of
      `target`, left to right. */
  function Assign(target: seq<Field>, source: seq<Field>): (r: seq<Field>)
    ensures forall k :: k in Keys(r) <==> k in Keys(target) || k in Keys(source)
    ensures Keys(target) <= Keys(r)
    decreases |source|
  {
    if |source| == 0 then target
    else
      var next := Put(target, source[0].key, source[0].value);
      assert Keys(source) == [source[0].key] + Keys(source[1..]);
      Assign(next, source[1..])
  }

  /** The own enumerable properties that `...v` and `Object.keys(v)` see: an
      object's fields, a string's characters and an array's elements under
      their indices, and nothing for the other values. */
  function SpreadOf(v: Json): (r: seq<Field>)
    ensures v.JObject? ==> r == v.fields
  {
    match v
    case JObject(fields) => fields
    case JString(s) => seq(|s|, i requires 0 <= i < |s| => Field(NatToString(i), JString([s[i]])))
    case JArray(items) => seq(|items|, i requires 0 <= i < |items| => Field(NatToString(i), items[i]))
    case _ => []
  }

  predicate DistinctKeys(fields: seq<Field>) {
    NoDuplicates(Keys(fields))
  }

  /** Defining a property keeps the keys distinct. */
  lemma PutKeepsKeysDistinct(fields: seq<Field>, key: string, value: Json)
    requires DistinctKeys(fields)
    ensures DistinctKeys(Put(fields, key, value))
  {
  }

  /** After `{...target, ...source}` a key of `source` has its value from
      `source`; every other key keeps its value from `target`. */
  lemma {:induction false} AssignOverrides(target: seq<Field>, source: seq<Field>)
    requires DistinctKeys(source)
    ensures forall k :: Get(Assign(target, source), k) == if k in Keys(source) then Get(source, k) else Get(target, k)
    decreases |source|
  {
    if |source| > 0 {
      var s0 := source[0];
      var next := Put(target, s0.key, s0.value);
      var tail := source[1..];
      assert Keys(source) == [s0.key] + Keys(tail);
      NoDuplicatesCons(s0.key, Keys(tail));
      AssignOverrides(next, tail);
      forall k ensures Get(Assign(target, source), k) == if k in Keys(source) then Get(source, k) else Get(target, k) {
        if k != s0.key {
          assert Get(source, k) == Get(tail, k);
        }
      }
    }
  }

  /** `{...target, ...source}` keeps the keys distinct. */
  lemma {:induction false} AssignKeepsKeysDistinct(target: seq<Field>, source: seq<Field>)
    requires DistinctKeys(target)
    ensures DistinctKeys(Assign(target, source))
    decreases |source|
  {
    if |source| > 0 {
      PutKeepsKeysDistinct(target, source[0].key, source[0].value);
      AssignKeepsKeysDistinct(Put(target, source[0].key, source[0].value), source[1..]);
    }
  }

  // ---- templates ----

  const DefaultServerName := "new-project-bundle"

  /** The clients with a template and a configuration path of their own. */
  predicate IsNamedClient(client: string) {
    client == "claude-desktop" || client == "cursor" || client == "cline"
  }

  /** The server entry of a named client's template. */
  function ServerEntry(client: string, serverPath: string): Json {
    var launch := [Field("command", JString("node")), Field("args", JArray([JString(serverPath)]))];
    if client == "claude-desktop" then JObject(launch + [Field("env", JObject([]))])
    else if client == "cline" then JObject(launch + [Field("disabled", JBool(false))])
    else JObject(launch)
  }

  function GenericTemplate(serverPath: string, name: string): Json {
    JObject([
      Field("name", JString(name)),
      Field("version", JString("1.0.0")),
      Field("description", JString("New Project Bundle MCP Server")),
      Field("server", JObject([
        Field("command", JString("node")),
        Field("args", JArray([JString(serverPath)])),
        Field("env", JObject([Field("NODE_ENV", JString("production"))]))])),
      Field("capabilities", JObject([
        Field("tools", JBool(true)), Field("resources", JBool(false)), Field("prompts", JBool(false))]))])
  }

  /** `getConfigTemplate`, parsed: a named client registers the server under
      `mcpServers`, every other client gets the generic template, which has no
      `mcpServers`. */
  function Template(client: string, serverPath: string, serverName: Option<string>): (r: Json)
    ensures r.JObject? && DistinctKeys(r.fields)
    ensures Member(r, "mcpServers").Some? <==> IsNamedClient(client)
    ensures IsNamedClient(client) ==>
      Member(r, "mcpServers") == Some(JObject([Field(serverName.GetOr(DefaultServerName), ServerEntry(client, serverPath))]))
  {
    var name := serverName.GetOr(DefaultServerName);
    if IsNamedClient(client) then
      JObject([Field("mcpServers", JObject([Field(name, ServerEntry(client, serverPath))]))])
    else
      var g := GenericTemplate(serverPath, name);
      assert Keys(g.fields) == ["name", "version", "description", "server", "capabilities"];
      g
  }

  /** Where a template puts the server's launch entry. */
  function LaunchEntry(template: Json, serverName: string): Option<Json> {
    match Member(template, "mcpServers")
    case Some(servers) => Member(servers, serverName)
    case None => Member(template, "server")
  }

  /** Every template launches `node` with the server path as its only argument. */
  lemma TemplateRunsNode(client: string, serverPath: string, serverName: Option<string>)
    ensures var entry := LaunchEntry(Template(client, serverPath, serverName), serverName.GetOr(DefaultServerName));
      entry.Some?
      && Member(entry.value, "command") == Some(JString("node"))
      && Member(entry.value, "args") == Some(JArray([JString(serverPath)]))
  {
    var name := serverName.GetOr(DefaultServerName);
    var t := Template(client, serverPath, serverName);
    if IsNamedClient(client) {
      var e := ServerEntry(client, serverPath);
      assert Member(JObject([Field(name, e)]), name) == Some(e);
      assert e.fields[0] == Field("command", JString("node"));
      assert e.fields[1] == Field("args", JArray([JString(serverPath)]));
      assert Get(e.fields[1..], "args") == Some(JArray([JString(serverPath)]));
    } else {
      var server := t.fields[3].value;
      assert Get(t.fields[3..], "server") == Some(server);
      assert Get(t.fields[2..], "server") == Some(server) by { assert t.fields[2..][1..] == t.fields[3..]; }
      assert Get(t.fields[1..], "server") == Some(server) by { assert t.fields[1..][1..] == t.fields[2..]; }
      assert Member(t, "server") == Some(server);
      assert Get(server.fields[1..], "args") == Some(JArray([JString(serverPath)]));
    }
  }

  /** A client without a template of its own gets the generic one. */
  lemma UnknownClientIsGeneric(client: string, serverPath: string, serverName: Option<string>)
    requires !IsNamedClient(client)
    ensures Template(client, serverPath, serverName) == Template("generic", serverPath, serverName)
    ensures Member(Template(client, serverPath, serverName), "name") == Some(JString(serverName.GetOr(DefaultServerName)))
  {
    assert Template(client, serverPath, serverName).fields[0] == Field("name", JString(serverName.GetOr(DefaultServerName)));
  }

  /** Leaving out the server name registers the server as `new-project-bundle`. */
  lemma ServerNameDefault(client: string, serverPath: string)
    requires IsNamedClient(client)
    ensures Member(Template(client, serverPath, None), "mcpServers").value
      == JObject([Field("new-project-bundle", ServerEntry(client, serverPath))])
  {
  }

  // ---- configuration paths ----

  /** The location of a client's configuration file below the home directory. */
  function PathSuffix(client: string): string {
    if client == "claude-desktop" then ".config/claude/claude_desktop_config.json"
    else if client == "cursor" then ".cursor/mcp.json"
    else if client == "cline" then ".cline/mcp_settings.json"
    else ".mcp/config.json"
  }

  /** `getDefaultConfigPath`: `path.join` of the home directory and the
      client's location, for a home directory without a trailing separator. */
  function DefaultConfigPath(home: string, client: string): (r: string)
    ensures home + "/" <= r && |r| > |home| + 1 && r[|home| + 1] == '.'
    ensures !IsNamedClient(client) ==> r == home + "/" + ".mcp/config.json"
  {
    var suffix := PathSuffix(client);
    assert |suffix| > 1 && suffix[0] == '.';
    home + "/" + suffix
  }

  /** Paths that differ at one position after the home directory differ. */
  lemma DifferAfterHome(home: string, a: string, b: string, i: nat)
    requires i < |a| && i < |b| && a[i] != b[i]
    ensures home + "/" + a != home + "/" + b
  {
    var p := home + "/";
    assert (p + a)[|p| + i] == a[i];
    assert (p + b)[|p| + i] == b[i];
  }

  /** `generic` and every unknown client share the fallback path. */
  lemma FallbackPath(home: string, client: string)
    requires !IsNamedClient(client)
    ensures DefaultConfigPath(home, client) == DefaultConfigPath(home, "generic") == home + "/.mcp/config.json"
  {
    assert PathSuffix(client) == PathSuffix("generic") == ".mcp/config.json";
    assert home + "/" + ".mcp/config.json" == home + ("/" + ".mcp/config.json");
  }

  /** The three named clients and the fallback have four different paths. */
  lemma NamedPathsDistinct(home: string, a: string, b: string)
    requires IsNamedClient(a) || a == "generic"
    requires IsNamedClient(b) || b == "generic"
    requires a != b
    ensures DefaultConfigPath(home, a) != DefaultConfigPath(home, b)
  {
    var x := PathSuffix(a);
    var y := PathSuffix(b);
    SuffixLetters(a);
    SuffixLetters(b);
    if a == "generic" || b == "generic" {
      DifferAfterHome(home, x, y, 1);
    } else {
      DifferAfterHome(home, x, y, 2);
    }
  }

  /** The letters right after the leading dot tell the locations apart. */
  lemma SuffixLetters(client: string)
    ensures |PathSuffix(client)| > 2
    ensures client == "claude-desktop" ==> PathSuffix(client)[1] == 'c' && PathSuffix(client)[2] == 'o'
    ensures client == "cursor" ==> PathSuffix(client)[1] == 'c' && PathSuffix(client)[2] == 'u'
    ensures client == "cline" ==> PathSuffix(client)[1] == 'c' && PathSuffix(client)[2] == 'l'
    ensures !IsNamedClient(client) ==> PathSuffix(client)[1] == 'm'
  {
  }

  const ListedClients: seq<string> := ["claude-desktop", "cursor", "cline", "generic"]

  function PathLine(home: string, client: string): string {
    "- **" + client + "**: `" + DefaultConfigPath(home, client) + "`"
  }

  /** The listing lines of `mcp_list_config_paths`, one per client in a fixed order. */
  function PathLines(home: string): (r: seq<string>)
    ensures |r| == |ListedClients|
    ensures forall i :: 0 <= i < |r| ==> r[i] == PathLine(home, ListedClients[i])
  {
    seq(|ListedClients|, i requires 0 <= i < |ListedClients| => PathLine(home, ListedClients[i]))
  }

  const PathsHeading: string := "# MCP Configuration Paths\n\n"

  const PathsNotes: string :=
    "\n\n## Notes\n- Claude Desktop: macOS/Linux configuration\n- Cursor: IDE-specific MCP configuration"
    + "\n- Cline: VS Code extension configuration\n- Generic: Fallback for other MCP clients"

  /** `mcp_list_config_paths`: the heading, the path lines, the notes. */
  function ListConfigPathsTool(home: string): (r: string)
    ensures PathsHeading <= r
    ensures forall k :: 0 <= k < |ListedClients| ==> Contains(r, PathLine(home, ListedClients[k]))
    ensures InOrder(r, PathLines(home))
  {
    ListsEveryLine(home);
    JoinInOrder(PathLines(home), "\n");
    InOrderInMiddle(PathsHeading, Join(PathLines(home), "\n"), PathsNotes, PathLines(home));
    PathsHeading + Join(PathLines(home), "\n") + PathsNotes
  }

  lemma ListsEveryLine(home: string)
    ensures forall k :: 0 <= k < |ListedClients| ==>
              Contains(PathsHeading + Join(PathLines(home), "\n") + PathsNotes, PathLine(home, ListedClients[k]))
  {
    var lines := PathLines(home);
    forall k | 0 <= k < |ListedClients|
      ensures Contains(PathsHeading + Join(lines, "\n") + PathsNotes, PathLine(home, ListedClients[k]))
    {
      JoinHasPart(lines, "\n", k);
      ContainsInMiddle(PathsHeading, Join(lines, "\n"), PathsNotes, lines[k]);
    }
  }

  /** The listing names the default path of each of the four clients. */
  lemma ListedPathsAreDefaults(home: string, k: nat)
    requires k < |ListedClients|
    ensures Contains(ListConfigPathsTool(home), DefaultConfigPath(home, ListedClients[k]))
  {
    var c := ListedClients[k];
    var p := DefaultConfigPath(home, c);
    ContainsSelf(p);
    ContainsInMiddle("- **" + c + "**: `", p, "`", p);
    ContainsTransitive(ListConfigPathsTool(home), PathLine(home, c), p);
  }

  // ---- mcp_install_config ----

  /** The existing configuration is merged only when merging was asked for, the
      file was read and parsed, and both configurations have a truthy `mcpServers`. */
  predicate MergeApplies(newConfig: Json, merge: bool, existing: Result<Json>) {
    merge && existing.Ok? && existing.value.JObject?
    && Member(existing.value, "mcpServers").Some? && Truthy(Member(existing.value, "mcpServers").value)
    && Member(newConfig, "mcpServers").Some? && Truthy(Member(newConfig, "mcpServers").value)
  }

  /** The configuration `mcp_install_config` writes. `existing` is the parsed
      existing file, or the error from reading or parsing it. */
  function FinalConfig(newConfig: Json, merge: bool, existing: Result<Json>): (r: Json)
    ensures !MergeApplies(newConfig, merge, existing) ==> r == newConfig
    ensures MergeApplies(newConfig, merge, existing) ==>
      r.JObject? && Keys(r.fields) == Keys(existing.value.fields)
      && (forall k :: k != "mcpServers" ==> Get(r.fields, k) == Get(existing.value.fields, k))
      && Member(r, "mcpServers") == Some(JObject(Assign(
        SpreadOf(Member(existing.value, "mcpServers").value), SpreadOf(Member(newConfig, "mcpServers").value))))
  {
    if MergeApplies(newConfig, merge, existing) then
      var prior := existing.value;
      var servers := Assign(SpreadOf(Member(prior, "mcpServers").value), SpreadOf(Member(newConfig, "mcpServers").value));
      JObject(Put(prior.fields, "mcpServers", JObject(servers)))
    else newConfig
  }

  /** The merged `mcpServers`: a server the new configuration defines takes its
      new entry, every other existing server is kept as it was, and the other
      top-level fields of the existing configuration survive. */
  lemma MergeOverrides(newConfig: Json, existing: Json, k: string)
    requires MergeApplies(newConfig, true, Ok(existing))
    requires DistinctKeys(SpreadOf(Member(newConfig, "mcpServers").value))
    ensures var servers := Member(FinalConfig(newConfig, true, Ok(existing)), "mcpServers").value;
      var newer := SpreadOf(Member(newConfig, "mcpServers").value);
      var older := SpreadOf(Member(existing, "mcpServers").value);
      Member(servers, k) == if k in Keys(newer) then Get(newer, k) else Get(older, k)
  {
    AssignOverrides(SpreadOf(Member(existing, "mcpServers").value), SpreadOf(Member(newConfig, "mcpServers").value));
  }

  /** Installing over an existing configuration of a named client: the installed
      server gets the template's entry and every other registered server is kept. */
  lemma InstallKeepsOtherServers(client: string, serverPath: string, name: string, existing: Json, other: string)
    requires IsNamedClient(client)
    requires existing.JObject? && Member(existing, "mcpServers").Some?
    requires Member(existing, "mcpServers").value.JObject?
    requires other != name
    ensures var servers := Member(FinalConfig(Template(client, serverPath, Some(name)), true, Ok(existing)), "mcpServers").value;
      Member(servers, name) == Some(ServerEntry(client, serverPath))
      && Member(servers, other) == Member(Member(existing, "mcpServers").value, other)
  {
    var newConfig := Template(client, serverPath, Some(name));
    MergeOverrides(newConfig, existing, name);
    MergeOverrides(newConfig, existing, other);
  }

  /** The generic template has no `mcpServers`, so asking to merge writes the
      template unchanged whatever the existing file holds. */
  lemma GenericNeverMerges(serverPath: string, serverName: Option<string>, existing: Result<Json>)
    ensures FinalConfig(Template("generic", serverPath, serverName), true, existing)
      == Template("generic", serverPath, serverName)
  {
  }

  /** The outcome of `mcp_install_config`: the configuration written, if any, and the reply. */
  datatype Install = Install(written: Option<Json>, text: string)

  function InstalledText(client: string, path: string, name: string, merge: bool): string {
    "✅ MCP configuration installed successfully!\n\n**Client:** " + client + "\n**Config Path:** " + path
    + "\n**Server Name:** " + name + "\n**Action:** " + (if merge then "Merged" else "Created")
    + "\n\n**Next Steps:**\n1. Restart " + client + "\n2. Verify the MCP server appears in available tools\n3. Test the connection"
  }

  const InstallErrorPrefix := "❌ Error installing MCP configuration: "

  /** `mcp_install_config`. `mkdirError` and `writeError` are the failures of
      creating the directory and writing the file; the reply reports the merge
      that was asked for, not the one that happened. */
  function InstallConfigTool(client: string, serverPath: string, serverName: Option<string>, merge: Option<bool>,
                             home: string, mkdirError: Option<string>, existing: Result<Json>,
                             writeError: Option<string>): (r: Install)
    ensures mkdirError.Some? ==> r == Install(None, InstallErrorPrefix + mkdirError.value)
    ensures mkdirError.None? && writeError.Some? ==> r == Install(None, InstallErrorPrefix + writeError.value)
    ensures mkdirError.None? && writeError.None? ==>
      r.written == Some(FinalConfig(Template(client, serverPath, serverName), merge.GetOr(false), existing))
      && r.text == InstalledText(client, DefaultConfigPath(home, client), serverName.GetOr(DefaultServerName), merge.GetOr(false))
  {
    var name := serverName.GetOr(DefaultServerName);
    var newConfig := Template(client, serverPath, Some(name));
    if mkdirError.Some? then Install(None, InstallErrorPrefix + mkdirError.value)
    else
      var final := FinalConfig(newConfig, merge.GetOr(false), existing);
      if writeError.Some? then Install(None, InstallErrorPrefix + writeError.value)
      else Install(Some(final), InstalledText(client, DefaultConfigPath(home, client), name, merge.GetOr(false)))
  }

  /** For the generic client the reply says "Merged" although the template is
      written unchanged. */
  lemma GenericMergeReportedButNotDone(serverPath: string, home: string, existing: Result<Json>)
    ensures var r := InstallConfigTool("generic", serverPath, None, Some(true), home, None, existing, None);
      r.written == Some(Template("generic", serverPath, None))
      && r.text == InstalledText("generic", DefaultConfigPath(home, "generic"), DefaultServerName, true)
  {
    GenericNeverMerges(serverPath, None, existing);
  }

  // ---- mcp_check_config ----

  /** `Object.keys(v)`. */
  function ObjectKeys(v: Json): seq<string> {
    Keys(SpreadOf(v))
  }

  function ServerLines(names: seq<string>): (r: seq<string>)
    ensures |r| == |names|
  {
    seq(|names|, i requires 0 <= i < |names| => "- " + names[i])
  }

  /** The "Registered MCP Servers" section: a line per key of a truthy
      `mcpServers`, otherwise "None". */
  function ServerListing(config: Json): (r: string)
    ensures (Member(config, "mcpServers").None? || !Truthy(Member(config, "mcpServers").value)) ==> r == "None"
  {
    match Member(config, "mcpServers")
    case Some(servers) =>
      if Truthy(servers) then Join(ServerLines(ObjectKeys(servers)), "\n") else "None"
    case None => "None"
  }

  /** Every registered server is named in the listing. */
  lemma ListingNamesEveryServer(config: Json, k: nat)
    requires Member(config, "mcpServers").Some? && Truthy(Member(config, "mcpServers").value)
    requires k < |ObjectKeys(Member(config, "mcpServers").value)|
    ensures Contains(ServerListing(config), "- " + ObjectKeys(Member(config, "mcpServers").value)[k])
  {
    var names := ObjectKeys(Member(config, "mcpServers").value);
    JoinHasPart(ServerLines(names), "\n", k);
  }

  /** An empty `mcpServers` object is truthy: it lists no server, and the
      section is empty instead of "None". */
  lemma EmptyServersListNothing(config: Json)
    requires Member(config, "mcpServers") == Some(JObject([]))
    ensures ServerListing(config) == ""
  {
  }

  function NotFoundText(client: string, path: string): string {
    "# MCP Configuration for " + client + "\n\n**Path:** `" + path + "`\n**Status:** ❌ Not found\n\n"
    + "Use `mcp_generate_config` or `mcp_install_config` to create a configuration."
  }

  /** `mcp_check_config`. `read` is the parsed configuration file, or the error
      from reading or parsing it; `stringify` is `JSON.stringify(_, null, 2)`.
      Reading `mcpServers` of a parsed `null` throws, so it is reported as not found. */
  function CheckConfigTool(client: string, home: string, read: Result<Json>, stringify: Json -> string): (r: string)
    ensures read.Err? || read == Ok(JNull) ==> r == NotFoundText(client, DefaultConfigPath(home, client))
    ensures read.Ok? && read.value != JNull ==>
      |ServerListing(read.value)| <= |r| && r[|r| - |ServerListing(read.value)|..] == ServerListing(read.value)
  {
    var path := DefaultConfigPath(home, client);
    if read.Err? || read.value.JNull? then NotFoundText(client, path)
    else
      var listing := ServerListing(read.value);
      var t := "# Current MCP Configuration for " + client + "\n\n**Path:** `" + path + "`\n**Status:** ✅ Exists\n\n"
        + "## Configuration\n```json\n" + stringify(read.value) + "\n```\n\n## Registered MCP Servers\n" + listing;
      assert t[|t| - |listing|..] == listing;
      t
  }
}

=== FILE: memory_tools.dfy ===
/**
 * The memory tools: a process-wide `Map<string, MemoryEntry>` behind eight
 * handlers. The map is an insertion-ordered list of items with distinct keys:
 * setting an existing key replaces its entry in place, setting a new key
 * appends it, and deleting removes it. Every handler is a transition from one
 * store to the next plus the text it answers with. The clock is a parameter
 * (`now`, in milliseconds) and `toISOString` is a given rendering function.
 */
module MemoryTools {
  import opened Wrappers
  import opened Text
  import opened Seqs

  datatype MemoryEntry = MemoryEntry(value: string, createdAt: nat, updatedAt: nat, tags: seq<string>)

  datatype Item = Item(key: string, entry: MemoryEntry)

  /** The contents of the map, in insertion order. */
  datatype Store = Store(items: seq<Item>)

  /** A reply: the store after the call and the text of the response. */
  datatype Reply = Reply(store: Store, text: string)

  function Keys(items: seq<Item>): (r: seq<string>)
    ensures |r| == |items|
    ensures forall i :: 0 <= i < |r| ==> r[i] == items[i].key
    decreases |items|
  {
    if |items| == 0 then [] else [items[0].key] + Keys(items[1..])
  }

  /** A `Map` never holds a key twice. */
  predicate Valid(s: Store) {
    NoDuplicates(Keys(s.items))
  }

  /** `memory.get(key)`. */
  function Find(items: seq<Item>, key: string): (r: Option<MemoryEntry>)
    ensures r.None? <==> key !in Keys(items)
    ensures r.Some? ==> Item(key, r.value) in items
    decreases |items|
  {
    if |items| == 0 then None
    else if items[0].key == key then Some(items[0].entry)
    else Find(items[1..], key)
  }

  lemma Cons(x: Item, rest: seq<Item>)
    ensures Keys([x] + rest) == [x.key] + Keys(rest)
    ensures forall k :: Find([x] + rest, k) == if x.key == k then Some(x.entry) else Find(rest, k)
  {
    assert ([x] + rest)[1..] == rest;
  }

  /** `memory.set(key, entry)`: replace in place, or append a new key. */
  function Put(items: seq<Item>, key: string, entry: MemoryEntry): (r: seq<Item>)
    ensures Keys(r) == if key in Keys(items) then Keys(items) else Keys(items) + [key]
    ensures Find(r, key) == Some(entry)
    ensures forall k :: k != key ==> Find(r, k) == Find(items, k)
    decreases |items|
  {
    if |items| == 0 then [Item(key, entry)]
    else if items[0].key == key then
      PutHere(items[0], items[1..], key, entry);
      assert [items[0]] + items[1..] == items;
      [Item(key, entry)] + items[1..]
    else
      var rest := Put(items[1..], key, entry);
      PutStep(items[0], items[1..], rest, key, entry);
      assert [items[0]] + items[1..] == items;
      [items[0]] + rest
  }

  /** Replacing the first item by one with the same key. */
  lemma PutHere(x: Item, tail: seq<Item>, key: string, entry: MemoryEntry)
    requires x.key == key
    ensures Keys([Item(key, entry)] + tail) == Keys([x] + tail)
    ensures Find([Item(key, entry)] + tail, key) == Some(entry)
    ensures forall k :: k != key ==> Find([Item(key, entry)] + tail, k) == Find([x] + tail, k)
  {
    Cons(Item(key, entry), tail);
    Cons(x, tail);
  }

  /** Putting behind a first item with another key. */
  lemma PutStep(x: Item, tail: seq<Item>, rest: seq<Item>, key: string, entry: MemoryEntry)
    requires x.key != key
    requires Keys(rest) == if key in Keys(tail) then Keys(tail) else Keys(tail) + [key]
    requires Find(rest, key) == Some(entry)
    requires forall k :: k != key ==> Find(rest, k) == Find(tail, k)
    ensures Keys([x] + rest) == if key in Keys([x] + tail) then Keys([x] + tail) else Keys([x] + tail) + [key]
    ensures Find([x] + rest, key) == Some(entry)
    ensures forall k :: k != key ==> Find([x] + rest, k) == Find([x] + tail, k)
  {
    PutStepKeys(x, tail, rest, key);
    Cons(x, rest);
    Cons(x, tail);
  }

  lemma PutStepKeys(x: Item, tail: seq<Item>, rest: seq<Item>, key: string)
    requires x.key != key
    requires Keys(rest) == if key in Keys(tail) then Keys(tail) else Keys(tail) + [key]
    ensures Keys([x] + rest) == if key in Keys([x] + tail) then Keys([x] + tail) else Keys([x] + tail) + [key]
  {
    var kx := Keys([x] + rest);
    var kt := Keys([x] + tail);
    assert kx == [x.key] + Keys(rest) by { assert ([x] + rest)[1..] == rest; }
    assert kt == [x.key] + Keys(tail) by { assert ([x] + tail)[1..] == tail; }
    if key in Keys(tail) {
      assert key in kt;
    } else {
      assert key !in kt;
      assert kx == kt + [key];
    }
  }

  /** `memory.delete(key)` (the map holds the key at most once). */
  function Remove(items: seq<Item>, key: string): (r: seq<Item>)
    ensures key !in Keys(r)
    ensures forall k :: k != key ==> Find(r, k) == Find(items, k)
    ensures forall i :: 0 <= i < |r| ==> r[i] in items
    ensures key !in Keys(items) ==> r == items
    decreases |items|
  {
    if |items| == 0 then []
    else if items[0].key == key then Remove(items[1..], key)
    else
      var rest := Remove(items[1..], key);
      Cons(items[0], rest);
      Cons(items[0], items[1..]);
      assert [items[0]] + items[1..] == items;
      [items[0]] + rest
  }

  lemma {:induction false} PutKeepsKeysDistinct(items: seq<Item>, key: string, entry: MemoryEntry)
    requires NoDuplicates(Keys(items))
    ensures NoDuplicates(Keys(Put(items, key, entry)))
  {
    var ks := Keys(items);
    if key !in ks {
      forall i | 0 <= i < |ks| ensures (ks + [key])[i] != key {
        assert ks[i] in ks;
      }
    }
  }

  lemma RemoveAddsNoKey(items: seq<Item>, key: string, k: string)
    requires k !in Keys(items)
    ensures k !in Keys(Remove(items, key))
  {
    var r := Remove(items, key);
    forall i | 0 <= i < |r| ensures r[i].key != k {
      var j :| 0 <= j < |items| && items[j] == r[i];
      assert Keys(items)[j] == r[i].key;
    }
  }

  lemma {:induction false} RemoveKeepsKeysDistinct(items: seq<Item>, key: string)
    requires NoDuplicates(Keys(items))
    ensures NoDuplicates(Keys(Remove(items, key)))
    decreases |items|
  {
    if |items| > 0 {
      var k0 := items[0].key;
      Cons(items[0], items[1..]);
      assert [items[0]] + items[1..] == items;
      NoDuplicatesCons(k0, Keys(items[1..]));
      RemoveKeepsKeysDistinct(items[1..], key);
      if k0 != key {
        var rest := Remove(items[1..], key);
        Cons(items[0], rest);
        RemoveAddsNoKey(items[1..], key, k0);
        NoDuplicatesCons(k0, Keys(rest));
      }
    }
  }

  /** Deleting a present key shortens the map by one entry. */
  lemma {:induction false} RemoveLength(items: seq<Item>, key: string)
    requires NoDuplicates(Keys(items))
    ensures |Remove(items, key)| == if key in Keys(items) then |items| - 1 else |items|
    decreases |items|
  {
    if |items| > 0 {
      Cons(items[0], items[1..]);
      assert [items[0]] + items[1..] == items;
      NoDuplicatesCons(items[0].key, Keys(items[1..]));
      RemoveLength(items[1..], key);
    }
  }

  // ---- Handlers ----

  function TagsSuffix(tags: seq<string>): string {
    if |tags| > 0 then " (tags: " + Join(tags, ", ") + ")" else ""
  }

  /**
   * `memory_set`: store the value with the given tags; `createdAt` survives an
   * overwrite, `updatedAt` is the current time.
   */
  function SetTool(s: Store, key: string, value: string, tags: seq<string>, now: nat): (r: Reply)
    ensures Find(r.store.items, key) ==
              Some(MemoryEntry(value, if Find(s.items, key).Some? then Find(s.items, key).value.createdAt else now, now, tags))
    ensures forall k :: k != key ==> Find(r.store.items, k) == Find(s.items, k)
    ensures Keys(r.store.items) == if key in Keys(s.items) then Keys(s.items) else Keys(s.items) + [key]
  {
    var existing := Find(s.items, key);
    var createdAt := if existing.Some? then existing.value.createdAt else now;
    Reply(Store(Put(s.items, key, MemoryEntry(value, createdAt, now, tags))),
          "Stored value with key '" + key + "'" + TagsSuffix(tags))
  }

  /** Setting the same key twice leaves one entry, holding the second value and the first creation time. */
  lemma SetTwice(s: Store, key: string, v1: string, t1: seq<string>, n1: nat, v2: string, t2: seq<string>, n2: nat)
    requires Valid(s)
    ensures var once := SetTool(s, key, v1, t1, n1).store;
            var twice := SetTool(once, key, v2, t2, n2).store;
            Valid(twice) && Keys(twice.items) == Keys(once.items) &&
            Find(twice.items, key).value.value == v2 &&
            Find(twice.items, key).value.createdAt == Find(once.items, key).value.createdAt
  {
    var existing := Find(s.items, key);
    var createdAt := if existing.Some? then existing.value.createdAt else n1;
    PutKeepsKeysDistinct(s.items, key, MemoryEntry(v1, createdAt, n1, t1));
    var once := SetTool(s, key, v1, t1, n1).store;
    var e2 := MemoryEntry(v2, Find(once.items, key).value.createdAt, n2, t2);
    PutKeepsKeysDistinct(once.items, key, e2);
  }

  /** `memory_get`: the entry's fields, with `toISOString` given as `iso`. */
  function GetTool(s: Store, key: string, iso: nat -> string): (r: string)
    ensures Find(s.items, key).None? ==> r == "No entry found for key '" + key + "'"
    ensures Find(s.items, key).Some? ==> ("Key: " + key + "\nValue: " + Find(s.items, key).value.value) <= r
  {
    match Find(s.items, key)
    case None => "No entry found for key '" + key + "'"
    case Some(e) =>
      var tagText := if |e.tags| > 0 then Join(e.tags, ", ") else "(none)";
      "Key: " + key + "\nValue: " + e.value + "\nTags: " + tagText +
      "\nCreated: " + iso(e.createdAt) + "\nUpdated: " + iso(e.updatedAt)
  }

  /** `memory_delete`: reports whether the key was present; afterwards it is gone and nothing else changed. */
  function DeleteTool(s: Store, key: string): (r: Reply)
    ensures r.text == (if key in Keys(s.items) then "Deleted entry with key '" + key + "'"
                       else "No entry found for key '" + key + "'")
    ensures Find(r.store.items, key).None?
    ensures forall k :: k != key ==> Find(r.store.items, k) == Find(s.items, k)
    ensures key !in Keys(s.items) ==> r.store == s
  {
    var deleted := key in Keys(s.items);
    Reply(Store(Remove(s.items, key)),
          if deleted then "Deleted entry with key '" + key + "'" else "No entry found for key '" + key + "'")
  }

  /** An entry carries `tag` among its tags. */
  function HasTag(tag: string): Item -> bool {
    (it: Item) => tag in it.entry.tags
  }

  /** `if (tag)`: an absent or empty tag does not filter. */
  predicate Truthy(tag: Option<string>) {
    tag.Some? && tag.value != ""
  }

  /** The entries `memory_list` shows: insertion order, optional tag filter, then `slice(0, limit)`. */
  function Listed(s: Store, tag: Option<string>, limit: int): (r: seq<Item>)
    ensures forall i :: 0 <= i < |r| ==> r[i] in s.items
    ensures Truthy(tag) ==> forall i :: 0 <= i < |r| ==> tag.value in r[i].entry.tags
    ensures limit >= 0 ==> |r| <= limit
    ensures !Truthy(tag) && limit >= |s.items| ==> r == s.items
  {
    var entries := if Truthy(tag) then Filter(s.items, HasTag(tag.value)) else s.items;
    var r := Take(entries, limit);
    assert forall i :: 0 <= i < |r| ==> r[i] == entries[i];
    r
  }

  /** Every tagged entry is listed when the limit does not cut the list short. */
  lemma ListedComplete(s: Store, tag: string, limit: int, it: Item)
    requires tag != "" && it in s.items && tag in it.entry.tags && limit >= |s.items|
    ensures it in Listed(s, Some(tag), limit)
  {
    assert HasTag(tag)(it);
  }

  function ListLine(it: Item): string {
    "- " + it.key + (if |it.entry.tags| > 0 then " [" + Join(it.entry.tags, ", ") + "]" else "")
  }

  function ListLines(items: seq<Item>): (r: seq<string>)
    ensures |r| == |items|
    ensures forall i :: 0 <= i < |r| ==> r[i] == ListLine(items[i])
  {
    seq(|items|, i requires 0 <= i < |items| => ListLine(items[i]))
  }

  /** `memory_list`: read-only; says so when nothing is listed. */
  function ListTool(s: Store, tag: Option<string>, limit: int): (r: string)
    ensures Listed(s, tag, limit) == [] && Truthy(tag) ==> r == "No entries found with tag '" + tag.value + "'"
    ensures Listed(s, tag, limit) == [] && !Truthy(tag) ==> r == "Memory is empty"
    ensures Listed(s, tag, limit) != [] ==>
              ("Memory entries (" + NatToString(|Listed(s, tag, limit)|) + "):\n") <= r
    ensures Listed(s, tag, limit) != [] ==> InOrder(r, ListLines(Listed(s, tag, limit)))
  {
    var entries := Listed(s, tag, limit);
    if |entries| == 0 then
      if Truthy(tag) then "No entries found with tag '" + tag.value + "'" else "Memory is empty"
    else
      var header := "Memory entries (" + NatToString(|entries|) + "):\n";
      var body := Join(ListLines(entries), "\n");
      assert header <= header + body;
      JoinInOrder(ListLines(entries), "\n");
      InOrderAfter(header, body, ListLines(entries));
      header + body
  }

  /** Every listed entry has its line in the `memory_list` answer. */
  lemma ListShowsEntry(s: Store, tag: Option<string>, limit: int, k: nat)
    requires k < |Listed(s, tag, limit)|
    ensures Contains(ListTool(s, tag, limit), ListLine(Listed(s, tag, limit)[k]))
  {
    InOrderHasPart(ListTool(s, tag, limit), ListLines(Listed(s, tag, limit)), 0, k);
  }

  /** Key, value or some tag contains the query, ignoring case. */
  function MatchesQuery(query: string): Item -> bool {
    (it: Item) =>
      ContainsIgnoreCase(it.key, query) || ContainsIgnoreCase(it.entry.value, query) ||
      (exists t :: t in it.entry.tags && ContainsIgnoreCase(t, query))
  }

  /** The entries `memory_search` returns. */
  function Found(s: Store, query: string, limit: int): (r: seq<Item>)
    ensures forall i :: 0 <= i < |r| ==> r[i] in s.items && MatchesQuery(query)(r[i])
    ensures limit >= 0 ==> |r| <= limit
    ensures limit >= |s.items| ==> forall it :: it in s.items && MatchesQuery(query)(it) ==> it in r
  {
    var matching := Filter(s.items, MatchesQuery(query));
    var r := Take(matching, limit);
    assert forall i :: 0 <= i < |r| ==> r[i] == matching[i];
    r
  }

  /** The value shown in a search result: at most 100 characters, then `...`. */
  function Preview(value: string): (r: string)
    ensures |value| <= 100 ==> r == value
    ensures |value| > 100 ==> |r| == 103 && value[..100] <= r
  {
    if |value| > 100 then value[..100] + "..." else value
  }

  function SearchBlock(it: Item): string {
    var tagText := Join(it.entry.tags, ", ");
    "Key: " + it.key + "\nValue: " + Preview(it.entry.value) + "\nTags: " +
    (if tagText != "" then tagText else "(none)") + "\n"
  }

  function SearchBlocks(items: seq<Item>): (r: seq<string>)
    ensures |r| == |items|
    ensures forall i :: 0 <= i < |r| ==> r[i] == SearchBlock(items[i])
  {
    seq(|items|, i requires 0 <= i < |items| => SearchBlock(items[i]))
  }

  /** `memory_search`: read-only. */
  function SearchTool(s: Store, query: string, limit: int): (r: string)
    ensures Found(s, query, limit) == [] ==> r == "No entries found matching '" + query + "'"
    ensures Found(s, query, limit) != [] ==>
              ("Found " + NatToString(|Found(s, query, limit)|) + " matches:\n\n") <= r
    ensures Found(s, query, limit) != [] ==> InOrder(r, SearchBlocks(Found(s, query, limit)))
  {
    var results := Found(s, query, limit);
    if |results| == 0 then "No entries found matching '" + query + "'"
    else
      var header := "Found " + NatToString(|results|) + " matches:\n\n";
      var body := Join(SearchBlocks(results), "\n---\n");
      assert header <= header + body;
      JoinInOrder(SearchBlocks(results), "\n---\n");
      InOrderAfter(header, body, SearchBlocks(results));
      header + body
  }

  /** Every entry found has its block in the `memory_search` answer. */
  lemma SearchShowsEntry(s: Store, query: string, limit: int, k: nat)
    requires k < |Found(s, query, limit)|
    ensures Contains(SearchTool(s, query, limit), SearchBlock(Found(s, query, limit)[k]))
  {
    InOrderHasPart(SearchTool(s, query, limit), SearchBlocks(Found(s, query, limit)), 0, k);
  }

  /** `memory_clear`: only a confirmed clear empties the store, reporting the old size. */
  function ClearTool(s: Store, confirmClear: bool): (r: Reply)
    ensures !confirmClear ==> r.store == s
    ensures confirmClear ==>
              (r.store.items == [] && r.text == "Cleared " + NatToString(|s.items|) + " entries from memory")
  {
    if !confirmClear then
      Reply(s, "Clear operation cancelled. Set confirmClear to true to clear all memory.")
    else
      Reply(Store([]), "Cleared " + NatToString(|s.items|) + " entries from memory")
  }

  /**
   * `memory_append`: a missing key changes nothing; otherwise the value grows by
   * the separator and the new text, keeping tags, creation time and position.
   */
  function AppendTool(s: Store, key: string, value: string, separator: string, now: nat): (r: Reply)
    ensures Find(s.items, key).None? ==> r.store == s
    ensures Find(s.items, key).Some? ==>
              var prev := Find(s.items, key).value;
              Find(r.store.items, key) == Some(MemoryEntry(prev.value + separator + value, prev.createdAt, now, prev.tags))
    ensures forall k :: k != key ==> Find(r.store.items, k) == Find(s.items, k)
    ensures Keys(r.store.items) == Keys(s.items)
  {
    match Find(s.items, key)
    case None => Reply(s, "No entry found for key '" + key + "'. Use memory_set to create a new entry.")
    case Some(existing) =>
      var updated := existing.(value := existing.value + separator + value, updatedAt := now);
      Reply(Store(Put(s.items, key, updated)), "Appended content to key '" + key + "'")
  }

  // ---- Statistics ----

  /** Total length of the stored values. */
  function TotalSize(items: seq<Item>): nat
    decreases |items|
  {
    if |items| == 0 then 0 else |items[0].entry.value| + TotalSize(items[1..])
  }

  /** All tags, entry by entry: `entries.flatMap(e => e.tags)`. */
  function AllTags(items: seq<Item>): (r: seq<string>)
    ensures forall t :: t in r <==> exists i :: 0 <= i < |items| && t in items[i].entry.tags
    decreases |items|
  {
    if |items| == 0 then []
    else
      var rest := AllTags(items[1..]);
      assert forall i :: 1 <= i < |items| ==> items[i] == items[1..][i - 1];
      items[0].entry.tags + rest
  }

  /** `memory_stats`: the entry count, the total value size, the number of
      distinct tags over all entries, then the tags or `(none)`. */
  function StatsTool(s: Store): (r: string)
    ensures "Memory Statistics:\n- Total Entries: " + NatToString(|s.items|)
            + "\n- Total Size: " + NatToString(TotalSize(s.items)) + " characters"
            + "\n- Unique Tags: " + NatToString(|set t | t in AllTags(s.items)|) + "\n- Tags: " <= r
    ensures (forall i :: 0 <= i < |s.items| ==> s.items[i].entry.tags == []) ==>
              |r| >= 6 && r[|r| - 6..] == "(none)"
  {
    var unique := Dedup(AllTags(s.items));
    UniqueTagCount(s);
    var tagText := Join(unique, ", ");
    var head := "Memory Statistics:\n- Total Entries: " + NatToString(|s.items|) +
      "\n- Total Size: " + NatToString(TotalSize(s.items)) + " characters" +
      "\n- Unique Tags: " + NatToString(|unique|) + "\n- Tags: ";
    if tagText != "" then head + tagText
    else
      assert (head + "(none)")[|head|..] == "(none)";
      head + "(none)"
  }

  /** The unique-tag count is the number of distinct tags over all entries. */
  lemma UniqueTagCount(s: Store)
    ensures |Dedup(AllTags(s.items))| == |set t | t in AllTags(s.items)|
    ensures forall t :: t in Dedup(AllTags(s.items)) <==> exists i :: 0 <= i < |s.items| && t in s.items[i].entry.tags
  {
    DedupLength(AllTags(s.items));
    DedupSpec(AllTags(s.items));
  }

  /** Replacing one entry's value changes the total size by the difference in length. */
  lemma {:induction false} TotalSizePut(items: seq<Item>, key: string, entry: MemoryEntry)
    requires Find(items, key).Some? && NoDuplicates(Keys(items))
    ensures TotalSize(Put(items, key, entry)) + |Find(items, key).value.value| == TotalSize(items) + |entry.value|
    decreases |items|
  {
    if items[0].key != key {
      assert Keys(items) == [items[0].key] + Keys(items[1..]);
      assert NoDuplicates(Keys(items[1..])) by {
        forall i, j | 0 <= i < j < |Keys(items[1..])| ensures Keys(items[1..])[i] != Keys(items[1..])[j] {
          assert Keys(items)[i + 1] != Keys(items)[j + 1];
        }
      }
      TotalSizePut(items[1..], key, entry);
      assert Put(items, key, entry)[1..] == Put(items[1..], key, entry);
    } else {
      assert Put(items, key, entry)[1..] == items[1..];
    }
  }

  /** Appending grows the total size by exactly the separator and the appended text. */
  lemma AppendGrowsTotalSize(s: Store, key: string, value: string, separator: string, now: nat)
    requires Valid(s) && Find(s.items, key).Some?
    ensures TotalSize(AppendTool(s, key, value, separator, now).store.items) == TotalSize(s.items) + |separator| + |value|
  {
    var existing := Find(s.items, key).value;
    TotalSizePut(s.items, key, existing.(value := existing.value + separator + value, updatedAt := now));
  }

  /** A confirmed clear leaves nothing to count. */
  lemma ClearedStats(s: Store)
    ensures var t := ClearTool(s, true).store.items;
            TotalSize(t) == 0 && AllTags(t) == []
  {
  }
}

=== FILE: paths.dfy ===
/**
 * POSIX `path.resolve` as the file-system gate uses it: a purely lexical walk
 * over `/`-separated segments from the working directory, with `.` and empty
 * segments dropped and `..` removing the last segment (never climbing above
 * the root). A resolved path is a list of segments; its text is `/` followed
 * by the segments joined with `/`.
 */
module Paths {
  import opened Text

  /** A segment of a resolved path. */
  predicate IsSegment(s: string) {
    s != "" && s != "." && s != ".." && '/' !in s
  }

  predicate Normal(segs: seq<string>) {
    forall i :: 0 <= i < |segs| ==> IsSegment(segs[i])
  }

  function IsSlash(c: char): bool {
    c == '/'
  }

  predicate NoSlash(parts: seq<string>) {
    forall i :: 0 <= i < |parts| ==> '/' !in parts[i]
  }

  /** Apply the parts of a path, left to right, to a stack of segments. */
  function Walk(stack: seq<string>, parts: seq<string>): (r: seq<string>)
    requires Normal(stack) && NoSlash(parts)
    ensures Normal(r)
    decreases |parts|
  {
    if |parts| == 0 then stack
    else
      var p := parts[0];
      var next :=
        if p == "" || p == "." then stack
        else if p == ".." then (if |stack| > 0 then stack[..|stack| - 1] else stack)
        else stack + [p];
      Walk(next, parts[1..])
  }

  lemma SplitNoSlash(p: string)
    ensures NoSlash(SplitWhere(p, IsSlash))
  {
    var parts := SplitWhere(p, IsSlash);
    forall i | 0 <= i < |parts| ensures '/' !in parts[i] {
    }
  }

  /** `path.resolve(p)` with working directory `cwd`, as segments. */
  function Resolve(cwd: seq<string>, p: string): (r: seq<string>)
    requires Normal(cwd)
    ensures Normal(r)
  {
    SplitNoSlash(p);
    Walk(if |p| > 0 && p[0] == '/' then [] else cwd, SplitWhere(p, IsSlash))
  }

  function RenderFrom(segs: seq<string>): string
    decreases |segs|
  {
    if |segs| == 0 then "" else "/" + segs[0] + RenderFrom(segs[1..])
  }

  /** The text of a resolved path: `/` for the root. */
  function Render(segs: seq<string>): (r: string)
    ensures |r| > 0 && r[0] == '/'
  {
    if |segs| == 0 then "/" else RenderFrom(segs)
  }

  lemma {:induction false} RenderFromAppend(a: seq<string>, b: seq<string>)
    ensures RenderFrom(a + b) == RenderFrom(a) + RenderFrom(b)
    decreases |a|
  {
    if |a| > 0 {
      assert (a + b)[1..] == a[1..] + b;
      RenderFromAppend(a[1..], b);
    } else {
      assert a + b == b;
    }
  }

  // ---- Splitting the rendered text gives the segments back ----

  /** Splitting at a separator splits the two sides independently. */
  lemma {:induction false} SplitAtSeparator(a: string, c: char, b: string, isSep: char -> bool)
    requires isSep(c)
    ensures SplitWhere(a + [c] + b, isSep) == SplitWhere(a, isSep) + SplitWhere(b, isSep)
    decreases |a|
  {
    var s := a + [c] + b;
    if |a| == 0 {
      assert s == [c] + b && s[1..] == b;
      assert SplitWhere(s, isSep) == [""] + SplitWhere(b, isSep);
    } else {
      assert s[1..] == a[1..] + [c] + b && s[0] == a[0];
      SplitAtSeparator(a[1..], c, b, isSep);
      var ra := SplitWhere(a[1..], isSep);
      var rb := SplitWhere(b, isSep);
      if isSep(a[0]) {
        ConcatAssoc3([""], ra, rb);
      } else {
        WordStepAppend([a[0]], ra, rb);
      }
    }
  }

  /** Extending the first part of a split, before or after appending more parts. */
  lemma WordStepAppend(h: string, ra: seq<string>, rb: seq<string>)
    requires |ra| >= 1
    ensures [h + (ra + rb)[0]] + (ra + rb)[1..] == ([h + ra[0]] + ra[1..]) + rb
  {
    assert (ra + rb)[0] == ra[0];
    assert (ra + rb)[1..] == ra[1..] + rb;
    ConcatAssoc3([h + ra[0]], ra[1..], rb);
  }

  lemma ConcatAssoc3<T>(x: seq<T>, y: seq<T>, z: seq<T>)
    ensures x + (y + z) == (x + y) + z
  {
  }

  lemma SplitAfterSlash(x: string)
    ensures SplitWhere("/" + x, IsSlash) == [""] + SplitWhere(x, IsSlash)
  {
    SplitAtSeparator([], '/', x, IsSlash);
    assert [] + ['/'] + x == "/" + x;
  }

  lemma SplitWordThenSlash(w: string, x: string)
    requires '/' !in w
    ensures SplitWhere(w + ("/" + x), IsSlash) == [w] + SplitWhere(x, IsSlash)
  {
    var joined := w + ['/'] + x;
    assert joined == w + ("/" + x);
    SplitAtSeparator(w, '/', x, IsSlash);
    SplitNoSlashWord(w);
  }

  lemma {:induction false} SplitRenderFrom(segs: seq<string>)
    requires |segs| > 0 && NoSlash(segs)
    ensures SplitWhere(RenderFrom(segs), IsSlash) == [""] + segs
    decreases |segs|
  {
    var s0 := segs[0];
    var rest := RenderFrom(segs[1..]);
    assert RenderFrom(segs) == "/" + (s0 + rest);
    SplitAfterSlash(s0 + rest);
    if |segs| == 1 {
      assert s0 + rest == s0;
      SplitNoSlashWord(s0);
    } else {
      SplitRenderFrom(segs[1..]);
      var tailText := RenderFrom(segs[2..]);
      assert rest == "/" + (segs[1] + tailText);
      SplitAfterSlash(segs[1] + tailText);
      SplitWordThenSlash(s0, segs[1] + tailText);
      assert SplitWhere(segs[1] + tailText, IsSlash) == segs[1..] by {
        var t := SplitWhere(segs[1] + tailText, IsSlash);
        assert [""] + t == [""] + segs[1..];
        assert ([""] + t)[1..] == t;
      }
      assert segs == [s0] + segs[1..];
    }
  }

  lemma SplitNoSlashWord(w: string)
    requires '/' !in w
    ensures SplitWhere(w, IsSlash) == [w]
  {
    SplitNoSlashWordFrom(w);
  }

  lemma {:induction false} SplitNoSlashWordFrom(w: string)
    requires '/' !in w
    ensures SplitWhere(w, IsSlash) == [w]
    decreases |w|
  {
    if |w| > 0 {
      SplitNoSlashWordFrom(w[1..]);
      assert [w[0]] + w[1..] == w;
    }
  }

  lemma {:induction false} WalkSegments(stack: seq<string>, segs: seq<string>)
    requires Normal(stack) && Normal(segs)
    ensures NoSlash(segs) && Walk(stack, segs) == stack + segs
    decreases |segs|
  {
    if |segs| > 0 {
      assert stack + [segs[0]] + segs[1..] == stack + segs;
      WalkSegments(stack + [segs[0]], segs[1..]);
    }
  }

  /** Walking a concatenation walks the two parts one after the other. */
  lemma {:induction false} WalkAppend(stack: seq<string>, a: seq<string>, b: seq<string>)
    requires Normal(stack) && NoSlash(a) && NoSlash(b)
    ensures NoSlash(a + b) && Walk(stack, a + b) == Walk(Walk(stack, a), b)
    decreases |a|
  {
    if |a| == 0 {
      assert a + b == b;
    } else {
      assert (a + b)[0] == a[0];
      assert (a + b)[1..] == a[1..] + b;
      var p := a[0];
      var next :=
        if p == "" || p == "." then stack
        else if p == ".." then (if |stack| > 0 then stack[..|stack| - 1] else stack)
        else stack + [p];
      WalkAppend(next, a[1..], b);
    }
  }

  /** Without `..` parts a walk only ever extends the stack it starts from. */
  lemma {:induction false} WalkExtends(stack: seq<string>, parts: seq<string>)
    requires Normal(stack) && NoSlash(parts)
    requires forall i :: 0 <= i < |parts| ==> parts[i] != ".."
    ensures stack <= Walk(stack, parts)
    decreases |parts|
  {
    if |parts| > 0 {
      var p := parts[0];
      var next := if p == "" || p == "." then stack else stack + [p];
      assert Walk(stack, parts) == Walk(next, parts[1..]);
      WalkExtends(next, parts[1..]);
    }
  }

  /** A relative path without `..` parts resolves to the working directory or below it. */
  lemma RelativeStaysBelow(cwd: seq<string>, p: string)
    requires Normal(cwd)
    requires !(|p| > 0 && p[0] == '/')
    requires forall part :: part in SplitWhere(p, IsSlash) ==> part != ".."
    ensures cwd <= Resolve(cwd, p)
  {
    var parts := SplitWhere(p, IsSlash);
    SplitNoSlash(p);
    assert forall i :: 0 <= i < |parts| ==> parts[i] != ".." by {
      forall i | 0 <= i < |parts| ensures parts[i] != ".." {
        assert parts[i] in parts;
      }
    }
    WalkExtends(cwd, parts);
  }

  /** Climbing out of a directory and back down into `tail`, spelled as an absolute path. */
  lemma ParentThenDown(cwd: seq<string>, tail: seq<string>)
    requires Normal(cwd) && |cwd| > 0 && Normal(tail)
    ensures Resolve(cwd, RenderFrom(cwd + [".."] + tail)) == cwd[..|cwd| - 1] + tail
  {
    var segs := cwd + [".."] + tail;
    var text := RenderFrom(segs);
    assert segs[0] == cwd[0];
    assert NoSlash(segs) by {
      assert forall i :: 0 <= i < |segs| ==> segs[i] == ".." || segs[i] in cwd || segs[i] in tail;
    }
    SplitRenderFrom(segs);
    assert text[0] == '/';
    SplitNoSlash(text);
    assert Walk([], [""] + segs) == Walk([], segs) by {
      assert ([""] + segs)[1..] == segs;
    }
    WalkSegments([], cwd);
    WalkAppend([], cwd, [".."]);
    WalkAppend([], cwd + [".."], tail);
    assert [] + cwd == cwd;
    assert Walk(cwd, [".."]) == cwd[..|cwd| - 1] by {
      assert Walk(cwd[..|cwd| - 1], [".."][1..]) == cwd[..|cwd| - 1];
    }
    WalkSegments(cwd[..|cwd| - 1], tail);
  }

  /** The root path splits into two empty parts. */
  lemma RootParts()
    ensures SplitWhere("/", IsSlash) == ["", ""]
  {
    assert "/"[1..] == "";
    assert SplitWhere("", IsSlash) == [""];
    assert IsSlash("/"[0]);
  }

  /** Resolving a resolved path gives it back, from any working directory. */
  lemma ResolveRender(cwd: seq<string>, segs: seq<string>)
    requires Normal(cwd) && Normal(segs)
    ensures Resolve(cwd, Render(segs)) == segs
  {
    if |segs| == 0 {
      RootParts();
      var parts: seq<string> := ["", ""];
      assert Walk([], parts) == Walk([], [""]) by { assert parts[1..] == [""]; }
      assert Walk([], [""]) == [] by { assert [""][1..] == []; }
    } else {
      SplitRenderFrom(segs);
      WalkSegments([], segs);
    }
  }

  /** `path.resolve` is idempotent. */
  lemma ResolveIdempotent(cwd: seq<string>, p: string)
    requires Normal(cwd)
    ensures Resolve(cwd, Render(Resolve(cwd, p))) == Resolve(cwd, p)
  {
    ResolveRender(cwd, Resolve(cwd, p));
  }

  // ---- String prefixes of rendered paths ----

  /** A rendered segment list is empty or starts with a slash. */
  lemma RenderFromShape(segs: seq<string>)
    ensures RenderFrom(segs) == [] || RenderFrom(segs)[0] == '/'
    ensures |segs| > 0 ==> |RenderFrom(segs)| > 0
  {
  }

  /** A final segment is a text prefix exactly when it is a prefix of the other segment. */
  lemma LastSegmentPrefix(c: string, d: string, y: string)
    requires '/' !in c && '/' !in d
    requires y == [] || y[0] == '/'
    ensures c <= d + y <==> c <= d
  {
    if |c| <= |d| {
      assert (d + y)[..|c|] == d[..|c|];
    }
    if |c| > |d| && |y| > 0 {
      assert (d + y)[|d|] == '/';
      DifferAt(c, d + y, |d|);
    }
  }

  /** A segment followed by more path is a text prefix only through an equal segment. */
  lemma InnerSegmentPrefix(c: string, x: string, d: string, y: string)
    requires '/' !in c && '/' !in d
    requires |x| > 0 && x[0] == '/'
    requires y == [] || y[0] == '/'
    ensures c + x <= d + y <==> c == d && x <= y
  {
    if |c| < |d| {
      assert (c + x)[|c|] == '/' && (d + y)[|c|] == d[|c|];
      DifferAt(c + x, d + y, |c|);
    } else if |c| > |d| && |y| > 0 {
      assert (c + x)[|d|] == c[|d|] && (d + y)[|d|] == '/';
      DifferAt(c + x, d + y, |d|);
    }
    if c + x <= d + y {
      if |c| == |d| {
        assert c == (c + x)[..|c|];
        assert d == (d + y)[..|d|];
        assert x == (c + x)[|c|..];
        assert y == (d + y)[|d|..];
      }
    }
    if c == d && x <= y {
      assert (c + x) == (d + y)[..|c + x|];
    }
  }

  lemma DifferAt(a: string, b: string, i: nat)
    requires i < |a| && i < |b| && a[i] != b[i]
    ensures !(a <= b)
  {
  }

  lemma SlashPrefix(a: string, b: string)
    ensures ['/'] + a <= ['/'] + b <==> a <= b
  {
    if a <= b {
      assert ['/'] + a == (['/'] + b)[..|a| + 1];
    }
    if ['/'] + a <= ['/'] + b {
      assert a == (['/'] + a)[1..];
      assert forall i :: 0 <= i < |a| ==> a[i] == (['/'] + a)[i + 1];
    }
  }

  /**
   * Which segment lists render to text that starts with the text of `base`: the
   * leading segments agree and the last segment of `base` is a text prefix of
   * the segment at the same position (so `/a/b` is a prefix of `/a/bc`).
   */
  predicate TextBeneath(base: seq<string>, segs: seq<string>) {
    |base| == 0 ||
    (|segs| >= |base| && segs[..|base| - 1] == base[..|base| - 1] && base[|base| - 1] <= segs[|base| - 1])
  }

  lemma {:induction false} RenderFromPrefix(base: seq<string>, segs: seq<string>)
    requires Normal(base) && Normal(segs) && |base| > 0
    ensures RenderFrom(base) <= RenderFrom(segs) <==> TextBeneath(base, segs)
    decreases |base|
  {
    if |segs| == 0 {
      assert |RenderFrom(base)| > 0;
    } else {
      var c, d := base[0], segs[0];
      var x, y := RenderFrom(base[1..]), RenderFrom(segs[1..]);
      assert RenderFrom(base) == ['/'] + (c + x);
      assert RenderFrom(segs) == ['/'] + (d + y);
      SlashPrefix(c + x, d + y);
      RenderFromShape(segs[1..]);
      RenderFromShape(base[1..]);
      if |base| == 1 {
        assert x == [];
        assert c + x == c;
        LastSegmentPrefix(c, d, y);
        assert base[..0] == segs[..0];
      } else {
        InnerSegmentPrefix(c, x, d, y);
        if c == d {
          RenderFromPrefix(base[1..], segs[1..]);
          TextBeneathStep(base, segs);
        } else if |segs| >= |base| {
          assert segs[..|base| - 1][0] != base[..|base| - 1][0];
        }
      }
    }
  }

  lemma TextBeneathStep(base: seq<string>, segs: seq<string>)
    requires |base| > 1 && |segs| > 0 && base[0] == segs[0]
    ensures TextBeneath(base, segs) <==> TextBeneath(base[1..], segs[1..])
  {
    var n := |base|;
    if |segs| >= n {
      assert segs[..n - 1] == [segs[0]] + segs[1..][..n - 2];
      assert base[..n - 1] == [base[0]] + base[1..][..n - 2];
    }
  }

  /** The rendered text of `base` is a prefix of the rendered text of `segs`. */
  predicate RenderedPrefix(base: seq<string>, segs: seq<string>) {
    Render(base) <= Render(segs)
  }

  /**
   * String-prefix comparison of rendered paths, in terms of segments: with the
   * root as base every path qualifies; otherwise exactly the `TextBeneath` lists.
   */
  lemma RenderedPrefixCharacterization(base: seq<string>, segs: seq<string>)
    requires Normal(base) && Normal(segs)
    ensures RenderedPrefix(base, segs) <==> TextBeneath(base, segs)
  {
    if |base| > 0 {
      RenderFromPrefix(base, segs);
      if |segs| == 0 {
        assert Render(segs) == "/";
        assert |RenderFrom(base)| >= 2 by {
          assert RenderFrom(base) == "/" + base[0] + RenderFrom(base[1..]);
        }
      }
    }
  }

  /** Every extension of a segment list is beneath it. */
  lemma ExtensionBeneath(base: seq<string>, segs: seq<string>)
    requires base <= segs
    ensures TextBeneath(base, segs)
  {
    if |base| > 0 {
      assert segs[..|base| - 1] == base[..|base| - 1];
    }
  }
}

=== FILE: rule_markdown.dfy ===
/**
 * The metadata a rule file's markdown yields: its id, its title (the first
 * `^#\s+(.+)$` match in multi-line mode), its description (the capture of
 * `^#\s+.+\n+(.+?)(\n\n|\n#)` in dot-all mode) and its tags (every
 * `\*\*Tags?:\*\*\s*(.+)` match, case-insensitive).
 *
 * Each regular expression is modelled by the match its backtracking search
 * returns, worked out in the comments beside it; `.` without the dot-all flag
 * matches any character but a line terminator, `\s` is `Text.IsSpace`.
 */
module RuleMarkdown {
  import opened Wrappers
  import opened Text
  import opened Seqs

  /** `^` in multi-line mode: the start of the text or just after a line terminator. */
  predicate LineStart(s: string, i: nat) {
    i == 0 || (0 < i <= |s| && IsLineTerminator(s[i - 1]))
  }

  /** Where a greedy `.+` that starts at `i` stops: the next line terminator, or the end. */
  function LineEnd(s: string, i: nat): (j: nat)
    requires i <= |s|
    ensures i <= j <= |s|
    ensures forall k :: i <= k < j ==> !IsLineTerminator(s[k])
    ensures j == |s| || IsLineTerminator(s[j])
    decreases |s| - i
  {
    if i == |s| || IsLineTerminator(s[i]) then i else LineEnd(s, i + 1)
  }

  /** The largest position in `[lo, hi)` holding a character `.` matches. */
  function LastNonTerminator(s: string, lo: nat, hi: nat): (r: Option<nat>)
    requires lo <= hi <= |s|
    ensures r.Some? ==> lo <= r.value < hi && !IsLineTerminator(s[r.value])
    ensures r.Some? ==> forall k :: r.value < k < hi ==> IsLineTerminator(s[k])
    ensures r.None? ==> forall k :: lo <= k < hi ==> IsLineTerminator(s[k])
    decreases hi - lo
  {
    if hi == lo then None
    else if !IsLineTerminator(s[hi - 1]) then Some(hi - 1)
    else LastNonTerminator(s, lo, hi - 1)
  }

  predicate AllSpace(s: string, lo: nat, hi: nat)
    requires lo <= hi <= |s|
  {
    forall k :: lo <= k < hi ==> IsSpace(s[k])
  }

  /** Where `\s{least,}` followed by `.+` hands over, for a match attempt at
      `from`: the greedy white-space run is as long as it can be while a
      character `.` matches still follows it. When a non-space character ends
      the run that is the end of the run; when the run reaches the end of the
      text, backtracking settles on the last character `.` matches. */
  function LineAfterSpaces(s: string, from: nat, least: nat): (r: Option<nat>)
    requires from <= |s|
    ensures r.Some? ==>
      (from + least <= r.value < |s| && AllSpace(s, from, r.value) && !IsLineTerminator(s[r.value]))
    ensures r.Some? ==> forall p :: r.value < p < |s| && AllSpace(s, from, p) ==> IsLineTerminator(s[p])
    ensures r.None? ==> forall p :: from + least <= p < |s| && AllSpace(s, from, p) ==> IsLineTerminator(s[p])
  {
    var w := SkipSpaces(s, from);
    if w - from < least then
      assert forall p :: from + least <= p < |s| ==> !AllSpace(s, from, p) by {
        forall p | from + least <= p < |s| ensures !AllSpace(s, from, p) {
          assert !IsSpace(s[w]);
        }
      }
      None
    else if w < |s| then
      assert !IsLineTerminator(s[w]);
      assert forall p :: w < p < |s| ==> !AllSpace(s, from, p) by {
        forall p | w < p < |s| ensures !AllSpace(s, from, p) {
          assert !IsSpace(s[w]);
        }
      }
      Some(w)
    else
      LastNonTerminator(s, from + least, |s|)
  }

  // ---- title ----

  /** The title match attempted at `i`: `^`, `#`, at least one `\s`, then the
      rest of a line, captured. */
  function TitleAt(s: string, i: nat): (r: Option<string>)
    requires i < |s|
    ensures r.Some? ==> LineStart(s, i) && s[i] == '#' && |r.value| > 0
    ensures r.Some? ==> forall k :: 0 <= k < |r.value| ==> !IsLineTerminator(r.value[k])
  {
    if !LineStart(s, i) || s[i] != '#' then None
    else
      match LineAfterSpaces(s, i + 1, 1)
      case None => None
      case Some(p) => Some(s[p..LineEnd(s, p)])
  }

  /** The leftmost title match at or after `i`. */
  function FirstTitle(s: string, i: nat): (r: Option<string>)
    requires i <= |s|
    ensures r.Some? ==> exists k :: i <= k < |s| && TitleAt(s, k) == r
    ensures r.None? ==> forall k :: i <= k < |s| ==> TitleAt(s, k).None?
    decreases |s| - i
  {
    if i == |s| then None
    else if TitleAt(s, i).Some? then TitleAt(s, i)
    else FirstTitle(s, i + 1)
  }

  /** `file.replace(".md", "")`: the first `.md` anywhere in the name goes. */
  function BaseName(file: string): string {
    ReplaceFirst(file, ".md", "")
  }

  /** The title of a rule: the first heading match, else the base name of the file. */
  function Title(content: string, file: string): (r: string)
    ensures (forall k :: 0 <= k < |content| ==> content[k] != '#') ==> r == BaseName(file)
  {
    match FirstTitle(content, 0)
    case Some(t) => t
    case None => BaseName(file)
  }

  /** A file that opens with `# ` and a heading line has that line as its title. */
  lemma TitleOfHeading(heading: string, rest: string, file: string)
    requires |heading| > 0 && !IsSpace(heading[0])
    requires forall k :: 0 <= k < |heading| ==> !IsLineTerminator(heading[k])
    ensures Title("# " + heading + "\n" + rest, file) == heading
  {
    var s := "# " + heading + "\n" + rest;
    assert s[2] == heading[0];
    assert SkipSpaces(s, 1) == 2 by {
      assert IsSpace(s[1]);
      assert SkipSpaces(s, 2) == 2;
    }
    assert LineEnd(s, 2) == 2 + |heading| by {
      LineEndOfRun(s, 2, 2 + |heading|);
    }
    assert s[2..2 + |heading|] == heading;
  }

  lemma LineEndOfRun(s: string, i: nat, j: nat)
    requires i <= j < |s| && IsLineTerminator(s[j])
    requires forall k :: i <= k < j ==> !IsLineTerminator(s[k])
    ensures LineEnd(s, i) == j
  {
  }

  /** Every prefix of the text that cannot hold a heading leaves the title to
      the file name. */
  lemma TitleFallback(content: string, file: string)
    requires forall k :: 0 <= k < |content| ==> content[k] != '#'
    ensures Title(content, file) == BaseName(file)
  {
  }

  // ---- description ----

  /** `(\n\n|\n#)` matches at `e`. */
  predicate BreakAt(s: string, e: nat) {
    e + 1 < |s| && s[e] == '\n' && (s[e + 1] == '\n' || s[e + 1] == '#')
  }

  /** The last position below `hi` where a paragraph break matches. */
  function LastBreak(s: string, hi: nat): (r: Option<nat>)
    requires hi <= |s|
    ensures r.Some? ==> r.value < hi && BreakAt(s, r.value)
    ensures r.Some? ==> forall e :: r.value < e < hi ==> !BreakAt(s, e)
    ensures r.None? ==> forall e :: 0 <= e < hi ==> !BreakAt(s, e)
    decreases hi
  {
    if hi == 0 then None
    else if BreakAt(s, hi - 1) then Some(hi - 1)
    else LastBreak(s, hi - 1)
  }

  /** The first position at or after `lo` where a paragraph break matches. */
  function FirstBreak(s: string, lo: nat): (r: Option<nat>)
    requires lo <= |s|
    ensures r.Some? ==> lo <= r.value && BreakAt(s, r.value)
    ensures r.Some? ==> forall e :: lo <= e < r.value ==> !BreakAt(s, e)
    ensures r.None? ==> forall e :: lo <= e < |s| ==> !BreakAt(s, e)
    decreases |s| - lo
  {
    if lo == |s| then None
    else if BreakAt(s, lo) then Some(lo)
    else FirstBreak(s, lo + 1)
  }

  /** The last `\n` in `[lo, hi)`. */
  function LastNewline(s: string, lo: nat, hi: nat): (r: Option<nat>)
    requires lo <= hi <= |s|
    ensures r.Some? ==> lo <= r.value < hi && s[r.value] == '\n'
    ensures r.Some? ==> forall k :: r.value < k < hi ==> s[k] != '\n'
    ensures r.None? ==> forall k :: lo <= k < hi ==> s[k] != '\n'
    decreases hi - lo
  {
    if hi == lo then None
    else if s[hi - 1] == '\n' then Some(hi - 1)
    else LastNewline(s, lo, hi - 1)
  }

  /** One past the run of `\n` that starts at `c`. */
  function NewlineRunEnd(s: string, c: nat): (d: nat)
    requires c <= |s|
    ensures c <= d <= |s| && (d == |s| || s[d] != '\n')
    ensures forall k :: c <= k < d ==> s[k] == '\n'
    decreases |s| - c
  {
    if c == |s| || s[c] != '\n' then c else NewlineRunEnd(s, c + 1)
  }

  /** One way the description expression can match: without the `m` flag `^`
      is the start of the text, and with the `s` flag `.` matches every
      character. The match is `#`, `\s+` over `[1, b)`, `.+` over `[b, c)`,
      `\n+` over `[c, d)`, the captured lazy `(.+?)` over `[d, e)` and a break
      at `e`. */
  predicate IsDescriptionMatch(s: string, b: nat, c: nat, d: nat, e: nat) {
    0 < |s| && s[0] == '#' && 2 <= b < c < d < e && BreakAt(s, e)
    && (forall k :: 1 <= k < b ==> IsSpace(s[k]))
    && (forall k :: c <= k < d ==> s[k] == '\n')
  }

  /** Backtracking tries `b`, `c` and `d` from the largest down and `e` from the
      smallest up, so the match it reports comes no later than any other in
      that order. */
  predicate NoLaterThan(m: (nat, nat, nat, nat), b: nat, c: nat, d: nat, e: nat) {
    b <= m.0 && (b == m.0 ==> c <= m.1 && (c == m.1 ==> d <= m.2 && (d == m.2 ==> m.3 <= e)))
  }

  /** The match the regular expression reports, computed directly: `c` is the
      last `\n` from index 3 on that still leaves a character before the last
      break; `b` is as far as the white space reaches but before `c`; `d` is
      the end of the `\n` run at `c`, but before the last break; and `e` is the
      first break after `d`. So the description is the paragraph that ends at
      the last break, not the first paragraph after the heading. */
  function DescriptionMatch(s: string): (r: Option<(nat, nat, nat, nat)>)
    ensures r.Some? ==> IsDescriptionMatch(s, r.value.0, r.value.1, r.value.2, r.value.3)
  {
    if |s| < 2 || s[0] != '#' || !IsSpace(s[1]) then None
    else
      var w := SkipSpaces(s, 1);
      match LastBreak(s, |s|)
      case None => None
      case Some(last) =>
        if last < 4 then None
        else
          match LastNewline(s, 3, last - 1)
          case None => None
          case Some(c) =>
            var b := if w < c then w else c - 1;
            var runEnd := NewlineRunEnd(s, c);
            var d := if runEnd < last - 1 then runEnd else last - 1;
            match FirstBreak(s, d + 1)
            case None => None
            case Some(e) => Some((b, c, d, e))
  }

  /** Every match the expression allows makes `DescriptionMatch` succeed, and
      none comes before the one it returns in backtracking order. */
  lemma DescriptionMatchIsFirst(s: string, b: nat, c: nat, d: nat, e: nat)
    requires IsDescriptionMatch(s, b, c, d, e)
    ensures DescriptionMatch(s).Some?
    ensures NoLaterThan(DescriptionMatch(s).value, b, c, d, e)
  {
    assert IsSpace(s[1]);
    var w := SkipSpaces(s, 1);
    assert b <= w;
    assert LastBreak(s, |s|).Some?;
    var last := LastBreak(s, |s|).value;
    assert e <= last;
    assert s[c] == '\n';
    assert LastNewline(s, 3, last - 1).Some?;
    var cm := LastNewline(s, 3, last - 1).value;
    assert c <= cm;
    var runEnd := NewlineRunEnd(s, cm);
    var dm := if runEnd < last - 1 then runEnd else last - 1;
    assert BreakAt(s, last) && dm + 1 <= last;
    var em := FirstBreak(s, dm + 1).value;
    if c == cm {
      assert d <= runEnd;
      if d == dm {
        assert em <= e;
      }
    }
  }

  /** The capture of the description expression: the `(.+?)` group of the match
      that backtracking reports, or `None` when the expression does not match. */
  function DescriptionCapture(s: string): (r: Option<string>)
    ensures r.Some? ==> |r.value| > 0
  {
    match DescriptionMatch(s)
    case None => None
    case Some(m) => Some(s[m.2..m.3])
  }

  /** What the capture satisfies: it is a stretch of the text that follows a
      `\n` and is followed by a paragraph break. */
  lemma DescriptionCaptureShape(s: string)
    requires DescriptionCapture(s).Some?
    ensures exists d, e ::
      (0 < d < e < |s| && s[d - 1] == '\n' && BreakAt(s, e) && DescriptionCapture(s).value == s[d..e])
  {
    var m := DescriptionMatch(s).value;
    assert s[m.2 - 1] == '\n';
  }

  /** With two paragraphs under the heading the second one is the description. */
  lemma DescriptionPicksLastParagraph()
    ensures Description("# T\n\nA\n\nB\n\n") == "B"
  {
    var s := "# T\n\nA\n\nB\n\n";
    assert SkipSpaces(s, 1) == 2 by {
      assert !IsSpace(s[2]);
    }
    assert LastBreak(s, |s|) == Some(9) by {
      assert BreakAt(s, 9) && !BreakAt(s, 10);
    }
    assert LastNewline(s, 3, 8) == Some(7);
    assert NewlineRunEnd(s, 7) == 8;
    assert FirstBreak(s, 9) == Some(9);
    assert s[8..9] == "B";
    assert Trim("B") == "B";
  }

  /** The white space after the heading marker may itself hold line breaks:
      `\s+` gives some of them back so that `.+` and `\n+` can match. */
  lemma DescriptionAfterBareHeading()
    ensures Description("#\n\n\nPara\n\nX") == "Para"
  {
    var s := "#\n\n\nPara\n\nX";
    BareHeadingMatch(s);
    var para := s[4..8];
    assert DescriptionCapture(s) == Some(para);
    assert para == "Para";
    TrimUnpadded(para);
  }

  /** The match behind `DescriptionAfterBareHeading`: `\s+` gives back the
      newline the `\n+` after the heading needs. */
  lemma BareHeadingMatch(s: string)
    requires s == "#\n\n\nPara\n\nX"
    ensures DescriptionMatch(s) == Some((2, 3, 4, 8))
  {
    assert SkipSpaces(s, 1) == 4 by {
      assert !IsSpace(s[4]);
    }
    assert LastBreak(s, |s|) == Some(8) by {
      assert BreakAt(s, 8) && !BreakAt(s, 9) && !BreakAt(s, 10);
    }
    assert LastNewline(s, 3, 7) == Some(3);
    assert NewlineRunEnd(s, 4) == 4;
    assert NewlineRunEnd(s, 3) == 4;
    assert FirstBreak(s, 5) == Some(8);
  }

  /** Without a paragraph break the description falls back. */
  lemma NoBreakNoDescription(s: string)
    requires forall e :: 0 <= e < |s| ==> !BreakAt(s, e)
    ensures Description(s) == "No description"
  {
  }

  /** The description of a rule: the trimmed capture cut to 200 characters,
      else `No description`. */
  function Description(content: string): (r: string)
    ensures DescriptionCapture(content).None? ==> r == "No description"
    ensures DescriptionCapture(content).Some? ==>
      var t := Trim(DescriptionCapture(content).value); r == if |t| <= 200 then t else t[..200]
  {
    match DescriptionCapture(content)
    case None => "No description"
    case Some(d) => FirstN(Trim(d), 200)
  }

  // ---- tags ----

  /** `c` matches the pattern letter `lower` under the `i` flag. */
  predicate Letter(c: char, lower: char) {
    Lower(c) == lower
  }

  /** The length of the `**Tag:**` or `**Tags:**` header at `i`, or 0 when
      none starts there; the optional `s` is tried first. */
  function TagHeader(s: string, i: nat): (n: nat)
    requires i <= |s|
    ensures n == 0 || n == 8 || n == 9
    ensures n > 0 ==> i + n <= |s|
  {
    if i + 5 <= |s| && s[i] == '*' && s[i + 1] == '*' && Letter(s[i + 2], 't') && Letter(s[i + 3], 'a')
      && Letter(s[i + 4], 'g')
    then
      if i + 9 <= |s| && Letter(s[i + 5], 's') && s[i + 6] == ':' && s[i + 7] == '*' && s[i + 8] == '*' then 9
      else if i + 8 <= |s| && s[i + 5] == ':' && s[i + 6] == '*' && s[i + 7] == '*' then 8
      else 0
    else 0
  }

  /** The tag match attempted at `i`: the header, `\s*`, then the rest of a
      line, captured; the result is the capture and the end of the match. */
  function TagMatchAt(s: string, i: nat): (r: Option<(string, nat)>)
    requires i <= |s|
    ensures r.Some? ==> TagHeader(s, i) > 0 && i < r.value.1 <= |s| && |r.value.0| > 0
    ensures r.Some? ==> forall k :: 0 <= k < |r.value.0| ==> !IsLineTerminator(r.value.0[k])
  {
    var h := TagHeader(s, i);
    if h == 0 then None
    else
      match LineAfterSpaces(s, i + h, 0)
      case None => None
      case Some(p) =>
        var q := LineEnd(s, p);
        Some((s[p..q], q))
  }

  predicate IsTagSeparator(c: char) {
    c == ',' || c == ';'
  }

  /** `list.split(/[,;]/).map(t => t.trim())`. */
  function SplitTags(list: string): (r: seq<string>)
    ensures |r| >= 1
    ensures forall k :: 0 <= k < |r| ==> forall m :: 0 <= m < |r[k]| ==> !IsTagSeparator(r[k][m])
  {
    var parts := SplitWhere(list, IsTagSeparator);
    seq(|parts|, k requires 0 <= k < |parts| => Trim(parts[k]))
  }

  /** `matchAll` from `i`: each match is looked for from where the previous
      one ended, and contributes its split, trimmed tags in order. */
  function TagsFrom(s: string, i: nat): (r: seq<string>)
    requires i <= |s|
    ensures forall k :: 0 <= k < |r| ==> forall m :: 0 <= m < |r[k]| ==> !IsTagSeparator(r[k][m])
    decreases |s| - i
  {
    if i == |s| then []
    else
      match TagMatchAt(s, i)
      case Some((capture, next)) => SplitTags(capture) + TagsFrom(s, next)
      case None => TagsFrom(s, i + 1)
  }

  function Tags(content: string): seq<string> {
    TagsFrom(content, 0)
  }

  /** A text with no tag header yields no tags. */
  lemma {:induction false} NoHeaderNoTags(s: string, i: nat)
    requires i <= |s|
    requires forall k :: i <= k <= |s| ==> TagHeader(s, k) == 0
    ensures TagsFrom(s, i) == []
    decreases |s| - i
  {
    if i < |s| {
      NoHeaderNoTags(s, i + 1);
    }
  }

  /** A tag line `**Tags:** list` at the start of the text contributes the
      split, trimmed list first. */
  lemma TagLine(list: string, rest: string)
    requires |list| > 0 && !IsSpace(list[0])
    requires forall k :: 0 <= k < |list| ==> !IsLineTerminator(list[k])
    ensures Tags("**Tags:**" + list + "\n" + rest) == SplitTags(list) + TagsFrom("**Tags:**" + list + "\n" + rest, 9 + |list|)
  {
    var s := "**Tags:**" + list + "\n" + rest;
    assert s[..9] == "**Tags:**";
    assert TagHeader(s, 0) == 9;
    assert s[9] == list[0];
    assert SkipSpaces(s, 9) == 9;
    assert LineEnd(s, 9) == 9 + |list| by {
      LineEndOfRun(s, 9, 9 + |list|);
    }
    assert s[9..9 + |list|] == list;
  }

  // ---- id ----

  /** The id of a rule: its category, `/`, and the file name without its first `.md`. */
  function RuleId(category: string, file: string): string {
    category + "/" + BaseName(file)
  }

  /** For a file `base.md` whose base holds no `.md`, the id ends in the base. */
  lemma {:induction false} IdOfMarkdownFile(category: string, base: string)
    requires !Contains(base, ".md")
    ensures RuleId(category, base + ".md") == category + "/" + base
  {
    ReplaceFirstAtEnd(base);
  }

  lemma {:induction false} ReplaceFirstAtEnd(base: string)
    requires !Contains(base, ".md")
    ensures ReplaceFirst(base + ".md", ".md", "") == base
    decreases |base|
  {
    var s := base + ".md";
    if |base| == 0 {
      assert MatchAt(s, ".md", 0) by {
        MatchAtSpec(s, ".md", 0);
        assert s[0..3] == ".md";
      }
    } else {
      assert !MatchAt(s, ".md", 0) by {
        MatchAtSpec(s, ".md", 0);
        if |base| >= 3 {
          assert s[0..3] == base[0..3];
          if OccursAt(base, ".md", 0) {
            ContainsWitness(base, ".md", 0);
          }
        } else if |base| == 2 {
          assert s[2] == '.';
        } else {
          assert s[1] == '.';
        }
      }
      assert !Contains(base[1..], ".md") by {
        if Contains(base[1..], ".md") {
          ContainsSpec(base[1..], ".md");
          var j :| OccursAt(base[1..], ".md", j);
          assert base[1..][j..j + 3] == base[j + 1..j + 4];
          ContainsWitness(base, ".md", j + 1);
        }
      }
      ReplaceFirstAtEnd(base[1..]);
      assert s[1..] == base[1..] + ".md";
    }
  }
}

=== FILE: rules_tools.dfy ===
/**
 * The rules tools: the directory scan that turns rule files into metadata,
 * and the `rules_list`, `rules_get`, `rules_search`, `rules_by_category` and
 * `rules_categories` handlers over the scanned rules. The rules directory is
 * an input: its entries, their kinds and the contents of their files.
 */
module RulesTools {
  import opened Wrappers
  import opened Text
  import opened Seqs
  import opened RuleMarkdown

  /** The metadata of one rule; `file` stands for the path `rulesDir/category/file`. */
  datatype Rule = Rule(id: string, category: string, title: string, description: string, tags: seq<string>, file: string)

  /** A file of a category directory and the outcome of reading it. */
  datatype RuleFile = RuleFile(name: string, content: Result<string>)

  /** An entry of the rules directory and the outcome of `stat` and `readdir` on it. */
  datatype CategoryEntry =
    | NotDirectory(name: string)
    | CategoryDir(name: string, files: Result<seq<RuleFile>>)
    | StatFailed(name: string)

  predicate EndsWithMd(name: string) {
    |name| >= 3 && name[|name| - 3..] == ".md"
  }

  /** The metadata a rule file yields. */
  function RuleOf(category: string, file: string, content: string): (r: Rule)
    ensures r.category == category && r.id == RuleId(category, file)
  {
    Rule(RuleId(category, file), category, Title(content, file), Description(content), Tags(content), file)
  }

  /** The result of scanning: the rules found and whether the scan stopped on an error. */
  datatype Scan = Scan(rules: seq<Rule>, failed: bool)

  /** The files of one category: non-`.md` files are skipped; a failed read
      stops the whole scan, keeping the rules found so far. */
  function ScanFiles(category: string, files: seq<RuleFile>): (r: Scan)
    ensures forall k :: 0 <= k < |r.rules| ==> r.rules[k].category == category && EndsWithMd(r.rules[k].file)
    ensures |r.rules| <= |files|
    decreases |files|
  {
    if |files| == 0 then Scan([], false)
    else
      var f := files[0];
      if !EndsWithMd(f.name) then ScanFiles(category, files[1..])
      else
        match f.content
        case Err(_) => Scan([], true)
        case Ok(text) =>
          var rest := ScanFiles(category, files[1..]);
          Scan([RuleOf(category, f.name, text)] + rest.rules, rest.failed)
  }

  /** Some entry is a category directory of that name. */
  predicate IsCategoryOf(entries: seq<CategoryEntry>, c: string) {
    exists j :: 0 <= j < |entries| && entries[j].CategoryDir? && entries[j].name == c
  }

  /** A category directory among the later entries is one of all the entries. */
  lemma CategoriesOfTail(entries: seq<CategoryEntry>, rules: seq<Rule>)
    requires |entries| > 0
    requires forall k :: 0 <= k < |rules| ==> IsCategoryOf(entries[1..], rules[k].category)
    ensures forall k :: 0 <= k < |rules| ==> IsCategoryOf(entries, rules[k].category)
  {
    forall k | 0 <= k < |rules| ensures IsCategoryOf(entries, rules[k].category) {
      assert IsCategoryOf(entries[1..], rules[k].category);
      var j :| 0 <= j < |entries[1..]| && entries[1..][j].CategoryDir? && entries[1..][j].name == rules[k].category;
      assert entries[j + 1] == entries[1..][j];
    }
  }

  /** The first entry's rules followed by the later entries' rules all name a
      category directory among the entries. */
  lemma CategoriesOfHeadAndTail(entries: seq<CategoryEntry>, here: seq<Rule>, rest: seq<Rule>)
    requires |entries| > 0 && entries[0].CategoryDir?
    requires forall k :: 0 <= k < |here| ==> here[k].category == entries[0].name
    requires forall k :: 0 <= k < |rest| ==> IsCategoryOf(entries[1..], rest[k].category)
    ensures forall k :: 0 <= k < |here + rest| ==> IsCategoryOf(entries, (here + rest)[k].category)
  {
    CategoriesOfTail(entries, rest);
    var all := here + rest;
    forall k | 0 <= k < |all| ensures IsCategoryOf(entries, all[k].category) {
      if k < |here| {
        assert all[k] == here[k];
        assert entries[0].CategoryDir? && entries[0].name == all[k].category;
      } else {
        assert all[k] == rest[k - |here|];
      }
    }
  }

  /** `scanRulesDirectory`: an unreadable rules directory gives no rules; entries
      that are not directories are skipped; any later error ends the scan with
      what was found before it. */
  function ScanEntries(entries: seq<CategoryEntry>): (r: Scan)
    ensures forall k :: 0 <= k < |r.rules| ==> EndsWithMd(r.rules[k].file)
    ensures forall k :: 0 <= k < |r.rules| ==> IsCategoryOf(entries, r.rules[k].category)
    decreases |entries|
  {
    if |entries| == 0 then Scan([], false)
    else
      match entries[0]
      case NotDirectory(_) =>
        var rest := ScanEntries(entries[1..]);
        CategoriesOfTail(entries, rest.rules);
        rest
      case StatFailed(_) => Scan([], true)
      case CategoryDir(name, files) =>
        match files
        case Err(_) => Scan([], true)
        case Ok(fs) =>
          var here := ScanFiles(name, fs);
          if here.failed then here
          else
            var rest := ScanEntries(entries[1..]);
            CategoriesOfHeadAndTail(entries, here.rules, rest.rules);
            Scan(here.rules + rest.rules, rest.failed)
  }

  function ScanRules(dir: Result<seq<CategoryEntry>>): seq<Rule> {
    match dir
    case Err(_) => []
    case Ok(entries) => ScanEntries(entries).rules
  }

  /** The number of `.md` files of a category's listing. */
  function MdCount(files: seq<RuleFile>): nat
    decreases |files|
  {
    if |files| == 0 then 0 else (if EndsWithMd(files[0].name) then 1 else 0) + MdCount(files[1..])
  }

  /** Without read errors every `.md` file becomes exactly one rule. */
  lemma {:induction false} ScanFilesComplete(category: string, files: seq<RuleFile>)
    requires forall k :: 0 <= k < |files| ==> files[k].content.Ok?
    ensures !ScanFiles(category, files).failed
    ensures |ScanFiles(category, files).rules| == MdCount(files)
    decreases |files|
  {
    if |files| > 0 {
      ScanFilesComplete(category, files[1..]);
    }
  }

  // ---- rules_list and rules_by_category ----

  function InCategory(category: string): Rule -> bool {
    (r: Rule) => r.category == category
  }

  predicate Truthy(s: Option<string>) {
    s.Some? && s.value != ""
  }

  /** The rules `rules_list` shows: all of them, or, for a non-empty category,
      exactly those of that category, in scan order. */
  function ListedRules(rules: seq<Rule>, category: Option<string>): (r: seq<Rule>)
    ensures Truthy(category) ==> forall x :: x in r <==> x in rules && x.category == category.value
    ensures !Truthy(category) ==> r == rules
  {
    if Truthy(category) then Filter(rules, InCategory(category.value)) else rules
  }

  /** The tag text of `rules_list`: "None" only when there are no tags. */
  function TagsText(tags: seq<string>): string {
    if |tags| > 0 then Join(tags, ", ") else "None"
  }

  /** The tag text of `rules_search` and `rules_by_category`: "None" whenever
      the joined tags are empty, including a single empty tag. */
  function JoinedOrNone(tags: seq<string>): string {
    if Join(tags, ", ") != "" then Join(tags, ", ") else "None"
  }

  /** A rule whose only tag is empty shows an empty tag list in `rules_list`
      but "None" in `rules_search` and `rules_by_category`. */
  lemma SingleEmptyTagShownDifferently()
    ensures TagsText([""]) == "" && JoinedOrNone([""]) == "None"
  {
  }

  function ListEntry(r: Rule): string {
    "  - **" + r.title + "** (`" + r.id + "`)\n    " + r.description + "\n    Tags: " + TagsText(r.tags)
  }

  function ListEntries(rules: seq<Rule>): (r: seq<string>)
    ensures |r| == |rules|
  {
    seq(|rules|, k requires 0 <= k < |rules| => ListEntry(rules[k]))
  }

  function Categories(rules: seq<Rule>): (r: seq<string>)
    ensures |r| == |rules|
    ensures forall k :: 0 <= k < |r| ==> r[k] == rules[k].category
  {
    seq(|rules|, k requires 0 <= k < |rules| => rules[k].category)
  }

  // ---- the own-key order of a plain object ----

  /** A canonical array index: the decimal form, without leading zeros, of an
      integer below 2^32 - 1. */
  predicate IsArrayIndex(key: string) {
    |key| > 0 && (forall k :: 0 <= k < |key| ==> IsDigit(key[k]))
    && (key[0] != '0' || |key| == 1) && DecimalValue(key) < 0xffff_ffff
  }

  predicate IsNamedKey(key: string) {
    !IsArrayIndex(key)
  }

  /** The numeric value of an array index; named keys all weigh 0. */
  function IndexValue(key: string): nat {
    if IsArrayIndex(key) then DecimalValue(key) else 0
  }

  /** Every array index among `keys` follows only array indices of no greater
      value: the array indices come first, in ascending order. */
  predicate IndicesAscending(keys: seq<string>) {
    forall k :: 0 < k < |keys| && IsArrayIndex(keys[k]) ==>
      IsArrayIndex(keys[k - 1]) && IndexValue(keys[k - 1]) <= IndexValue(keys[k])
  }

  predicate IndexLeq(a: string, b: string) {
    IndexValue(a) <= IndexValue(b)
  }

  /** The order in which `Object.entries` lists the keys of an object built by
      inserting `keys` in turn: array indices first, in ascending numeric
      order, then the named keys in insertion order. */
  function OwnKeyOrder(keys: seq<string>): (r: seq<string>)
    ensures multiset(r) == multiset(keys)
    ensures IndicesAscending(r)
    ensures Filter(r, IsNamedKey) == Filter(keys, IsNamedKey)
  {
    IndexOrderTotal();
    var sorted := Sort(Filter(keys, IsArrayIndex), IndexLeq);
    SortedIndices(keys, sorted);
    IndicesFirst(sorted, Filter(keys, IsNamedKey));
    FilterSplit(keys);
    sorted + Filter(keys, IsNamedKey)
  }

  lemma IndexOrderTotal()
    ensures Total(IndexLeq)
  {
  }

  /** A reordering of the array indices of `keys` holds only array indices. */
  lemma SortedIndices(keys: seq<string>, sorted: seq<string>)
    requires multiset(sorted) == multiset(Filter(keys, IsArrayIndex))
    ensures forall k :: 0 <= k < |sorted| ==> IsArrayIndex(sorted[k])
  {
    var indices := Filter(keys, IsArrayIndex);
    forall k | 0 <= k < |sorted| ensures IsArrayIndex(sorted[k]) {
      assert sorted[k] in multiset(indices);
      var j :| 0 <= j < |indices| && indices[j] == sorted[k];
    }
  }

  /** Sorted array indices followed by named keys: an array index is preceded
      only by a smaller one, and the named keys are the named part. */
  lemma IndicesFirst(sorted: seq<string>, named: seq<string>)
    requires forall k :: 0 <= k < |sorted| ==> IsArrayIndex(sorted[k])
    requires Sorted(sorted, IndexLeq)
    requires forall k :: 0 <= k < |named| ==> IsNamedKey(named[k])
    ensures IndicesAscending(sorted + named)
    ensures Filter(sorted + named, IsNamedKey) == named
  {
    var all := sorted + named;
    forall k | 0 < k < |all| && IsArrayIndex(all[k])
      ensures IsArrayIndex(all[k - 1]) && IndexValue(all[k - 1]) <= IndexValue(all[k])
    {
      assert k < |sorted|;
      assert IndexLeq(sorted[k - 1], sorted[k]);
    }
    FilterAll(named, IsNamedKey);
    FilterNone(sorted, IsNamedKey);
    FilterAppend(sorted, named, IsNamedKey);
  }

  /** The array indices and the named keys of `keys` are all of them. */
  lemma {:induction false} FilterSplit(keys: seq<string>)
    ensures multiset(Filter(keys, IsArrayIndex)) + multiset(Filter(keys, IsNamedKey)) == multiset(keys)
    decreases |keys|
  {
    if |keys| > 0 {
      var x, rest := keys[0], keys[1..];
      FilterSplit(rest);
      var indices, named := Filter(rest, IsArrayIndex), Filter(rest, IsNamedKey);
      assert keys == [x] + rest;
      if IsArrayIndex(x) {
        assert Filter(keys, IsArrayIndex) == [x] + indices;
        assert Filter(keys, IsNamedKey) == named;
      } else {
        assert Filter(keys, IsArrayIndex) == indices;
        assert Filter(keys, IsNamedKey) == [x] + named;
      }
      assert multiset(keys) == multiset{x} + multiset(rest);
    }
  }

  lemma {:induction false} FilterAll(xs: seq<string>, p: string -> bool)
    requires forall k :: 0 <= k < |xs| ==> p(xs[k])
    ensures Filter(xs, p) == xs
    decreases |xs|
  {
    if |xs| > 0 {
      FilterAll(xs[1..], p);
      assert xs == [xs[0]] + xs[1..];
    }
  }

  lemma {:induction false} FilterNone(xs: seq<string>, p: string -> bool)
    requires forall k :: 0 <= k < |xs| ==> !p(xs[k])
    ensures Filter(xs, p) == []
    decreases |xs|
  {
    if |xs| > 0 {
      FilterNone(xs[1..], p);
    }
  }

  // ---- rules_list ----

  function GroupKeys(gs: seq<(string, seq<Rule>)>): (r: seq<string>)
    ensures |r| == |gs| && forall k :: 0 <= k < |gs| ==> r[k] == gs[k].0
  {
    seq(|gs|, k requires 0 <= k < |gs| => gs[k].0)
  }

  /** The groups `rules_list` builds in `byCategory`, in the order
      `Object.entries` lists them: one per category, each holding that
      category's rules in scan order. Categories that are array indices come
      first, in ascending numeric order; the other categories follow in the
      order of their first rule. */
  function Groups(rules: seq<Rule>): (r: seq<(string, seq<Rule>)>)
    ensures |r| == |Dedup(Categories(rules))|
    ensures forall c :: c in GroupKeys(r) <==> c in Categories(rules)
    ensures NoDuplicates(GroupKeys(r))
    ensures forall k :: 0 <= k < |r| ==> r[k].1 == Filter(rules, InCategory(r[k].0))
    ensures IndicesAscending(GroupKeys(r))
    ensures Filter(GroupKeys(r), IsNamedKey) == Filter(Dedup(Categories(rules)), IsNamedKey)
  {
    var cats := Dedup(Categories(rules));
    var order := OwnKeyOrder(cats);
    DedupSpec(Categories(rules));
    PermutationKeepsMembers(cats, order);
    PermutationKeepsDistinct(cats, order);
    assert |order| == |multiset(order)| == |multiset(cats)| == |cats|;
    GroupsOver(rules, order)
  }

  function GroupsOver(rules: seq<Rule>, keys: seq<string>): (r: seq<(string, seq<Rule>)>)
    ensures GroupKeys(r) == keys
    ensures forall k :: 0 <= k < |r| ==> r[k].1 == Filter(rules, InCategory(r[k].0))
  {
    var r := seq(|keys|, k requires 0 <= k < |keys| => (keys[k], Filter(rules, InCategory(keys[k]))));
    assert GroupKeys(r) == keys;
    r
  }

  function GroupText(g: (string, seq<Rule>)): string {
    "## " + g.0 + "\n\n" + Join(ListEntries(g.1), "\n\n")
  }

  function GroupTexts(gs: seq<(string, seq<Rule>)>): (r: seq<string>)
    ensures |r| == |gs|
  {
    seq(|gs|, k requires 0 <= k < |gs| => GroupText(gs[k]))
  }

  /** Some rule's category names a property every object inherits. */
  predicate HasInheritedCategory(rules: seq<Rule>) {
    exists k :: 0 <= k < |rules| && InheritedName(rules[k].category)
  }

  /** What V8 throws at `acc[rule.category].push(rule)` when `acc[rule.category]`
      is an inherited method (or, for `__proto__`, the prototype) rather than
      an array. */
  const PushError := "TypeError: acc[rule.category].push is not a function"

  const ListHeading := "# Development Rules\n\nTotal: "

  /** `rules_list`. Grouping throws as soon as a rule's category is an
      inherited name: `acc[category]` is already truthy, so no array is put
      there, and the inherited value has no `push`. */
  function RulesListTool(rules: seq<Rule>, category: Option<string>): (r: Result<string>)
    ensures |ListedRules(rules, category)| == 0 && Truthy(category) ==>
      r == Ok("No rules found in category: " + category.value)
    ensures |ListedRules(rules, category)| == 0 && !Truthy(category) ==>
      r == Ok("No rules found. Create rules in the ./rules directory.")
    ensures r.Err? <==> |ListedRules(rules, category)| > 0 && HasInheritedCategory(ListedRules(rules, category))
    ensures r.Err? ==> r.message == PushError
    ensures r.Ok? && |ListedRules(rules, category)| > 0 ==>
      ListHeading + NatToString(|ListedRules(rules, category)|) + " rules\n\n" <= r.value
    ensures r.Ok? && |ListedRules(rules, category)| > 0 ==>
      forall k :: 0 <= k < |ListedRules(rules, category)| ==>
        Contains(r.value, "## " + ListedRules(rules, category)[k].category + "\n\n")
        && Contains(r.value, ListEntry(ListedRules(rules, category)[k]))
  {
    var listed := ListedRules(rules, category);
    if |listed| == 0 then
      if Truthy(category) then Ok("No rules found in category: " + category.value)
      else Ok("No rules found. Create rules in the ./rules directory.")
    else if HasInheritedCategory(listed) then Err(PushError)
    else
      var head := ListHeading + NatToString(|listed|) + " rules\n\n";
      var body := Join(GroupTexts(Groups(listed)), "\n\n");
      forall k | 0 <= k < |listed|
        ensures Contains(head + body, "## " + listed[k].category + "\n\n")
        ensures Contains(head + body, ListEntry(listed[k]))
      {
        ListingShowsRule(listed, k, head);
      }
      assert head <= head + body;
      Ok(head + body)
  }

  /** The listing of `rules` shows each rule under the heading of its category. */
  lemma ListingShowsRule(rules: seq<Rule>, k: nat, head: string)
    requires k < |rules|
    ensures Contains(head + Join(GroupTexts(Groups(rules)), "\n\n"), "## " + rules[k].category + "\n\n")
    ensures Contains(head + Join(GroupTexts(Groups(rules)), "\n\n"), ListEntry(rules[k]))
  {
    var gs := Groups(rules);
    var i := GroupOf(rules, k);
    GroupTextShows(gs[i], rules[k]);
    ListingHasGroup(head, gs, i);
    var whole := head + Join(GroupTexts(gs), "\n\n");
    ContainsTransitive(whole, GroupText(gs[i]), ListEntry(rules[k]));
    ContainsTransitive(whole, GroupText(gs[i]), "## " + rules[k].category + "\n\n");
  }

  /** The group a rule falls in. */
  lemma GroupOf(rules: seq<Rule>, k: nat) returns (i: nat)
    requires k < |rules|
    ensures i < |Groups(rules)| && Groups(rules)[i].0 == rules[k].category
    ensures rules[k] in Groups(rules)[i].1
  {
    var gs := Groups(rules);
    var c := rules[k].category;
    assert Categories(rules)[k] == c;
    assert c in GroupKeys(gs);
    i :| 0 <= i < |gs| && GroupKeys(gs)[i] == c;
    assert gs[i].1 == Filter(rules, InCategory(c));
    assert rules[k] in rules && InCategory(c)(rules[k]);
  }

  /** A group's text holds its heading and the entry of each of its rules. */
  lemma GroupTextShows(g: (string, seq<Rule>), rule: Rule)
    requires rule in g.1
    ensures Contains(GroupText(g), "## " + g.0 + "\n\n")
    ensures Contains(GroupText(g), ListEntry(rule))
  {
    var j :| 0 <= j < |g.1| && g.1[j] == rule;
    var entries := ListEntries(g.1);
    var title := "## " + g.0 + "\n\n";
    var list := Join(entries, "\n\n");
    assert entries[j] == ListEntry(rule);
    JoinHasPart(entries, "\n\n", j);
    assert GroupText(g) == title + list + "";
    ContainsInMiddle(title, list, "", ListEntry(rule));
    assert GroupText(g) == "" + title + list;
    ContainsSelf(title);
    ContainsInMiddle("", title, list, title);
  }

  /** The listing holds the text of each group. */
  lemma ListingHasGroup(head: string, gs: seq<(string, seq<Rule>)>, i: nat)
    requires i < |gs|
    ensures Contains(head + Join(GroupTexts(gs), "\n\n"), GroupText(gs[i]))
  {
    var body := Join(GroupTexts(gs), "\n\n");
    JoinHasPart(GroupTexts(gs), "\n\n", i);
    assert head + body == head + body + "";
    ContainsInMiddle(head, body, "", GroupTexts(gs)[i]);
  }

  /** A listing with a rule of category `constructor` fails instead. */
  lemma InheritedCategoryFails(rule: Rule)
    requires rule.category == "constructor"
    ensures RulesListTool([rule], None).Err?
  {
    assert InheritedName(rule.category);
    assert ListedRules([rule], None) == [rule];
  }

  /** The groups partition the rules: their sizes add up to the number of rules. */
  lemma GroupsPartition(rules: seq<Rule>)
    ensures GroupSizes(Groups(rules)) == |rules|
  {
    var gs := Groups(rules);
    var keys := GroupKeys(gs);
    forall k | 0 <= k < |rules| ensures rules[k].category in keys {
      assert rules[k].category in Categories(rules);
    }
    CountsCoverAll(rules, keys);
    GroupSizesAreCounts(rules, keys);
    assert GroupsOver(rules, keys) == gs;
  }

  function GroupSizes(gs: seq<(string, seq<Rule>)>): nat
    decreases |gs|
  {
    if |gs| == 0 then 0 else |gs[0].1| + GroupSizes(gs[1..])
  }

  lemma {:induction false} GroupSizesAreCounts(rules: seq<Rule>, cats: seq<string>)
    ensures GroupSizes(GroupsOver(rules, cats)) == CountSum(rules, cats)
    decreases |cats|
  {
    if |cats| > 0 {
      assert GroupsOver(rules, cats)[1..] == GroupsOver(rules, cats[1..]);
      GroupSizesAreCounts(rules, cats[1..]);
    }
  }

  /** The number of rules of one category. */
  function CountIn(rules: seq<Rule>, category: string): nat {
    |Filter(rules, InCategory(category))|
  }

  function CountSum(rules: seq<Rule>, cats: seq<string>): nat
    decreases |cats|
  {
    if |cats| == 0 then 0 else CountIn(rules, cats[0]) + CountSum(rules, cats[1..])
  }

  lemma {:induction false} CountSumNoRules(cats: seq<string>)
    ensures CountSum([], cats) == 0
    decreases |cats|
  {
    if |cats| > 0 {
      CountSumNoRules(cats[1..]);
    }
  }

  /** Counting over distinct categories that cover every rule counts each rule once. */
  lemma {:induction false} CountsCoverAll(rules: seq<Rule>, cats: seq<string>)
    requires NoDuplicates(cats)
    requires forall k :: 0 <= k < |rules| ==> rules[k].category in cats
    ensures CountSum(rules, cats) == |rules|
    decreases |rules|
  {
    if |rules| > 0 {
      var init := rules[..|rules| - 1];
      var last := rules[|rules| - 1];
      assert rules == init + [last];
      CountsCoverAll(init, cats);
      CountSumSnoc(init, last, cats);
      OneCategoryMatches(cats, last.category);
    } else {
      CountSumNoRules(cats);
    }
  }

  /** How many of `cats` equal `c`. */
  function Hits(cats: seq<string>, c: string): nat
    decreases |cats|
  {
    if |cats| == 0 then 0 else (if cats[0] == c then 1 else 0) + Hits(cats[1..], c)
  }

  lemma {:induction false} OneCategoryMatches(cats: seq<string>, c: string)
    requires NoDuplicates(cats) && c in cats
    ensures Hits(cats, c) == 1
    decreases |cats|
  {
    NoDuplicatesCons(cats[0], cats[1..]);
    assert [cats[0]] + cats[1..] == cats;
    if cats[0] == c {
      NoHits(cats[1..], c);
    } else {
      OneCategoryMatches(cats[1..], c);
    }
  }

  lemma {:induction false} NoHits(cats: seq<string>, c: string)
    requires c !in cats
    ensures Hits(cats, c) == 0
    decreases |cats|
  {
    if |cats| > 0 {
      NoHits(cats[1..], c);
    }
  }

  lemma {:induction false} CountSumSnoc(rules: seq<Rule>, last: Rule, cats: seq<string>)
    ensures CountSum(rules + [last], cats) == CountSum(rules, cats) + Hits(cats, last.category)
    decreases |cats|
  {
    if |cats| > 0 {
      FilterAppend(rules, [last], InCategory(cats[0]));
      CountSumSnoc(rules, last, cats[1..]);
    }
  }

  function CategoryEntryText(r: Rule): string {
    "## " + r.title + "\n**ID:** `" + r.id + "`\n" + r.description + "\n**Tags:** " + JoinedOrNone(r.tags)
  }

  function CategoryEntryTexts(rules: seq<Rule>): (r: seq<string>)
    ensures |r| == |rules|
    ensures forall k :: 0 <= k < |r| ==> r[k] == CategoryEntryText(rules[k])
  {
    seq(|rules|, k requires 0 <= k < |rules| => CategoryEntryText(rules[k]))
  }

  /** The heading of a non-empty `rules_by_category` answer, with its count. */
  function CategoryHeading(category: string, count: nat): string {
    "# " + category + " Rules\n\nTotal: " + NatToString(count) + "\n\n"
  }

  /** `rules_by_category`: exactly the rules of that category, or a message when none. */
  function RulesByCategoryTool(rules: seq<Rule>, category: string): (r: string)
    ensures CountIn(rules, category) == 0 <==> r == "No rules found in category: " + category
    ensures CountIn(rules, category) > 0 ==> CategoryHeading(category, CountIn(rules, category)) <= r
    ensures CountIn(rules, category) > 0 ==> InOrder(r, CategoryEntryTexts(Filter(rules, InCategory(category))))
  {
    var found := Filter(rules, InCategory(category));
    if |found| == 0 then "No rules found in category: " + category
    else
      var head := CategoryHeading(category, |found|);
      var body := Join(CategoryEntryTexts(found), "\n\n");
      var t := head + body;
      assert t[0] == '#';
      assert head <= t;
      JoinInOrder(CategoryEntryTexts(found), "\n\n");
      InOrderAfter(head, body, CategoryEntryTexts(found));
      t
  }

  /** Every rule of the category has its entry in the `rules_by_category` answer. */
  lemma RulesByCategoryShowsRule(rules: seq<Rule>, category: string, x: Rule)
    requires x in rules && x.category == category
    ensures Contains(RulesByCategoryTool(rules, category), CategoryEntryText(x))
  {
    var found := Filter(rules, InCategory(category));
    assert InCategory(category)(x);
    var k :| 0 <= k < |found| && found[k] == x;
    InOrderHasPart(RulesByCategoryTool(rules, category), CategoryEntryTexts(found), 0, k);
  }

  // ---- rules_get ----

  /** The first rule with the given id. */
  function FindRule(rules: seq<Rule>, id: string): (r: Option<Rule>)
    ensures r.Some? ==> r.value in rules && r.value.id == id
    decreases |rules|
  {
    if |rules| == 0 then None
    else if rules[0].id == id then Some(rules[0])
    else FindRule(rules[1..], id)
  }

  /** `find` fails exactly when no rule has the id, and otherwise returns the
      first rule that has it. */
  lemma {:induction false} FindRuleFirst(rules: seq<Rule>, id: string)
    ensures FindRule(rules, id).None? <==> forall k :: 0 <= k < |rules| ==> rules[k].id != id
    ensures FindRule(rules, id).Some? ==>
      (exists k :: 0 <= k < |rules| && rules[k] == FindRule(rules, id).value && forall j :: 0 <= j < k ==> rules[j].id != id)
    decreases |rules|
  {
    if |rules| > 0 && rules[0].id != id {
      var tail := rules[1..];
      FindRuleFirst(tail, id);
      var r := FindRule(tail, id);
      if r.Some? {
        var k :| 0 <= k < |tail| && tail[k] == r.value && forall j :: 0 <= j < k ==> tail[j].id != id;
        assert rules[k + 1] == r.value;
        forall j | 0 <= j < k + 1 ensures rules[j].id != id {
          if j > 0 { assert rules[j] == tail[j - 1]; }
        }
      } else {
        forall k | 0 <= k < |rules| ensures rules[k].id != id {
          if k > 0 { assert rules[k] == tail[k - 1]; }
        }
      }
    } else if |rules| > 0 {
      assert rules[0] == FindRule(rules, id).value;
    }
  }

  /** `rules_get`: the rule is found by its exact id, then its file is read
      again; `read` is the outcome of that read. */
  function RulesGetTool(rules: seq<Rule>, id: string, read: Result<string>): (r: string)
    ensures FindRule(rules, id).None? <==> r == "Rule not found: " + id
    ensures FindRule(rules, id).Some? && read.Err? ==> r == "Error reading rule: " + read.message
    ensures FindRule(rules, id).Some? && read.Ok? ==>
      "# " + FindRule(rules, id).value.title <= r && |read.value| <= |r| && r[|r| - |read.value|..] == read.value
  {
    match FindRule(rules, id)
    case None => "Rule not found: " + id
    case Some(rule) =>
      match read
      case Err(m) =>
        var t := "Error reading rule: " + m;
        assert t[0] != ("Rule not found: " + id)[0];
        t
      case Ok(content) =>
        var head := "# " + rule.title + "\n\nCategory: " + rule.category + "\nID: " + rule.id + "\n\n---\n\n";
        var t := head + content;
        assert t[|t| - |content|..] == content;
        assert "# " + rule.title <= t;
        assert t[0] != ("Rule not found: " + id)[0];
        t
  }

  // ---- rules_search ----

  /** A rule matches a query when its title, description, some tag or its
      category contains the query, ignoring case. */
  function MatchesQuery(query: string): Rule -> bool {
    (r: Rule) => ContainsIgnoreCase(r.title, query) || ContainsIgnoreCase(r.description, query)
      || (exists k :: 0 <= k < |r.tags| && ContainsIgnoreCase(r.tags[k], query))
      || ContainsIgnoreCase(r.category, query)
  }

  function SearchEntry(r: Rule): string {
    "### " + r.title + " (`" + r.id + "`)\n**Category:** " + r.category + "\n**Description:** " + r.description
    + "\n**Tags:** " + JoinedOrNone(r.tags)
  }

  function SearchEntries(rules: seq<Rule>): (r: seq<string>)
    ensures |r| == |rules|
    ensures forall k :: 0 <= k < |r| ==> r[k] == SearchEntry(rules[k])
  {
    seq(|rules|, k requires 0 <= k < |rules| => SearchEntry(rules[k]))
  }

  /** The rules `rules_search` reports: every matching rule, in scan order. */
  function SearchMatches(rules: seq<Rule>, query: string): (r: seq<Rule>)
    ensures forall x :: x in r <==> x in rules && MatchesQuery(query)(x)
  {
    Filter(rules, MatchesQuery(query))
  }

  /** The heading of a non-empty `rules_search` answer, with its count. */
  function SearchHeading(query: string, count: nat): string {
    "# Search Results: \"" + query + "\"\n\nFound " + NatToString(count) + " matching rules\n\n"
  }

  /** `rules_search`: the count of matching rules, then each one's entry in scan order. */
  function RulesSearchTool(rules: seq<Rule>, query: string): (r: string)
    ensures |SearchMatches(rules, query)| == 0 <==> r == "No rules found matching: \"" + query + "\""
    ensures |SearchMatches(rules, query)| > 0 ==> SearchHeading(query, |SearchMatches(rules, query)|) <= r
    ensures |SearchMatches(rules, query)| > 0 ==> InOrder(r, SearchEntries(SearchMatches(rules, query)))
  {
    var found := SearchMatches(rules, query);
    if |found| == 0 then "No rules found matching: \"" + query + "\""
    else
      var head := SearchHeading(query, |found|);
      var body := Join(SearchEntries(found), "\n\n");
      var t := head + body;
      assert t[0] == '#';
      assert head <= t;
      JoinInOrder(SearchEntries(found), "\n\n");
      InOrderAfter(head, body, SearchEntries(found));
      t
  }

  /** Every matching rule has its entry in the `rules_search` answer. */
  lemma RulesSearchShowsRule(rules: seq<Rule>, query: string, x: Rule)
    requires x in rules && MatchesQuery(query)(x)
    ensures Contains(RulesSearchTool(rules, query), SearchEntry(x))
  {
    var found := SearchMatches(rules, query);
    var k :| 0 <= k < |found| && found[k] == x;
    InOrderHasPart(RulesSearchTool(rules, query), SearchEntries(found), 0, k);
  }

  /** A rule of the searched category is always found. */
  lemma SearchFindsCategory(rules: seq<Rule>, r: Rule)
    requires r in rules
    ensures r in SearchMatches(rules, r.category)
  {
    ContainsIgnoreCaseSelf(r.category);
  }

  lemma ContainsIgnoreCaseSelf(s: string)
    ensures ContainsIgnoreCase(s, s)
  {
    var t := ToLower(s);
    assert OccursAt(t, t, 0) by {
      assert t[0..|t|] == t;
    }
    ContainsWitness(t, t, 0);
  }

  // ---- rules_categories ----

  /** JavaScript's default string order: code unit by code unit, a proper
      prefix first. */
  predicate StringLeq(a: string, b: string)
    decreases |a|
  {
    |a| == 0 || (|b| > 0 && (a[0] < b[0] || (a[0] == b[0] && StringLeq(a[1..], b[1..]))))
  }

  lemma {:induction false} StringLeqTotal(a: string, b: string)
    ensures StringLeq(a, b) || StringLeq(b, a)
    decreases |a|
  {
    if |a| > 0 && |b| > 0 && a[0] == b[0] {
      StringLeqTotal(a[1..], b[1..]);
    }
  }

  /** `leq` puts every pair of strings in some order. */
  ghost predicate Total(leq: (string, string) -> bool) {
    forall a, b :: leq(a, b) || leq(b, a)
  }

  predicate Sorted(xs: seq<string>, leq: (string, string) -> bool) {
    forall k :: 0 < k < |xs| ==> leq(xs[k - 1], xs[k])
  }

  function Insert(x: string, xs: seq<string>, leq: (string, string) -> bool): (r: seq<string>)
    requires Total(leq) && Sorted(xs, leq)
    ensures Sorted(r, leq)
    ensures multiset(r) == multiset(xs) + multiset{x}
    ensures r[0] == x || (|xs| > 0 && r[0] == xs[0])
    decreases |xs|
  {
    if |xs| == 0 || leq(x, xs[0]) then [x] + xs
    else
      var rest := Insert(x, xs[1..], leq);
      assert xs == [xs[0]] + xs[1..];
      [xs[0]] + rest
  }

  /** `sort(compare)` for a total order: an ordered permutation of its input. */
  function Sort(xs: seq<string>, leq: (string, string) -> bool): (r: seq<string>)
    requires Total(leq)
    ensures Sorted(r, leq)
    ensures multiset(r) == multiset(xs)
    decreases |xs|
  {
    if |xs| == 0 then []
    else
      assert xs == [xs[0]] + xs[1..];
      Insert(xs[0], Sort(xs[1..], leq), leq)
  }

  lemma StringOrderTotal()
    ensures Total(StringLeq)
  {
    forall a, b ensures StringLeq(a, b) || StringLeq(b, a) {
      StringLeqTotal(a, b);
    }
  }

  /** The categories `rules_categories` lists: each once, in sorted order. */
  function CategoryList(rules: seq<Rule>): (r: seq<string>)
    ensures Sorted(r, StringLeq)
    ensures forall c :: c in r <==> exists k :: 0 <= k < |rules| && rules[k].category == c
    ensures NoDuplicates(r)
  {
    var cats := Categories(rules);
    DedupSpec(cats);
    StringOrderTotal();
    var r := Sort(Dedup(cats), StringLeq);
    PermutationKeepsMembers(Dedup(cats), r);
    PermutationKeepsDistinct(Dedup(cats), r);
    r
  }

  lemma PermutationKeepsMembers(a: seq<string>, b: seq<string>)
    requires multiset(a) == multiset(b)
    ensures forall c :: c in a <==> c in b
  {
    forall c ensures c in a <==> c in b {
      assert c in a <==> c in multiset(a);
      assert c in b <==> c in multiset(b);
    }
  }

  /** Two equal elements at different positions count twice. */
  lemma TwoCopies<T>(b: seq<T>, i: int, j: int)
    requires 0 <= i < j < |b| && b[i] == b[j]
    ensures multiset(b)[b[i]] >= 2
  {
    assert b == b[..j] + b[j..];
    assert multiset(b) == multiset(b[..j]) + multiset(b[j..]);
    assert b[..j][i] == b[i];
    assert b[j..][0] == b[j];
  }

  lemma PermutationKeepsDistinct(a: seq<string>, b: seq<string>)
    requires NoDuplicates(a) && multiset(a) == multiset(b)
    ensures NoDuplicates(b)
  {
    forall i, j | 0 <= i < j < |b| ensures b[i] != b[j] {
      if b[i] == b[j] {
        TwoCopies(b, i, j);
        DistinctCountOne(a, b[i]);
      }
    }
  }

  lemma {:induction false} DistinctCountOne(a: seq<string>, x: string)
    requires NoDuplicates(a)
    ensures multiset(a)[x] <= 1
    decreases |a|
  {
    if |a| > 0 {
      NoDuplicatesCons(a[0], a[1..]);
      assert a == [a[0]] + a[1..];
      DistinctCountOne(a[1..], x);
      if a[0] == x {
        assert multiset(a[1..])[x] == 0;
      }
    }
  }

  function CategoryLine(rules: seq<Rule>, c: string): string {
    "- **" + c + "**: " + NatToString(CountIn(rules, c)) + " rules"
  }

  function CategoryLines(rules: seq<Rule>, cats: seq<string>): (r: seq<string>)
    ensures |r| == |cats|
  {
    seq(|cats|, k requires 0 <= k < |cats| => CategoryLine(rules, cats[k]))
  }

  /** `rules_categories`: the number of distinct categories, then one line
      per category with its rule count. */
  function RulesCategoriesTool(rules: seq<Rule>): (r: string)
    ensures "# Rule Categories\n\nTotal: " + NatToString(|set k | 0 <= k < |rules| :: rules[k].category|)
            + " categories\n\n" <= r
    ensures forall k :: 0 <= k < |rules| ==> Contains(r, CategoryLine(rules, rules[k].category))
  {
    var cats := CategoryList(rules);
    DistinctCategoryCount(rules);
    var head := "# Rule Categories\n\nTotal: " + NatToString(|cats|) + " categories\n\n";
    var lines := CategoryLines(rules, cats);
    forall k | 0 <= k < |rules| ensures Contains(head + Join(lines, "\n"), CategoryLine(rules, rules[k].category)) {
      assert rules[k].category in cats;
      var i :| 0 <= i < |cats| && cats[i] == rules[k].category;
      JoinHasPart(lines, "\n", i);
      ContainsInMiddle(head, Join(lines, "\n"), "", lines[i]);
      assert head + Join(lines, "\n") + "" == head + Join(lines, "\n");
    }
    head + Join(lines, "\n")
  }

  /** The category list is as long as the set of categories of the rules. */
  lemma DistinctCategoryCount(rules: seq<Rule>)
    ensures |CategoryList(rules)| == |set k | 0 <= k < |rules| :: rules[k].category|
  {
    var cats := CategoryList(rules);
    NoDuplicatesCardinality(cats);
    assert (set x | x in cats) == (set k | 0 <= k < |rules| :: rules[k].category);
  }

  /** The per-category counts of `rules_categories` add up to the number of rules. */
  lemma CategoryCountsSum(rules: seq<Rule>)
    ensures CountSum(rules, CategoryList(rules)) == |rules|
  {
    var cats := CategoryList(rules);
    forall k | 0 <= k < |rules| ensures rules[k].category in cats {
    }
    CountsCoverAll(rules, cats);
  }
}

=== FILE: seqs.dfy ===
/** Sequence operations of JavaScript arrays: `slice(0, n)`, `filter`,
    `[...new Set(xs)]`, and a few counting helpers. */
module Seqs {

  /** The end index `slice(0, n)` uses: a negative `n` counts back from the end. */
  function SliceEnd(len: nat, n: int): (e: nat)
    ensures e <= len
    ensures n >= 0 ==> e == if n < len then n else len
    ensures n < 0 ==> e == if len + n > 0 then len + n else 0
  {
    if n >= 0 then (if n < len then n else len)
    else if len + n > 0 then len + n else 0
  }

  /** `xs.slice(0, n)`. */
  function Take<T>(xs: seq<T>, n: int): (r: seq<T>)
    ensures r <= xs
    ensures 0 <= n ==> |r| == if n < |xs| then n else |xs|
  {
    xs[..SliceEnd(|xs|, n)]
  }

  /** The first `n` elements: none when `n` is not positive, all when `n` reaches the length. */
  function FirstN<T>(xs: seq<T>, n: int): (r: seq<T>)
    ensures r <= xs
    ensures |r| == if n <= 0 then 0 else if n < |xs| then n else |xs|
  {
    if n <= 0 then [] else if n < |xs| then xs[..n] else xs
  }

  /** Taking from a concatenation takes from the left part first. */
  lemma FirstNAppend<T>(a: seq<T>, b: seq<T>, n: int)
    ensures FirstN(a + b, n) == FirstN(a, n) + FirstN(b, n - |FirstN(a, n)|)
  {
    if 0 < n < |a| {
      assert (a + b)[..n] == a[..n];
    } else if n >= |a| && n < |a + b| {
      assert (a + b)[..n] == a + b[..n - |a|];
    }
  }

  /** `xs.filter(p)`. */
  function Filter<T>(xs: seq<T>, p: T -> bool): (r: seq<T>)
    ensures |r| <= |xs|
    ensures forall k :: 0 <= k < |r| ==> p(r[k]) && r[k] in xs
    ensures forall x :: x in xs && p(x) ==> x in r
    decreases |xs|
  {
    if |xs| == 0 then []
    else if p(xs[0]) then [xs[0]] + Filter(xs[1..], p)
    else Filter(xs[1..], p)
  }

  lemma {:induction false} FilterAppend<T>(a: seq<T>, b: seq<T>, p: T -> bool)
    ensures Filter(a + b, p) == Filter(a, p) + Filter(b, p)
    decreases |a|
  {
    if |a| > 0 {
      assert (a + b)[1..] == a[1..] + b;
      FilterAppend(a[1..], b, p);
    } else {
      assert a + b == b;
    }
  }

  /** Filtering a kept element, then a part that filters to nothing, then the rest. */
  lemma FilterConsSkip<T>(x: T, a: seq<T>, b: seq<T>, p: T -> bool)
    requires p(x) && Filter(a, p) == []
    ensures Filter([x] + (a + b), p) == [x] + Filter(b, p)
  {
    var all := [x] + (a + b);
    assert all[0] == x && all[1..] == a + b;
    assert Filter(all, p) == [x] + Filter(all[1..], p);
    FilterAppend(a, b, p);
    assert Filter(a, p) + Filter(b, p) == Filter(b, p);
  }

  predicate NoDuplicates<T(==)>(xs: seq<T>) {
    forall i, j :: 0 <= i < j < |xs| ==> xs[i] != xs[j]
  }

  lemma NoDuplicatesCons<T>(x: T, xs: seq<T>)
    ensures NoDuplicates([x] + xs) <==> x !in xs && NoDuplicates(xs)
  {
    var ys := [x] + xs;
    assert forall i :: 0 <= i < |xs| ==> ys[i + 1] == xs[i];
    if NoDuplicates(ys) {
      forall i, j | 0 <= i < j < |xs| ensures xs[i] != xs[j] {
        assert ys[i + 1] != ys[j + 1];
      }
      forall i | 0 <= i < |xs| ensures xs[i] != x {
        assert ys[0] != ys[i + 1];
      }
    }
  }

  /** Index of the first occurrence of `x` in `xs`. */
  function FirstIndex<T(==)>(xs: seq<T>, x: T): (i: nat)
    requires x in xs
    ensures i < |xs| && xs[i] == x
    ensures forall k :: 0 <= k < i ==> xs[k] != x
  {
    if xs[0] == x then 0 else 1 + FirstIndex(xs[1..], x)
  }

  /** `[...new Set(xs)]`: each element once, at the place of its first occurrence.
      Written as the `Set` is built: elements are inserted left to right and an
      element already present is skipped. */
  function Dedup<T(==)>(xs: seq<T>): (r: seq<T>)
    decreases |xs|
  {
    if |xs| == 0 then []
    else
      var d := Dedup(xs[..|xs| - 1]);
      if xs[|xs| - 1] in d then d else d + [xs[|xs| - 1]]
  }

  /** `Dedup` keeps exactly the elements of its input, each once, ordered by
      their first occurrence in the input. */
  lemma {:induction false} DedupSpec<T>(xs: seq<T>)
    ensures NoDuplicates(Dedup(xs))
    ensures forall x :: x in Dedup(xs) <==> x in xs
    ensures forall i, j :: 0 <= i < j < |Dedup(xs)| ==>
      FirstIndex(xs, Dedup(xs)[i]) < FirstIndex(xs, Dedup(xs)[j])
    decreases |xs|
  {
    if |xs| > 0 {
      var init := xs[..|xs| - 1];
      var last := xs[|xs| - 1];
      DedupSpec(init);
      var d := Dedup(init);
      assert xs == init + [last];
      forall x | x in init ensures FirstIndex(xs, x) == FirstIndex(init, x) {
        FirstIndexPrefix(init, last, x);
      }
      if last !in d {
        var r := d + [last];
        assert last !in init;
        forall i, j | 0 <= i < j < |r| ensures FirstIndex(xs, r[i]) < FirstIndex(xs, r[j]) {
          if j == |r| - 1 {
            assert r[i] == d[i] && d[i] in d;
            assert FirstIndex(xs, r[j]) == |xs| - 1;
          } else {
            assert r[i] == d[i] && r[j] == d[j];
          }
        }
      }
    }
  }

  lemma {:induction false} FirstIndexPrefix<T>(init: seq<T>, last: T, x: T)
    requires x in init
    ensures FirstIndex(init + [last], x) == FirstIndex(init, x)
  {
    if init[0] != x {
      assert (init + [last])[1..] == init[1..] + [last];
      FirstIndexPrefix(init[1..], last, x);
    }
  }

  /** A sequence without duplicates is as long as the set of its elements. */
  lemma {:induction false} NoDuplicatesCardinality<T>(xs: seq<T>)
    requires NoDuplicates(xs)
    ensures |set x | x in xs| == |xs|
    decreases |xs|
  {
    if |xs| > 0 {
      var init := xs[..|xs| - 1];
      NoDuplicatesCardinality(init);
      assert (set x | x in xs) == (set x | x in init) + {xs[|xs| - 1]};
      assert xs[|xs| - 1] !in init;
    }
  }

  /** `[...new Set(xs)].length` is the number of distinct elements of `xs`. */
  lemma DedupLength<T>(xs: seq<T>)
    ensures |Dedup(xs)| == |set x | x in xs|
  {
    DedupSpec(xs);
    NoDuplicatesCardinality(Dedup(xs));
    SameElementsSameSet(Dedup(xs), xs);
  }

  lemma SameElementsSameSet<T>(xs: seq<T>, ys: seq<T>)
    requires forall x :: x in xs <==> x in ys
    ensures (set x | x in xs) == (set x | x in ys)
  {
    var a := set x | x in xs;
    var b := set x | x in ys;
    assert forall x :: x in a <==> x in b;
  }

  /** Concatenation of a sequence of sequences: `xs.flat()`. */
  function Flatten<T>(xss: seq<seq<T>>): (r: seq<T>)
    decreases |xss|
  {
    if |xss| == 0 then [] else xss[0] + Flatten(xss[1..])
  }

  lemma {:induction false} FlattenAppend<T>(a: seq<seq<T>>, b: seq<seq<T>>)
    ensures Flatten(a + b) == Flatten(a) + Flatten(b)
    decreases |a|
  {
    if |a| > 0 {
      assert (a + b)[1..] == a[1..] + b;
      FlattenAppend(a[1..], b);
    } else {
      assert a + b == b;
    }
  }

  /** Sum of a sequence of naturals: `xs.reduce((s, x) => s + x, 0)`. */
  function Sum(xs: seq<nat>): nat
    decreases |xs|
  {
    if |xs| == 0 then 0 else xs[0] + Sum(xs[1..])
  }
}

=== FILE: system_tools.dfy ===
/**
 * The pure parts of the system tools (src/mcp-server/tools/system.ts): the
 * command allow-list gate `isCommandSafe`, the sensitive-name filter of
 * `get_env`/`list_env`, the value truncation of `list_env`, the length rule of
 * `random_generate` for strings, and the gate-before-exec of `run_command`.
 */
module SystemTools {
  import opened Wrappers
  import opened Text
  import opened Seqs
  import opened Tools

  /** `SAFE_COMMANDS`, in source order. */
  const SafeCommands: seq<string> := SafeCommandsFirst + SafeCommandsSecond

  const SafeCommandsFirst: seq<string> := ["echo", "date", "whoami", "hostname", "pwd", "ls", "cat", "head", "tail", "wc"]
  const SafeCommandsSecond: seq<string> := ["grep", "find", "which", "env", "printenv", "uname", "uptime", "df", "du", "free"]

  /** `command.split(/\s+/)[0]`: everything before the first `\s` character
      (empty when the command is empty or starts with whitespace). */
  function FirstToken(s: string): (r: string)
    ensures r <= s
    ensures forall k :: 0 <= k < |r| ==> !IsSpace(r[k])
    ensures |r| == |s| || IsSpace(s[|r|])
  {
    if |s| == 0 || IsSpace(s[0]) then "" else [s[0]] + FirstToken(s[1..])
  }

  /** The dangerous-pattern regexes of `isCommandSafe`, one constructor per shape. */
  datatype Pattern =
    | AnyOf(chars: string)   // a character class such as /[;&|`$(){}]/
    | Word(word: string)     // /\bword\b/ (case-sensitive)
    | ForceCopy              // /\bcp\b.*(-[rf]|--recursive|--force)/i
    | RedirectToRoot         // />\s*\//

  /** The regexes in source order. */
  const DangerousPatterns: seq<Pattern> := [
    AnyOf(";&|`$(){}"),
    Word("sudo"), Word("rm"), Word("mv"), ForceCopy, Word("chmod"), Word("chown"),
    Word("kill"), Word("pkill"), Word("shutdown"), Word("reboot"), Word("dd"), Word("mkfs"),
    RedirectToRoot
  ]

  const DangerWords: seq<string> := [
    "sudo", "rm", "mv", "chmod", "chown", "kill", "pkill", "shutdown", "reboot", "dd", "mkfs"
  ]

  /** `\b w \b` matches at index `i`, for a word `w` made of word characters. */
  predicate WordAt(s: string, w: string, i: int) {
    0 <= i && i + |w| <= |s| && MatchAt(s, w, i)
    && (i == 0 || !IsWordChar(s[i - 1]))
    && (i + |w| == |s| || !IsWordChar(s[i + |w|]))
  }

  /** `\bcp\b` with the `i` flag matches at index `i`. */
  predicate CopyWordAt(s: string, i: int) {
    0 <= i && i + 2 <= |s| && Lower(s[i]) == 'c' && Lower(s[i + 1]) == 'p'
    && (i == 0 || !IsWordChar(s[i - 1]))
    && (i + 2 == |s| || !IsWordChar(s[i + 2]))
  }

  /** `-[rf]` with the `i` flag matches at index `k`. */
  predicate ForceFlagAt(s: string, k: int) {
    0 <= k && k + 1 < |s| && s[k] == '-' && (Lower(s[k + 1]) == 'r' || Lower(s[k + 1]) == 'f')
  }

  /** No line terminator in `s[i..k]`, so that `.*` can span it. */
  predicate SameLine(s: string, i: int, k: int)
    requires 0 <= i <= k <= |s|
  {
    forall m :: i <= m < k ==> !IsLineTerminator(s[m])
  }

  // ---- Regex search, written as the left-to-right scans a regex engine performs ----

  predicate AnyOfFrom(s: string, chars: string, i: nat)
    decreases |s| - i
  {
    i < |s| && (s[i] in chars || AnyOfFrom(s, chars, i + 1))
  }

  predicate WordFrom(s: string, w: string, i: nat)
    decreases |s| - i
  {
    i <= |s| && (WordAt(s, w, i) || WordFrom(s, w, i + 1))
  }

  /** `.*(-[rf]|--recursive|--force)` from index `k`: a force flag later on the same line.
      (`--recursive` and `--force` contain `-r` and `-f`, and `.*` absorbs the first dash.) */
  predicate FlagOnLineFrom(s: string, k: nat)
    decreases |s| - k
  {
    k + 1 < |s| && (ForceFlagAt(s, k) || (!IsLineTerminator(s[k]) && FlagOnLineFrom(s, k + 1)))
  }

  predicate ForceCopyFrom(s: string, i: nat)
    decreases |s| - i
  {
    i < |s| && ((CopyWordAt(s, i) && FlagOnLineFrom(s, i + 2)) || ForceCopyFrom(s, i + 1))
  }

  /** `>\s*\/` at index `i`: after `>` and the longest run of `\s` comes `/`
      (`/` is not `\s`, so backtracking into the run cannot help). */
  predicate RedirectAt(s: string, i: int) {
    0 <= i < |s| && s[i] == '>' && SkipSpaces(s, i + 1) < |s| && s[SkipSpaces(s, i + 1)] == '/'
  }

  predicate RedirectFrom(s: string, i: nat)
    decreases |s| - i
  {
    i < |s| && (RedirectAt(s, i) || RedirectFrom(s, i + 1))
  }

  /** `pattern.test(command)`. */
  predicate Test(p: Pattern, s: string) {
    match p
    case AnyOf(chars) => AnyOfFrom(s, chars, 0)
    case Word(w) => WordFrom(s, w, 0)
    case ForceCopy => ForceCopyFrom(s, 0)
    case RedirectToRoot => RedirectFrom(s, 0)
  }

  /** `patterns.some((pattern) => pattern.test(command))`. */
  predicate SomeTest(patterns: seq<Pattern>, s: string) {
    exists p | p in patterns :: Test(p, s)
  }

  /** `isCommandSafe(command)`, branch for branch. */
  predicate IsCommandSafe(command: string) {
    var base := ToLower(FirstToken(command));
    if base == "" then false
    else if '/' in base || '\\' in base || base[0] == '.' then false
    else if SomeTest(DangerousPatterns, command) then false
    else base in SafeCommands
  }

  // ---- The scans agree with "the pattern matches at some index" ----

  lemma {:induction false} AnyOfFromSpec(s: string, chars: string, i: nat)
    ensures AnyOfFrom(s, chars, i) <==> exists k :: i <= k < |s| && s[k] in chars
    decreases |s| - i
  {
    if i < |s| { AnyOfFromSpec(s, chars, i + 1); }
  }

  lemma {:induction false} WordFromSpec(s: string, w: string, i: nat)
    ensures WordFrom(s, w, i) <==> exists k :: i <= k && WordAt(s, w, k)
    decreases |s| - i
  {
    if i <= |s| {
      WordFromSpec(s, w, i + 1);
      if exists k :: i <= k && WordAt(s, w, k) {
        var k :| i <= k && WordAt(s, w, k);
        if k > i { assert WordFrom(s, w, i + 1); }
      }
    } else {
      forall k | i <= k ensures !WordAt(s, w, k) {}
    }
  }

  lemma {:induction false} FlagOnLineFromSpec(s: string, k: nat)
    requires k <= |s|
    ensures FlagOnLineFrom(s, k) <==> exists j :: k <= j <= |s| && SameLine(s, k, j) && ForceFlagAt(s, j)
    decreases |s| - k
  {
    if k + 1 < |s| {
      FlagOnLineFromSpec(s, k + 1);
      if FlagOnLineFrom(s, k) {
        if ForceFlagAt(s, k) {
          assert SameLine(s, k, k);
        } else {
          var j :| k + 1 <= j <= |s| && SameLine(s, k + 1, j) && ForceFlagAt(s, j);
          assert SameLine(s, k, j);
        }
      }
      if exists j :: k <= j <= |s| && SameLine(s, k, j) && ForceFlagAt(s, j) {
        var j :| k <= j <= |s| && SameLine(s, k, j) && ForceFlagAt(s, j);
        if j > k {
          assert !IsLineTerminator(s[k]);
          assert SameLine(s, k + 1, j);
        }
      }
    }
  }

  /** A force copy matches exactly when a case-insensitive word `cp` is followed,
      later on the same line, by `-r` or `-f` in either case. */
  lemma {:induction false} ForceCopyFromSpec(s: string, i: nat)
    ensures ForceCopyFrom(s, i) <==>
      exists c, j :: i <= c && c + 2 <= j <= |s| && CopyWordAt(s, c) && SameLine(s, c + 2, j) && ForceFlagAt(s, j)
    decreases |s| - i
  {
    if i < |s| {
      ForceCopyFromSpec(s, i + 1);
      ForceCopyStepSound(s, i);
      ForceCopyStepComplete(s, i);
    }
  }

  /** One step of the scan, scan to witness. */
  lemma ForceCopyStepSound(s: string, i: nat)
    requires i < |s|
    requires ForceCopyFrom(s, i + 1) ==>
      exists c, j :: i + 1 <= c && c + 2 <= j <= |s| && CopyWordAt(s, c) && SameLine(s, c + 2, j) && ForceFlagAt(s, j)
    ensures ForceCopyFrom(s, i) ==>
      exists c, j :: i <= c && c + 2 <= j <= |s| && CopyWordAt(s, c) && SameLine(s, c + 2, j) && ForceFlagAt(s, j)
  {
    if ForceCopyFrom(s, i) {
      if ForceCopyFrom(s, i + 1) {
        var c, j :| i + 1 <= c && c + 2 <= j <= |s| && CopyWordAt(s, c) && SameLine(s, c + 2, j) && ForceFlagAt(s, j);
      } else {
        FlagOnLineFromSpec(s, i + 2);
        var j :| i + 2 <= j <= |s| && SameLine(s, i + 2, j) && ForceFlagAt(s, j);
      }
    }
  }

  /** One step of the scan, witness to scan. */
  lemma ForceCopyStepComplete(s: string, i: nat)
    requires i < |s|
    requires (exists c, j :: i + 1 <= c && c + 2 <= j <= |s| && CopyWordAt(s, c) && SameLine(s, c + 2, j) && ForceFlagAt(s, j))
      ==> ForceCopyFrom(s, i + 1)
    ensures (exists c, j :: i <= c && c + 2 <= j <= |s| && CopyWordAt(s, c) && SameLine(s, c + 2, j) && ForceFlagAt(s, j))
      ==> ForceCopyFrom(s, i)
  {
    if exists c, j :: i <= c && c + 2 <= j <= |s| && CopyWordAt(s, c) && SameLine(s, c + 2, j) && ForceFlagAt(s, j) {
      var c, j :| i <= c && c + 2 <= j <= |s| && CopyWordAt(s, c) && SameLine(s, c + 2, j) && ForceFlagAt(s, j);
      if c == i {
        FlagOnLineFromSpec(s, i + 2);
        assert FlagOnLineFrom(s, i + 2);
      } else {
        assert ForceCopyFrom(s, i + 1);
      }
    }
  }

  lemma {:induction false} RedirectFromSpec(s: string, i: nat)
    ensures RedirectFrom(s, i) <==> exists k :: i <= k && RedirectAt(s, k)
    decreases |s| - i
  {
    if i < |s| {
      RedirectFromSpec(s, i + 1);
      if exists k :: i <= k && RedirectAt(s, k) {
        var k :| i <= k && RedirectAt(s, k);
        if k > i { assert RedirectFrom(s, i + 1); }
      }
    } else {
      forall k | i <= k ensures !RedirectAt(s, k) {}
    }
  }

  /** Some dangerous pattern matches somewhere in the command, stated by match positions. */
  ghost predicate DangerousAnywhere(s: string) {
    (exists k :: 0 <= k < |s| && s[k] in ";&|`$(){}")
    || (exists w, k :: w in DangerWords && WordAt(s, w, k))
    || (exists c, j :: 0 <= c && c + 2 <= j <= |s| && CopyWordAt(s, c) && SameLine(s, c + 2, j) && ForceFlagAt(s, j))
    || (exists k :: RedirectAt(s, k))
  }

  lemma DangerousPatternsMembers(p: Pattern)
    ensures p in DangerousPatterns <==>
      p == AnyOf(";&|`$(){}") || p == ForceCopy || p == RedirectToRoot || (p.Word? && p.word in DangerWords)
  {
  }

  lemma WordPatternsSpec(s: string)
    ensures (exists p :: p in DangerousPatterns && p.Word? && Test(p, s))
      <==> exists w, k :: w in DangerWords && WordAt(s, w, k)
  {
    if exists w, k :: w in DangerWords && WordAt(s, w, k) {
      var w, k :| w in DangerWords && WordAt(s, w, k);
      WordFromSpec(s, w, 0);
      DangerousPatternsMembers(Word(w));
      assert Test(Word(w), s);
    }
    if exists p :: p in DangerousPatterns && p.Word? && Test(p, s) {
      var p :| p in DangerousPatterns && p.Word? && Test(p, s);
      DangerousPatternsMembers(p);
      WordFromSpec(s, p.word, 0);
    }
  }

  lemma OtherPatternsSpec(s: string)
    ensures (exists p :: p in DangerousPatterns && !p.Word? && Test(p, s))
      <==> Test(AnyOf(";&|`$(){}"), s) || Test(ForceCopy, s) || Test(RedirectToRoot, s)
  {
    DangerousPatternsMembers(AnyOf(";&|`$(){}"));
    DangerousPatternsMembers(ForceCopy);
    DangerousPatternsMembers(RedirectToRoot);
    if exists p :: p in DangerousPatterns && !p.Word? && Test(p, s) {
      var p :| p in DangerousPatterns && !p.Word? && Test(p, s);
      DangerousPatternsMembers(p);
    }
  }

  /** The pattern list tests positive exactly when some pattern matches at some index. */
  lemma DangerousPatternsSpec(s: string)
    ensures SomeTest(DangerousPatterns, s) <==> DangerousAnywhere(s)
  {
    WordPatternsSpec(s);
    OtherPatternsSpec(s);
    AnyOfFromSpec(s, ";&|`$(){}", 0);
    ForceCopyFromSpec(s, 0);
    RedirectFromSpec(s, 0);
  }

  /** Scanning each pattern over a command and finding nothing clears the whole list. */
  lemma ScansClear(s: string)
    requires !AnyOfFrom(s, ";&|`$(){}", 0) && !ForceCopyFrom(s, 0) && !RedirectFrom(s, 0)
    requires forall w | w in DangerWords :: !WordFrom(s, w, 0)
    ensures !SomeTest(DangerousPatterns, s)
  {
    forall p | p in DangerousPatterns ensures !Test(p, s) { DangerousPatternsMembers(p); }
  }

  /** `a b` are the first two letters of a word in `DangerWords`. */
  predicate StartsDangerWord(a: char, b: char) {
    (a == 's' && (b == 'u' || b == 'h')) || (a == 'r' && (b == 'm' || b == 'e'))
    || (a == 'm' && (b == 'v' || b == 'k')) || (a == 'c' && b == 'h') || (a == 'k' && b == 'i')
    || (a == 'p' && b == 'k') || (a == 'd' && b == 'd')
  }

  /** `a b` could begin a match of `-[rf]` or of a dangerous word. */
  predicate DangerPair(a: char, b: char) {
    (a == '-' && (b == 'r' || b == 'R' || b == 'f' || b == 'F')) || StartsDangerWord(a, b)
  }

  /** A metacharacter of the first pattern, or the `>` of the redirect pattern. */
  predicate DangerChar(c: char) {
    c == ';' || c == '&' || c == '|' || c == '`' || c == '$' || c == '(' || c == ')'
    || c == '{' || c == '}' || c == '>'
  }

  /** A whole-word match starts with the word's first two characters. */
  lemma WordStartsWithPair(s: string, w: string, k: int)
    requires |w| >= 2 && WordAt(s, w, k)
    ensures k + 1 < |s| && s[k] == w[0] && s[k + 1] == w[1]
  {
    MatchAtSpec(s, w, k);
    assert s[k..k + |w|][0] == w[0];
    assert s[k..k + |w|][1] == w[1];
  }

  /** Without an adjacent pair that starts a dangerous word, no dangerous word matches. */
  lemma NoDangerWordByPairs(s: string, w: string)
    requires w in DangerWords
    requires forall k :: 0 <= k < |s| - 1 ==> !StartsDangerWord(s[k], s[k + 1])
    ensures !WordFrom(s, w, 0)
  {
    WordFromSpec(s, w, 0);
    forall k | WordAt(s, w, k) ensures false {
      WordStartsWithPair(s, w, k);
      assert StartsDangerWord(s[k], s[k + 1]);
    }
  }

  /** A sufficient test on characters alone: no metacharacter, no `>`, no `-r`/`-f`
      and no adjacent pair that starts a dangerous word means no pattern matches. */
  lemma NoDangerByCharacters(s: string)
    requires forall k :: 0 <= k < |s| ==> !DangerChar(s[k])
    requires forall k :: 0 <= k < |s| - 1 ==> !DangerPair(s[k], s[k + 1])
    ensures !SomeTest(DangerousPatterns, s)
  {
    AnyOfFromSpec(s, ";&|`$(){}", 0);
    ForceCopyFromSpec(s, 0);
    RedirectFromSpec(s, 0);
    forall w | w in DangerWords ensures !WordFrom(s, w, 0) {
      NoDangerWordByPairs(s, w);
    }
    ScansClear(s);
  }

  /** Every allow-listed command is a non-empty run of lower-case ASCII letters. */
  lemma SafeCommandsLetters(c: string)
    requires c in SafeCommands
    ensures 0 < |c| <= 8
    ensures forall k :: 0 <= k < |c| ==> 'a' <= c[k] <= 'z'
  {
    if c in SafeCommandsFirst {
      FirstCommandsLetters(c);
    } else {
      SecondCommandsLetters(c);
    }
  }

  lemma FirstCommandsLetters(c: string)
    requires c in SafeCommandsFirst
    ensures 0 < |c| <= 8
    ensures forall k :: 0 <= k < |c| ==> 'a' <= c[k] <= 'z'
  {
  }

  lemma SecondCommandsLetters(c: string)
    requires c in SafeCommandsSecond
    ensures 0 < |c| <= 8
    ensures forall k :: 0 <= k < |c| ==> 'a' <= c[k] <= 'z'
  {
  }

  /** So none is empty, contains a path separator or starts with a dot. */
  lemma SafeCommandsShape(c: string)
    requires c in SafeCommands
    ensures c != "" && '/' !in c && '\\' !in c && c[0] != '.'
  {
    SafeCommandsLetters(c);
  }

  /** The gate accepts exactly the commands whose lower-cased first token is
      allow-listed and in which no dangerous pattern matches anywhere. */
  lemma CommandSafeCharacterization(command: string)
    ensures IsCommandSafe(command) <==>
      ToLower(FirstToken(command)) in SafeCommands && !DangerousAnywhere(command)
  {
    DangerousPatternsSpec(command);
    var base := ToLower(FirstToken(command));
    if base in SafeCommands { SafeCommandsShape(base); }
  }

  /** An empty command, or one starting with whitespace, is rejected. */
  lemma EmptyBaseRejected(command: string)
    requires command == "" || IsSpace(command[0])
    ensures !IsCommandSafe(command)
  {
  }

  /** A first token with `/` or `\`, or starting with `.`, is rejected. */
  lemma PathLikeBaseRejected(command: string)
    requires var b := FirstToken(command); b != "" && ('/' in b || '\\' in b || b[0] == '.')
    ensures !IsCommandSafe(command)
  {
    var b := FirstToken(command);
    var base := ToLower(b);
    if '/' in b {
      var k :| 0 <= k < |b| && b[k] == '/';
      assert base[k] == '/';
    } else if '\\' in b {
      var k :| 0 <= k < |b| && b[k] == '\\';
      assert base[k] == '\\';
    }
  }

  /** A shell metacharacter anywhere rejects the command. */
  lemma MetacharRejected(command: string, k: int)
    requires 0 <= k < |command| && command[k] in ";&|`$(){}"
    ensures !IsCommandSafe(command)
  {
    CommandSafeCharacterization(command);
  }

  /** `>` followed by optional whitespace and `/` anywhere rejects the command. */
  lemma RedirectRejected(command: string, k: int)
    requires RedirectAt(command, k)
    ensures !IsCommandSafe(command)
  {
    CommandSafeCharacterization(command);
  }

  /** A whole-word destructive verb anywhere rejects the command, even after an
      allowed first token. */
  lemma DangerWordRejected(command: string, w: string, k: int)
    requires w in DangerWords && WordAt(command, w, k)
    ensures !IsCommandSafe(command)
  {
    CommandSafeCharacterization(command);
  }

  lemma SafeImpliesAllowListed(command: string)
    requires IsCommandSafe(command)
    ensures ToLower(FirstToken(command)) in SafeCommands
    ensures forall k :: 0 <= k < |command| ==> command[k] !in ";&|`$(){}"
  {
    CommandSafeCharacterization(command);
  }

  /** A command whose first token lower-cases to an allow-listed name and in which
      no pattern matches is accepted, whatever its arguments are. */
  lemma AcceptedWhenQuiet(s: string, base: string)
    requires FirstToken(s) == base && ToLower(base) in SafeCommands
    requires !SomeTest(DangerousPatterns, s)
    ensures IsCommandSafe(s)
  {
    SafeCommandsShape(ToLower(base));
  }

  /** An allow-listed word, then nothing or whitespace and anything without a
      dangerous match, is accepted. */
  lemma AcceptedWord(word: string, rest: string)
    requires word in SafeCommands
    requires rest == "" || IsSpace(rest[0])
    requires !SomeTest(DangerousPatterns, word + rest)
    ensures IsCommandSafe(word + rest)
  {
    SafeCommandsLetters(word);
    ToLowerIdentity(word);
    FirstTokenOfWord(word, rest);
    AcceptedWhenQuiet(word + rest, word);
  }

  /** A command that is an allow-listed word, then whitespace and arguments,
      and that has no dangerous character or pair, is accepted. */
  lemma AcceptedQuietCommand(s: string, word: string, rest: string)
    requires s == word + rest && word in SafeCommands
    requires rest == "" || IsSpace(rest[0])
    requires forall k :: 0 <= k < |s| ==> !DangerChar(s[k])
    requires forall k :: 0 <= k < |s| - 1 ==> !DangerPair(s[k], s[k + 1])
    ensures IsCommandSafe(s)
  {
    NoDangerByCharacters(s);
    AcceptedWord(word, rest);
  }

  lemma AcceptsListing()
    ensures IsCommandSafe("ls -la")
  {
    AcceptedQuietCommand("ls -la", "ls", " -la");
  }

  lemma RejectsRemove()
    ensures !IsCommandSafe("rm -rf /")
  {
    assert WordAt("rm -rf /", "rm", 0);
    DangerWordRejected("rm -rf /", "rm", 0);
  }

  lemma RejectsVerbAfterAllowedCommand()
    ensures !IsCommandSafe("echo rm")
  {
    assert WordAt("echo rm", "rm", 5);
    DangerWordRejected("echo rm", "rm", 5);
  }

  lemma RejectsChainedCommand()
    ensures !IsCommandSafe("ls; ls")
  {
    MetacharRejected("ls; ls", 2);
  }

  // The gate is no sandbox: an allowed command may read any path, `find` may
  // delete, and `env` starts any program.

  lemma AcceptsReadingAnyFile()
    ensures IsCommandSafe("cat /etc/passwd")
  {
    AcceptedQuietCommand("cat /etc/passwd", "cat", " /etc/passwd");
  }

  lemma AcceptsFindDelete()
    ensures IsCommandSafe("find . -delete")
  {
    AcceptedQuietCommand("find . -delete", "find", " . -delete");
  }

  lemma AcceptsEnvLaunch()
    ensures IsCommandSafe("env python3 x.py")
  {
    AcceptedQuietCommand("env python3 x.py", "env", " python3 x.py");
  }

  /** The first token of a command that starts with a space-free word and then
      whitespace (or ends) is that word. */
  lemma {:induction false} FirstTokenOfWord(word: string, rest: string)
    requires forall k :: 0 <= k < |word| ==> !IsSpace(word[k])
    requires rest == "" || IsSpace(rest[0])
    ensures FirstToken(word + rest) == word
    decreases |word|
  {
    if |word| > 0 {
      assert (word + rest)[1..] == word[1..] + rest;
      FirstTokenOfWord(word[1..], rest);
    } else {
      assert word + rest == rest;
    }
  }

  /** `curl` is not allow-listed, so no `curl` command passes, whatever follows it. */
  lemma RejectsCurl(url: string)
    ensures !IsCommandSafe("curl " + url)
  {
    assert "curl " + url == "curl" + (" " + url);
    FirstTokenOfWord("curl", " " + url);
    assert ToLower("curl") == "curl";
  }

  // ---- get_env / list_env ----

  /** The `sensitivePatterns` of `get_env` and `list_env`, each matched with the `i` flag. */
  const SensitiveWords: seq<string> := ["token", "secret", "password", "key", "auth", "credential", "private"]

  /** `sensitivePatterns.some((p) => p.test(name))`. */
  predicate IsSensitiveName(name: string) {
    exists w | w in SensitiveWords :: ContainsIgnoreCase(name, w)
  }

  lemma SensitiveWordLower(w: string)
    requires w in SensitiveWords
    ensures ToLower(w) == w
  {
    ToLowerIdentity(w);
  }

  /** Against a word already in lower case, the `i` flag means an occurrence in the
      lower-cased name. */
  lemma IgnoreCaseLowerWord(name: string, w: string)
    requires ToLower(w) == w
    ensures ContainsIgnoreCase(name, w) <==> exists j :: OccursAt(ToLower(name), w, j)
  {
    assert ContainsIgnoreCase(name, w) == Contains(ToLower(name), w);
    ContainsSpec(ToLower(name), w);
  }

  /** A name is sensitive exactly when one of the words occurs in its lower-cased form. */
  lemma SensitiveNameSpec(name: string)
    ensures IsSensitiveName(name) <==>
      exists w, j :: w in SensitiveWords && OccursAt(ToLower(name), w, j)
  {
    if IsSensitiveName(name) {
      var w :| w in SensitiveWords && ContainsIgnoreCase(name, w);
      SensitiveWordLower(w);
      IgnoreCaseLowerWord(name, w);
      var j :| OccursAt(ToLower(name), w, j);
    }
    if exists w, j :: w in SensitiveWords && OccursAt(ToLower(name), w, j) {
      var w, j :| w in SensitiveWords && OccursAt(ToLower(name), w, j);
      SensitiveWordLower(w);
      IgnoreCaseLowerWord(name, w);
    }
  }

  /** `get_env(name)` over the environment `env`. A name no variable has but
      that every object inherits, such as `toString`, is found: its value is
      the inherited function's text. */
  function GetEnv(name: string, env: map<string, string>): (r: ToolRun)
    ensures r.effects == [] <==> IsSensitiveName(name)
    ensures !IsSensitiveName(name) ==> r.effects == [ReadEnv(name)]
    ensures IsSensitiveName(name) ==> r.text == "Error: Cannot access sensitive environment variable '" + name + "'"
    ensures name in env && !IsSensitiveName(name) ==> r.text == name + "=" + env[name]
    ensures name in env && !IsSensitiveName(name) ==> Contains(r.text, env[name])
    ensures !IsSensitiveName(name) && name !in env && InheritedName(name) ==>
      r.text == name + "=" + InheritedText(name)
    ensures !IsSensitiveName(name) && name !in env && !InheritedName(name) ==>
      r.text == "Environment variable '" + name + "' is not set"
  {
    if IsSensitiveName(name) then
      ToolRun([], "Error: Cannot access sensitive environment variable '" + name + "'")
    else if name in env then
      var text := name + "=" + env[name];
      ContainsWitness(text, env[name], |name| + 1);
      ToolRun([ReadEnv(name)], text)
    else if InheritedName(name) then
      ToolRun([ReadEnv(name)], name + "=" + InheritedText(name))
    else
      ToolRun([ReadEnv(name)], "Environment variable '" + name + "' is not set")
  }

  /** `toString` is not a sensitive name, so with no such variable its lookup
      answers with the inherited method. */
  lemma GetEnvInherited()
    ensures GetEnv("toString", map[]).text == "toString" + "=" + ("function " + "toString" + "() { [native code] }")
  {
    InheritedLookup("toString");
    ToStringText("toString");
  }

  /** The lookup of `toString` falls through to the inherited method. */
  lemma InheritedLookup(name: string)
    requires name == "toString"
    ensures GetEnv(name, map[]).text == name + "=" + InheritedText(name)
  {
    assert forall i :: 0 <= i < |name| ==> name[i] in "toSring";
    NotSensitiveByLetters(name);
    assert InheritedName(name);
  }

  /** The text of the inherited `toString` method. */
  lemma ToStringText(name: string)
    requires name == "toString"
    ensures InheritedText(name) == "function " + name + "() { [native code] }"
  {
  }

  /** One of the letters every sensitive word contains. */
  predicate IsMarker(c: char) {
    c == 'a' || c == 'c' || c == 'e' || c == 'k' || c == 'p'
  }

  /** Each sensitive word has a marker letter among its first three. */
  lemma SensitiveWordMarker(w: string)
    requires w in SensitiveWords
    ensures |w| >= 3 && (IsMarker(w[0]) || IsMarker(w[1]) || IsMarker(w[2]))
  {
  }

  /** A name without any of the letters a, c, e, k and p, in either case, is
      not sensitive. */
  lemma NotSensitiveByLetters(name: string)
    requires forall i :: 0 <= i < |name| ==> !IsMarker(Lower(name[i]))
    ensures !IsSensitiveName(name)
  {
    var lower := ToLower(name);
    forall w, j | w in SensitiveWords ensures !OccursAt(lower, w, j) {
      SensitiveWordMarker(w);
      if 0 <= j && j + |w| <= |lower| {
        var m := if IsMarker(w[0]) then 0 else if IsMarker(w[1]) then 1 else 2;
        assert !IsMarker(lower[j + m]);
        assert lower[j..j + |w|][m] != w[m];
      }
    }
    SensitiveNameSpec(name);
  }

  /** For a sensitive name the answer does not depend on the environment at all. */
  lemma GetEnvHidesSensitive(name: string, env1: map<string, string>, env2: map<string, string>)
    requires IsSensitiveName(name)
    ensures GetEnv(name, env1) == GetEnv(name, env2)
  {
  }

  /** For any name the answer depends only on that one variable. */
  lemma GetEnvReadsOnlyName(name: string, env1: map<string, string>, env2: map<string, string>)
    requires (name in env1) == (name in env2)
    requires name in env1 ==> env1[name] == env2[name]
    ensures GetEnv(name, env1) == GetEnv(name, env2)
  {
  }

  /** `list_env`'s two filters: not sensitive, and starting with a non-empty `prefix`. */
  predicate Listed(prefix: Option<string>, key: string) {
    !IsSensitiveName(key) && (if prefix.Some? && prefix.value != "" then prefix.value <= key else true)
  }

  function ListedBy(prefix: Option<string>): string -> bool {
    key => Listed(prefix, key)
  }

  /** The shown value: at most 100 characters of it, and `...` when cut. */
  function DisplayValue(v: string): (r: string)
    ensures |v| <= 100 ==> r == v
    ensures |v| > 100 ==> |r| == 103 && r == v[..100] + "..."
  {
    if |v| > 100 then v[..100] + "..." else v
  }

  function EnvLine(entry: (string, string)): string {
    entry.0 + "=" + DisplayValue(entry.1)
  }

  /** `line` is the line of an entry whose key `keep` accepts. */
  predicate KeptLine(env: seq<(string, string)>, keep: string -> bool, line: string) {
    exists i :: 0 <= i < |env| && keep(env[i].0) && line == EnvLine(env[i])
  }

  /** The lines of `list_env` for the entries whose key `keep` accepts, in the
      environment's order. */
  function EnvLines(env: seq<(string, string)>, keep: string -> bool): (r: seq<string>)
    ensures forall k :: 0 <= k < |r| ==> KeptLine(env, keep, r[k])
    ensures forall i :: 0 <= i < |env| && keep(env[i].0) ==> EnvLine(env[i]) in r
    ensures |r| == 0 <==> forall i :: 0 <= i < |env| ==> !keep(env[i].0)
    decreases |env|
  {
    if |env| == 0 then []
    else
      var rest := EnvLines(env[1..], keep);
      var r := if keep(env[0].0) then [EnvLine(env[0])] + rest else rest;
      EnvLinesCons(env, keep, rest, r);
      r
  }

  /** The first entry's line, if kept, followed by the lines of the later
      entries are the lines of the whole environment. */
  lemma EnvLinesCons(env: seq<(string, string)>, keep: string -> bool, rest: seq<string>, r: seq<string>)
    requires |env| > 0
    requires forall k :: 0 <= k < |rest| ==> KeptLine(env[1..], keep, rest[k])
    requires forall i :: 0 <= i < |env[1..]| && keep(env[1..][i].0) ==> EnvLine(env[1..][i]) in rest
    requires |rest| == 0 <==> forall i :: 0 <= i < |env[1..]| ==> !keep(env[1..][i].0)
    requires r == if keep(env[0].0) then [EnvLine(env[0])] + rest else rest
    ensures forall k :: 0 <= k < |r| ==> KeptLine(env, keep, r[k])
    ensures forall i :: 0 <= i < |env| && keep(env[i].0) ==> EnvLine(env[i]) in r
    ensures |r| == 0 <==> forall i :: 0 <= i < |env| ==> !keep(env[i].0)
  {
    ConsLinesKept(env, keep, rest, r);
    ConsKeptListed(env, keep, rest, r);
    ConsNoneKept(env, keep, rest, r);
  }

  lemma ConsLinesKept(env: seq<(string, string)>, keep: string -> bool, rest: seq<string>, r: seq<string>)
    requires |env| > 0
    requires forall k :: 0 <= k < |rest| ==> KeptLine(env[1..], keep, rest[k])
    requires r == if keep(env[0].0) then [EnvLine(env[0])] + rest else rest
    ensures forall k :: 0 <= k < |r| ==> KeptLine(env, keep, r[k])
  {
    var tail := env[1..];
    forall k | 0 <= k < |r| ensures KeptLine(env, keep, r[k]) {
      if keep(env[0].0) && k == 0 {
        assert r[0] == EnvLine(env[0]);
      } else {
        var line := if keep(env[0].0) then rest[k - 1] else rest[k];
        assert r[k] == line;
        assert KeptLine(tail, keep, line);
        var i :| 0 <= i < |tail| && keep(tail[i].0) && line == EnvLine(tail[i]);
        assert env[i + 1] == tail[i];
      }
    }
  }

  lemma ConsKeptListed(env: seq<(string, string)>, keep: string -> bool, rest: seq<string>, r: seq<string>)
    requires |env| > 0
    requires forall i :: 0 <= i < |env[1..]| && keep(env[1..][i].0) ==> EnvLine(env[1..][i]) in rest
    requires r == if keep(env[0].0) then [EnvLine(env[0])] + rest else rest
    ensures forall i :: 0 <= i < |env| && keep(env[i].0) ==> EnvLine(env[i]) in r
  {
    forall i | 0 <= i < |env| && keep(env[i].0) ensures EnvLine(env[i]) in r {
      if i > 0 {
        assert env[i] == env[1..][i - 1];
      }
    }
  }

  lemma ConsNoneKept(env: seq<(string, string)>, keep: string -> bool, rest: seq<string>, r: seq<string>)
    requires |env| > 0
    requires |rest| == 0 <==> forall i :: 0 <= i < |env[1..]| ==> !keep(env[1..][i].0)
    requires r == if keep(env[0].0) then [EnvLine(env[0])] + rest else rest
    ensures |r| == 0 <==> forall i :: 0 <= i < |env| ==> !keep(env[i].0)
  {
    var tail := env[1..];
    if |r| == 0 {
      forall i | 0 <= i < |env| ensures !keep(env[i].0) {
        if i > 0 {
          assert env[i] == tail[i - 1];
        }
      }
    } else if !keep(env[0].0) {
      var j :| 0 <= j < |tail| && keep(tail[j].0);
      assert env[j + 1] == tail[j];
    }
  }

  /** Every line holds an `=` right after its key. */
  lemma EnvLinesHaveEquals(env: seq<(string, string)>, keep: string -> bool)
    ensures forall k :: 0 <= k < |EnvLines(env, keep)| ==> '=' in EnvLines(env, keep)[k]
  {
    var lines := EnvLines(env, keep);
    forall k | 0 <= k < |lines| ensures '=' in lines[k] {
      var i :| 0 <= i < |env| && keep(env[i].0) && lines[k] == EnvLine(env[i]);
      assert lines[k][|env[i].0|] == '=';
    }
  }

  /** Lines that each hold an `=` never join to the fallback message, which has none. */
  lemma {:induction false} JoinedLinesNotFallback(lines: seq<string>)
    requires forall k :: 0 <= k < |lines| ==> '=' in lines[k]
    ensures Join(lines, "\n") == "" <==> |lines| == 0
    ensures Join(lines, "\n") != "No matching environment variables found"
  {
    var msg := "No matching environment variables found";
    assert forall k :: 0 <= k < |msg| ==> msg[k] != '=';
    if |lines| > 1 {
      var j := Join(lines, "\n");
      assert j == lines[0] + "\n" + Join(lines[1..], "\n");
      var m :| 0 <= m < |lines[0]| && lines[0][m] == '=';
      assert j[m] == '=';
    } else if |lines| == 1 {
      var m :| 0 <= m < |lines[0]| && lines[0][m] == '=';
    }
  }

  /** `list_env`: the lines joined by newlines, or the fallback message. */
  function ListEnv(env: seq<(string, string)>, prefix: Option<string>): (r: string)
    ensures r == "No matching environment variables found" <==>
      forall i :: 0 <= i < |env| ==> !Listed(prefix, env[i].0)
    ensures (exists i :: 0 <= i < |env| && Listed(prefix, env[i].0)) ==>
      r == Join(EnvLines(env, ListedBy(prefix)), "\n")
  {
    var lines := EnvLines(env, ListedBy(prefix));
    EnvLinesHaveEquals(env, ListedBy(prefix));
    JoinedLinesNotFallback(lines);
    var list := Join(lines, "\n");
    if list == "" then "No matching environment variables found" else list
  }

  /** `list_env` shows every listed variable as `key=value`, its value cut to
      100 characters plus `...` when longer. */
  lemma ListEnvShowsEntry(env: seq<(string, string)>, prefix: Option<string>, i: nat)
    requires i < |env| && Listed(prefix, env[i].0)
    ensures Contains(ListEnv(env, prefix), env[i].0 + "=" + DisplayValue(env[i].1))
  {
    var lines := EnvLines(env, ListedBy(prefix));
    assert ListedBy(prefix)(env[i].0);
    assert EnvLine(env[i]) in lines;
    var k :| 0 <= k < |lines| && lines[k] == EnvLine(env[i]);
    JoinHasPart(lines, "\n", k);
  }

  /** Every line of `list_env`'s answer belongs to a listed variable: none is
      sensitive, and each starts with a non-empty prefix. */
  lemma ListEnvLinesAreListed(env: seq<(string, string)>, prefix: Option<string>, k: nat)
    requires k < |EnvLines(env, ListedBy(prefix))|
    ensures exists i ::
      && 0 <= i < |env|
      && !IsSensitiveName(env[i].0)
      && (prefix.Some? && prefix.value != "" ==> prefix.value <= env[i].0)
      && EnvLines(env, ListedBy(prefix))[k] == env[i].0 + "=" + DisplayValue(env[i].1)
  {
    var lines := EnvLines(env, ListedBy(prefix));
    var i :| 0 <= i < |env| && ListedBy(prefix)(env[i].0) && lines[k] == EnvLine(env[i]);
    assert Listed(prefix, env[i].0);
  }

  // ---- run_command ----

  /** What `execAsync` reported: its two output streams, or a failure message. */
  datatype ExecOutcome = Completed(stdout: string, stderr: string) | Failed(message: string)

  const NotAllowedText: string := "Error: Command not allowed. Allowed commands: " + Join(SafeCommands, ", ")

  /** `run_command(command)`: the gate first, then one execution. */
  function RunCommand(command: string, outcome: ExecOutcome): (r: ToolRun)
    ensures r.effects == [] <==> !IsCommandSafe(command)
    ensures IsCommandSafe(command) ==> r.effects == [Exec(command)]
    ensures !IsCommandSafe(command) ==> r.text == NotAllowedText
    ensures r.text != ""
  {
    if !IsCommandSafe(command) then
      ToolRun([], NotAllowedText)
    else
      match outcome
      case Completed(stdout, stderr) =>
        var output := if Trim(stdout) != "" then Trim(stdout) else Trim(stderr);
        ToolRun([Exec(command)], if output != "" then output else "(no output)")
      case Failed(message) =>
        ToolRun([Exec(command)], "Error executing command: " + message)
  }

  /** A rejected command's answer does not depend on what running it would have done. */
  lemma RunCommandDeniedIgnoresOutcome(command: string, o1: ExecOutcome, o2: ExecOutcome)
    requires !IsCommandSafe(command)
    ensures RunCommand(command, o1) == RunCommand(command, o2)
  {
  }

  /** A completed command answers with a piece of its own output, or `(no output)`. */
  lemma RunCommandOutputFromStreams(command: string, stdout: string, stderr: string)
    requires IsCommandSafe(command)
    ensures var t := RunCommand(command, Completed(stdout, stderr)).text;
      t == "(no output)" || (exists i :: OccursAt(stdout, t, i)) || (exists i :: OccursAt(stderr, t, i))
  {
  }

  // ---- random_generate, type "string" ----

  /** `crypto.randomBytes` accepts sizes up to 2^31 - 1. */
  const MaxRandomBytes: int := 0x7fff_ffff

  /** `Math.ceil(n / 2)` for an integer `n`. */
  function CeilHalf(n: int): (h: int)
    ensures 2 * h - 1 <= n <= 2 * h
  {
    -((-n) / 2)
  }

  predicate IsHexDigit(c: char) {
    '0' <= c <= '9' || 'a' <= c <= 'f'
  }

  function HexDigit(d: bv8): (c: char)
    requires d < 16
    ensures IsHexDigit(c)
  {
    "0123456789abcdef"[d as int]
  }

  /** `buffer.toString("hex")`: two lower-case digits per byte, high nibble first. */
  function Hex(bytes: seq<bv8>): (r: string)
    ensures |r| == 2 * |bytes|
    ensures forall k :: 0 <= k < |r| ==> IsHexDigit(r[k])
  {
    if |bytes| == 0 then ""
    else [HexDigit(bytes[0] >> 4), HexDigit(bytes[0] & 15)] + Hex(bytes[1..])
  }

  /** The longest string V8 creates on a 64-bit platform, 2^29 - 24 code units;
      `toString` throws `ERR_STRING_TOO_LONG` for a longer result. */
  const MaxStringLength: int := 0x1fff_ffe8

  const SizeError: string := "RangeError: size out of range"
  const TooLongError: string := "Error: Cannot create a string longer than 0x1fffffe8 characters"

  /** `randomBytes(Math.ceil(length / 2)).toString("hex").slice(0, length)`, with the
      random bytes supplied by `rnd`; a size out of `randomBytes`' range throws, and
      so does a hex text longer than V8 allows. */
  function RandomString(length: int, rnd: nat -> bv8): (r: Result<string>)
    ensures r.Ok? <==> -1 <= length <= MaxStringLength
    ensures r.Ok? && length >= 0 ==> |r.value| == length
    ensures r.Ok? ==> forall k :: 0 <= k < |r.value| ==> IsHexDigit(r.value[k])
    ensures length == -1 ==> r == Ok("")
    ensures (length < -1 || length > 2 * MaxRandomBytes) ==> r == Err(SizeError)
    ensures MaxStringLength < length <= 2 * MaxRandomBytes ==> r == Err(TooLongError)
  {
    var n := CeilHalf(length);
    if n < 0 || n > MaxRandomBytes then Err(SizeError)
    else if 2 * n > MaxStringLength then Err(TooLongError)
    else Ok(Take(Hex(seq(n, (i: int) requires 0 <= i => rnd(i))), length))
  }
}

=== FILE: text.dfy ===
/**
 * Character classes and string operations of JavaScript that the tool handlers
 * rely on: the `\s` class, the `\b` word characters, ASCII case folding,
 * substring search, `trim`, splitting, joining and number formatting.
 */
module Text {
  import opened Wrappers

  /** ECMAScript WhiteSpace and LineTerminator code points: the `\s` class and
      the characters `trim` removes. */
  predicate IsSpace(c: char) {
    c == '\t' || c == '\n' || c == '\U{000B}' || c == '\U{000C}' || c == '\r' || c == ' '
    || c == '\U{00A0}' || c == '\U{1680}' || ('\U{2000}' <= c <= '\U{200A}')
    || c == '\U{2028}' || c == '\U{2029}' || c == '\U{202F}' || c == '\U{205F}'
    || c == '\U{3000}' || c == '\U{FEFF}'
  }

  /** The characters a regex `.` does not match (without the `s` flag). */
  predicate IsLineTerminator(c: char) {
    c == '\n' || c == '\r' || c == '\U{2028}' || c == '\U{2029}'
  }

  /** The `\w` class, which also decides where `\b` holds. */
  predicate IsWordChar(c: char) {
    ('a' <= c <= 'z') || ('A' <= c <= 'Z') || ('0' <= c <= '9') || c == '_'
  }

  predicate IsDigit(c: char) {
    '0' <= c <= '9'
  }

  function Lower(c: char): (r: char)
    ensures IsWordChar(c) <==> IsWordChar(r)
    ensures !('A' <= r <= 'Z')
  {
    if 'A' <= c <= 'Z' then (c as int + 32) as char else c
  }

  /** `toLowerCase()` on the ASCII letters (the only letters any pattern here names). */
  function ToLower(s: string): (r: string)
    ensures |r| == |s|
    ensures forall i :: 0 <= i < |s| ==> r[i] == Lower(s[i])
  {
    if |s| == 0 then [] else [Lower(s[0])] + ToLower(s[1..])
  }

  /** A string without upper-case ASCII letters is its own lower-case form. */
  lemma ToLowerIdentity(s: string)
    requires forall i :: 0 <= i < |s| ==> !('A' <= s[i] <= 'Z')
    ensures ToLower(s) == s
  {
  }

  lemma ToLowerAppend(a: string, b: string)
    ensures ToLower(a + b) == ToLower(a) + ToLower(b)
  {
    assert ToLower(a + b) == ToLower(a) + ToLower(b);
  }

  /** `s` holds `sub` at index `i`. */
  predicate OccursAt(s: string, sub: string, i: int) {
    0 <= i && i + |sub| <= |s| && s[i..i + |sub|] == sub
  }

  /** Character-by-character comparison of `sub` with `s` from index `i`. */
  predicate MatchAt(s: string, sub: string, i: nat)
    decreases |sub|
  {
    i <= |s| && (|sub| == 0 || (i < |s| && s[i] == sub[0] && MatchAt(s, sub[1..], i + 1)))
  }

  lemma {:induction false} MatchAtSpec(s: string, sub: string, i: nat)
    ensures MatchAt(s, sub, i) <==> OccursAt(s, sub, i)
    decreases |sub|
  {
    if |sub| > 0 {
      MatchAtSpec(s, sub[1..], i + 1);
      if i + |sub| <= |s| {
        assert s[i..i + |sub|] == [s[i]] + s[i + 1..i + 1 + |sub[1..]|];
        assert sub == [sub[0]] + sub[1..];
      } else {
        assert !OccursAt(s, sub, i);
        assert !OccursAt(s, sub[1..], i + 1);
      }
    } else if i <= |s| {
      assert s[i..i] == [];
    }
  }

  /** Left-to-right scan for `sub` starting at index `i`: `s.includes(sub, i)`. */
  predicate ContainsFrom(s: string, sub: string, i: nat)
    decreases |s| - i
  {
    i + |sub| <= |s| && (MatchAt(s, sub, i) || ContainsFrom(s, sub, i + 1))
  }

  /** `s.includes(sub)`. */
  predicate Contains(s: string, sub: string) {
    ContainsFrom(s, sub, 0)
  }

  lemma {:induction false} ContainsFromSpec(s: string, sub: string, i: nat)
    ensures ContainsFrom(s, sub, i) <==> exists j :: i <= j && OccursAt(s, sub, j)
    decreases |s| - i
  {
    if i + |sub| <= |s| {
      ContainsFromSpec(s, sub, i + 1);
      MatchAtSpec(s, sub, i);
      if ContainsFrom(s, sub, i) && !MatchAt(s, sub, i) {
        var j :| i + 1 <= j && OccursAt(s, sub, j);
      }
      if exists j :: i <= j && OccursAt(s, sub, j) {
        var j :| i <= j && OccursAt(s, sub, j);
        if j > i {
          assert ContainsFrom(s, sub, i + 1);
        }
      }
    } else {
      forall j | i <= j ensures !OccursAt(s, sub, j) {}
    }
  }

  /** `includes` holds exactly when `sub` occurs at some index. */
  lemma ContainsSpec(s: string, sub: string)
    ensures Contains(s, sub) <==> exists j :: OccursAt(s, sub, j)
  {
    ContainsFromSpec(s, sub, 0);
  }

  lemma ContainsWitness(s: string, sub: string, j: int)
    requires OccursAt(s, sub, j)
    ensures Contains(s, sub)
  {
    ContainsSpec(s, sub);
  }

  /** An occurrence fixes each character it covers. */
  lemma OccursAtChar(s: string, sub: string, j: int, m: int)
    requires OccursAt(s, sub, j) && 0 <= m < |sub|
    ensures s[j + m] == sub[m]
  {
    assert s[j..j + |sub|][m] == sub[m];
  }

  lemma ContainsEmpty(s: string)
    ensures Contains(s, "")
  {
    ContainsWitness(s, "", 0);
  }

  /** Case-insensitive `includes`, as `a.toLowerCase().includes(b.toLowerCase())`. */
  predicate ContainsIgnoreCase(s: string, sub: string) {
    Contains(ToLower(s), ToLower(sub))
  }

  /** Index of the first character of `s` from `i` on that is not `\s`. */
  function SkipSpaces(s: string, i: nat): (j: nat)
    requires i <= |s|
    ensures i <= j <= |s|
    ensures forall k :: i <= k < j ==> IsSpace(s[k])
    ensures j == |s| || !IsSpace(s[j])
    decreases |s| - i
  {
    if i < |s| && IsSpace(s[i]) then SkipSpaces(s, i + 1) else i
  }

  /** One past the last non-`\s` character of `s[..j]`. */
  function TrimEnd(s: string, j: nat): (k: nat)
    requires j <= |s|
    ensures k <= j
    ensures forall m :: k <= m < j ==> IsSpace(s[m])
    ensures k == 0 || !IsSpace(s[k - 1])
  {
    if j > 0 && IsSpace(s[j - 1]) then TrimEnd(s, j - 1) else j
  }

  /** `s.trim()`: the slice of `s` without leading and trailing `\s`. */
  function Trim(s: string): (r: string)
    ensures |r| <= |s|
    ensures |r| > 0 ==> !IsSpace(r[0]) && !IsSpace(r[|r| - 1])
    ensures exists i :: OccursAt(s, r, i)
    ensures (forall k :: 0 <= k < |s| ==> IsSpace(s[k])) <==> r == ""
  {
    var i := SkipSpaces(s, 0);
    var k := TrimEnd(s, |s|);
    if i < k then
      assert OccursAt(s, s[i..k], i);
      s[i..k]
    else
      assert forall m :: 0 <= m < |s| ==> IsSpace(s[m]) by {
        forall m | 0 <= m < |s| ensures IsSpace(s[m]) {
          if m < k { assert m < i; }
        }
      }
      assert OccursAt(s, [], 0);
      []
  }

  /** Text that neither starts nor ends with whitespace is its own trim. */
  lemma TrimUnpadded(s: string)
    requires |s| > 0 && !IsSpace(s[0]) && !IsSpace(s[|s| - 1])
    ensures Trim(s) == s
  {
    assert SkipSpaces(s, 0) == 0;
    assert TrimEnd(s, |s|) == |s|;
  }

  /** `parts.join(sep)`. */
  function Join(parts: seq<string>, sep: string): (r: string)
    ensures |parts| == 0 ==> r == ""
    ensures |parts| == 1 ==> r == parts[0]
  {
    if |parts| == 0 then ""
    else if |parts| == 1 then parts[0]
    else parts[0] + sep + Join(parts[1..], sep)
  }

  /** A joined list contains each of its parts. */
  lemma {:induction false} JoinHasPart(parts: seq<string>, sep: string, k: nat)
    requires k < |parts|
    ensures Contains(Join(parts, sep), parts[k])
    decreases |parts|
  {
    var whole := Join(parts, sep);
    if |parts| == 1 {
      assert OccursAt(whole, parts[k], 0);
      ContainsWitness(whole, parts[k], 0);
    } else if k == 0 {
      assert whole == parts[0] + sep + Join(parts[1..], sep);
      assert whole[0..|parts[0]|] == parts[0];
      ContainsWitness(whole, parts[0], 0);
    } else {
      var rest := Join(parts[1..], sep);
      var pre := parts[0] + sep;
      assert whole == pre + rest;
      assert parts[1..][k - 1] == parts[k];
      JoinHasPart(parts[1..], sep, k - 1);
      ContainsSpec(rest, parts[k]);
      var j :| OccursAt(rest, parts[k], j);
      assert whole[|pre| + j..|pre| + j + |parts[k]|] == rest[j..j + |parts[k]|];
      ContainsWitness(whole, parts[k], |pre| + j);
    }
  }

  lemma ContainsInMiddle(a: string, b: string, c: string, sub: string)
    requires Contains(b, sub)
    ensures Contains(a + b + c, sub)
  {
    ContainsSpec(b, sub);
    var j :| OccursAt(b, sub, j);
    var s := a + b + c;
    assert s[|a| + j..|a| + j + |sub|] == b[j..j + |sub|];
    ContainsWitness(s, sub, |a| + j);
  }

  /** `includes` is transitive. */
  lemma ContainsTransitive(s: string, mid: string, sub: string)
    requires Contains(s, mid) && Contains(mid, sub)
    ensures Contains(s, sub)
  {
    ContainsSpec(s, mid);
    ContainsSpec(mid, sub);
    var i :| OccursAt(s, mid, i);
    var m :| OccursAt(mid, sub, m);
    forall t | 0 <= t < |sub| ensures s[i + m + t] == sub[t] {
      OccursAtChar(mid, sub, m, t);
      OccursAtChar(s, mid, i, m + t);
    }
    assert s[i + m..i + m + |sub|] == sub;
    ContainsWitness(s, sub, i + m);
  }

  lemma ContainsSelf(s: string)
    ensures Contains(s, s)
  {
    assert s[0..|s|] == s;
    ContainsWitness(s, s, 0);
  }

  /** A non-empty join starts with its first part. */
  lemma {:induction false} JoinStartsWithFirst(parts: seq<string>, sep: string)
    requires |parts| > 0
    ensures parts[0] <= Join(parts, sep)
  {
    if |parts| > 1 {
      assert Join(parts, sep) == parts[0] + (sep + Join(parts[1..], sep));
    }
  }

  /** `s.split(c)` for a set of single-character separators given by `isSep`;
      empty fields are kept, as JavaScript keeps them. */
  function SplitWhere(s: string, isSep: char -> bool): (r: seq<string>)
    ensures |r| >= 1
    ensures forall k :: 0 <= k < |r| ==> forall m :: 0 <= m < |r[k]| ==> !isSep(r[k][m])
    decreases |s|
  {
    if |s| == 0 then [""]
    else
      var rest := SplitWhere(s[1..], isSep);
      if isSep(s[0]) then [""] + rest
      else [[s[0]] + rest[0]] + rest[1..]
  }

  /** Splitting and re-joining with one separator character gives the input back. */
  lemma {:induction false} SplitJoin(s: string, sep: char)
    ensures Join(SplitWhere(s, c => c == sep), [sep]) == s
    decreases |s|
  {
    if |s| > 0 {
      var rest := SplitWhere(s[1..], c => c == sep);
      SplitJoin(s[1..], sep);
      if s[0] == sep {
        assert SplitWhere(s, c => c == sep) == [""] + rest;
        assert ([""] + rest)[1..] == rest;
      } else {
        var r := [[s[0]] + rest[0]] + rest[1..];
        assert SplitWhere(s, c => c == sep) == r;
        if |rest| == 1 {
        } else {
          assert r[1..] == rest[1..];
          assert Join(rest, [sep]) == rest[0] + [sep] + Join(rest[1..], [sep]);
        }
      }
    }
  }

  /** `s.replace(pat, rep)` with a string pattern: only the first occurrence changes. */
  function ReplaceFirst(s: string, pat: string, rep: string): (r: string)
    decreases |s|
  {
    if |pat| <= |s| && MatchAt(s, pat, 0) then rep + s[|pat|..]
    else if |s| == 0 then s
    else [s[0]] + ReplaceFirst(s[1..], pat, rep)
  }

  /** `s.replace(/pat/g, rep)` for a literal, non-empty pattern: a left-to-right
      scan replacing non-overlapping occurrences. */
  function ReplaceAll(s: string, pat: string, rep: string): (r: string)
    requires |pat| > 0
    decreases |s|
  {
    if |s| < |pat| then s
    else if MatchAt(s, pat, 0) then rep + ReplaceAll(s[|pat|..], pat, rep)
    else [s[0]] + ReplaceAll(s[1..], pat, rep)
  }

  /** Replacing by something no longer than the pattern never lengthens the text. */
  lemma {:induction false} ReplaceAllShorter(s: string, pat: string, rep: string)
    requires 0 < |pat| && |rep| <= |pat|
    ensures |ReplaceAll(s, pat, rep)| <= |s|
    decreases |s|
  {
    if |s| >= |pat| {
      if MatchAt(s, pat, 0) {
        ReplaceAllShorter(s[|pat|..], pat, rep);
      } else {
        ReplaceAllShorter(s[1..], pat, rep);
      }
    }
  }

  /** Replacing a pattern that does not occur changes nothing. */
  lemma {:induction false} ReplaceAllAbsent(s: string, pat: string, rep: string)
    requires |pat| > 0
    requires !Contains(s, pat)
    ensures ReplaceAll(s, pat, rep) == s
    decreases |s|
  {
    if |s| >= |pat| {
      assert !MatchAt(s, pat, 0) && !ContainsFrom(s, pat, 1);
      ContainsFromTail(s, pat, 0);
      ReplaceAllAbsent(s[1..], pat, rep);
    }
  }

  /** Scanning the tail of `s` from `i` is scanning `s` from `i + 1`. */
  lemma {:induction false} ContainsFromTail(s: string, pat: string, i: nat)
    requires |s| > 0
    ensures ContainsFrom(s[1..], pat, i) == ContainsFrom(s, pat, i + 1)
    decreases |s| - i
  {
    if i + |pat| <= |s| - 1 {
      MatchAtSpec(s[1..], pat, i);
      MatchAtSpec(s, pat, i + 1);
      assert s[1..][i..i + |pat|] == s[i + 1..i + 1 + |pat|];
      ContainsFromTail(s, pat, i + 1);
    }
  }

  /** An occurrence at the very start is replaced, and the scan resumes after it. */
  lemma ReplaceAllAtPattern(pat: string, rest: string, rep: string)
    requires |pat| > 0
    ensures ReplaceAll(pat + rest, pat, rep) == rep + ReplaceAll(rest, pat, rep)
  {
    var s := pat + rest;
    MatchAtSpec(s, pat, 0);
    assert s[..|pat|] == pat;
    assert s[|pat|..] == rest;
  }

  /** A first character that cannot start an occurrence is kept: it differs
      from the pattern's first character, or the next one differs from the
      pattern's second. */
  lemma ReplaceAllKeepsFirst(c: char, rest: string, pat: string, rep: string)
    requires |pat| > 0
    requires c != pat[0] || (|pat| >= 2 && |rest| >= 1 && rest[0] != pat[1])
    ensures ReplaceAll([c] + rest, pat, rep) == [c] + ReplaceAll(rest, pat, rep)
  {
    var s := [c] + rest;
    assert s[1..] == rest;
    if |s| >= |pat| {
      MatchAtSpec(s, pat, 0);
      assert s[0] == c;
      if c == pat[0] {
        assert s[1] == rest[0];
        assert s[..|pat|][1] != pat[1];
      }
      assert !MatchAt(s, pat, 0);
    }
  }

  /** Text without the pattern's first character is kept as it is. */
  lemma {:induction false} ReplaceAllKeepsText(a: string, rest: string, pat: string, rep: string)
    requires |pat| > 0
    requires forall k :: 0 <= k < |a| ==> a[k] != pat[0]
    ensures ReplaceAll(a + rest, pat, rep) == a + ReplaceAll(rest, pat, rep)
    decreases |a|
  {
    if |a| == 0 {
      assert a + rest == rest;
    } else {
      assert a + rest == [a[0]] + (a[1..] + rest);
      ReplaceAllKeepsFirst(a[0], a[1..] + rest, pat, rep);
      ReplaceAllKeepsText(a[1..], rest, pat, rep);
      assert [a[0]] + (a[1..] + ReplaceAll(rest, pat, rep)) == a + ReplaceAll(rest, pat, rep);
    }
  }

  function DigitChar(d: nat): (c: char)
    requires d < 10
    ensures IsDigit(c)
  {
    ('0' as int + d) as char
  }

  function DigitValue(c: char): (d: nat)
    requires IsDigit(c)
    ensures d < 10
  {
    c as int - '0' as int
  }

  /** `n.toString()` for a non-negative integer. */
  function NatToString(n: nat): (r: string)
    ensures |r| >= 1
    ensures forall k :: 0 <= k < |r| ==> IsDigit(r[k])
    ensures n > 0 ==> r[0] != '0'
    decreases n
  {
    if n < 10 then [DigitChar(n)] else NatToString(n / 10) + [DigitChar(n % 10)]
  }

  /** `n.toString()` for any integer. */
  function IntToString(n: int): (r: string)
    ensures |r| >= 1
    ensures (r[0] == '-') <==> n < 0
  {
    if n < 0 then "-" + NatToString(-n) else NatToString(n)
  }

  /** The value of a string of decimal digits. */
  function DecimalValue(s: string): (n: nat)
    requires forall k :: 0 <= k < |s| ==> IsDigit(s[k])
    decreases |s|
  {
    if |s| == 0 then 0 else 10 * DecimalValue(s[..|s| - 1]) + DigitValue(s[|s| - 1])
  }

  /** Reading back the digits `toString` writes gives the number again. */
  lemma {:induction false} DecimalValueOfNatToString(n: nat)
    ensures DecimalValue(NatToString(n)) == n
    decreases n
  {
    var r := NatToString(n);
    if n >= 10 {
      DecimalValueOfNatToString(n / 10);
      assert r[..|r| - 1] == NatToString(n / 10);
    }
  }

  // ---- parts appearing in order ----

  /** `parts` occur in `s` one after another, without overlapping, the first
      at or after index `from`. */
  ghost predicate InOrderFrom(s: string, parts: seq<string>, from: int)
    decreases |parts|
  {
    |parts| == 0 ||
    exists j :: from <= j && OccursAt(s, parts[0], j) && InOrderFrom(s, parts[1..], j + |parts[0]|)
  }

  /** `parts` occur in `s` in their order, without overlapping. */
  ghost predicate InOrder(s: string, parts: seq<string>) {
    InOrderFrom(s, parts, 0)
  }

  /** Parts that occur in order each occur. */
  lemma {:induction false} InOrderHasPart(s: string, parts: seq<string>, from: int, k: nat)
    requires InOrderFrom(s, parts, from) && k < |parts|
    ensures Contains(s, parts[k])
    decreases |parts|
  {
    var j :| from <= j && OccursAt(s, parts[0], j) && InOrderFrom(s, parts[1..], j + |parts[0]|);
    if k == 0 {
      ContainsWitness(s, parts[0], j);
    } else {
      InOrderHasPart(s, parts[1..], j + |parts[0]|, k - 1);
    }
  }

  /** Text put in front moves every occurrence by its length. */
  lemma {:induction false} InOrderShift(a: string, t: string, parts: seq<string>, from: int)
    requires InOrderFrom(t, parts, from)
    ensures InOrderFrom(a + t, parts, |a| + from)
    decreases |parts|
  {
    if |parts| > 0 {
      var n := |parts[0]|;
      var j :| from <= j && OccursAt(t, parts[0], j) && InOrderFrom(t, parts[1..], j + n);
      InOrderShift(a, t, parts[1..], j + n);
      assert (a + t)[|a| + j..|a| + j + n] == t[j..j + n];
      assert OccursAt(a + t, parts[0], |a| + j);
    }
  }

  /** Text put behind changes no occurrence. */
  lemma {:induction false} InOrderExtend(t: string, c: string, parts: seq<string>, from: int)
    requires InOrderFrom(t, parts, from)
    ensures InOrderFrom(t + c, parts, from)
    decreases |parts|
  {
    if |parts| > 0 {
      var n := |parts[0]|;
      var j :| from <= j && OccursAt(t, parts[0], j) && InOrderFrom(t, parts[1..], j + n);
      InOrderExtend(t, c, parts[1..], j + n);
      assert (t + c)[j..j + n] == t[j..j + n];
      assert OccursAt(t + c, parts[0], j);
    }
  }

  /** Text around a stretch keeps its parts in order. */
  lemma InOrderInMiddle(a: string, t: string, c: string, parts: seq<string>)
    requires InOrder(t, parts)
    ensures InOrder(a + t + c, parts)
  {
    InOrderShift(a, t, parts, 0);
    InOrderExtend(a + t, c, parts, |a|);
    InOrderLower(a + t + c, parts, 0, |a|);
  }

  /** Text put in front keeps the parts in order. */
  lemma InOrderAfter(a: string, t: string, parts: seq<string>)
    requires InOrder(t, parts)
    ensures InOrder(a + t, parts)
  {
    InOrderShift(a, t, parts, 0);
    InOrderLower(a + t, parts, 0, |a|);
  }

  /** An earlier lower bound allows the same occurrences. */
  lemma InOrderLower(s: string, parts: seq<string>, lo: int, from: int)
    requires lo <= from && InOrderFrom(s, parts, from)
    ensures InOrderFrom(s, parts, lo)
  {
  }

  /** `parts.join(sep)` holds its parts in order. */
  lemma {:induction false} JoinInOrder(parts: seq<string>, sep: string)
    ensures InOrder(Join(parts, sep), parts)
    decreases |parts|
  {
    var s := Join(parts, sep);
    if |parts| == 1 {
      assert s[0..|parts[0]|] == parts[0];
      assert OccursAt(s, parts[0], 0) && InOrderFrom(s, parts[1..], |parts[0]|);
    } else if |parts| > 1 {
      var pre := parts[0] + sep;
      var rest := Join(parts[1..], sep);
      assert s == pre + rest;
      JoinInOrder(parts[1..], sep);
      InOrderShift(pre, rest, parts[1..], 0);
      InOrderLower(s, parts[1..], |parts[0]|, |pre|);
      assert s[0..|parts[0]|] == parts[0];
      assert OccursAt(s, parts[0], 0);
    }
  }

  // ---- properties every object inherits ----

  /** The names every plain JavaScript object inherits from `Object.prototype`.
      A lookup `obj[key]` on an object that does not define `key` itself finds
      the inherited value, which is truthy: a function, or the prototype
      itself for `__proto__`. */
  predicate InheritedName(key: string) {
    key in {"constructor", "__proto__", "__defineGetter__", "__defineSetter__",
            "__lookupGetter__", "__lookupSetter__", "hasOwnProperty", "isPrototypeOf",
            "propertyIsEnumerable", "toString", "toLocaleString", "valueOf"}
  }

  /** `String(Object.prototype[key])`: a built-in function prints as native
      code under its own name, `constructor` being the function `Object`, and
      the prototype prints as `[object Object]`. */
  function InheritedText(key: string): (r: string)
    requires InheritedName(key)
    ensures key == "__proto__" <==> r == "[object Object]"
  {
    if key == "__proto__" then "[object Object]"
    else
      var name := if key == "constructor" then "Object" else key;
      "function " + name + "() { [native code] }"
  }
}

=== FILE: time_tools.dfy ===
/**
 * The time tools: millisecond arithmetic of `time_difference`, the input
 * classification and the `unix` and `relative` branches of `format_time`, the
 * `unix` branch of `get_current_time`, the validity and zone checks of
 * `convert_timezone`, and `list_timezones`.
 *
 * An instant is its time value, an integer number of milliseconds since the
 * epoch. The clock and the parsing of date strings are parameters; calendar
 * rendering (`toISOString`, `toUTCString`, `toLocaleString`) is a parameter too.
 */
module TimeTools {
  import opened Wrappers
  import opened Text
  import opened Seqs

  const MsPerSecond: nat := 1000
  const MsPerMinute: nat := 60_000
  const MsPerHour: nat := 3_600_000
  const MsPerDay: nat := 86_400_000

  /** The largest magnitude of a valid time value: 10^8 days. */
  const MaxTime: nat := 8_640_000_000_000_000

  function Abs(x: int): nat {
    if x < 0 then -x else x
  }

  /** `v` is `Math.abs(Math.floor(d / unit))`, characterised without division:
      for a non-negative `d` the count of whole units in `d`, for a negative one
      the count of units needed to cover `-d`. */
  predicate WholeUnits(v: nat, d: int, unit: nat) {
    if d >= 0 then v * unit <= d < (v + 1) * unit
    else (v - 1) * unit < -d <= v * unit
  }

  // ---- time_difference ----

  datatype Difference = Difference(days: nat, hours: nat, minutes: nat, seconds: nat, milliseconds: nat, negative: bool)

  /** The five figures `time_difference` reports for `diffMs = end - start`.
      JavaScript's `Math.floor` of a quotient by a positive unit is Dafny's `/`. */
  function Differences(diffMs: int): (r: Difference)
    ensures r.milliseconds == Abs(diffMs)
    ensures r.negative <==> diffMs < 0
    ensures WholeUnits(r.seconds, diffMs, MsPerSecond)
    ensures WholeUnits(r.minutes, diffMs, MsPerMinute)
    ensures WholeUnits(r.hours, diffMs, MsPerHour)
    ensures WholeUnits(r.days, diffMs, MsPerDay)
  {
    Difference(Abs(diffMs / MsPerDay), Abs(diffMs / MsPerHour), Abs(diffMs / MsPerMinute),
      Abs(diffMs / MsPerSecond), Abs(diffMs), diffMs < 0)
  }

  /** The report is not symmetric: swapping the two times of a difference
      that is not a whole number of seconds adds one second, because a negative
      quotient is floored away from zero before its sign is dropped. */
  lemma DifferenceAsymmetric(d: int)
    requires d > 0 && d % 1000 != 0
    ensures Differences(-d).seconds == Differences(d).seconds + 1
    ensures Differences(-d).milliseconds == Differences(d).milliseconds
  {
    var a := Differences(d).seconds;
    var b := Differences(-d).seconds;
    assert a * 1000 < d < (a + 1) * 1000;
    assert (b - 1) * 1000 < d <= b * 1000;
  }

  function DifferenceText(r: Difference): string {
    "Time Difference " + (if r.negative then "(negative) " else "") + ":\n- Days: " + NatToString(r.days)
    + "\n- Hours: " + NatToString(r.hours) + "\n- Minutes: " + NatToString(r.minutes)
    + "\n- Seconds: " + NatToString(r.seconds) + "\n- Milliseconds: " + NatToString(r.milliseconds)
  }

  predicate IsNow(s: string) {
    ToLower(s) == "now"
  }

  const DifferenceError: string := "Error: Invalid time format. Please use ISO format."

  /** `time_difference`: `parse` is `new Date(s).getTime()` (`None` for an
      invalid date), `now` is the clock; `now` in any case as the end time
      reads the clock. Either time invalid gives the error text. */
  function TimeDifferenceTool(startTime: string, endTime: string, parse: string -> Option<int>, now: int): (r: string)
    ensures parse(startTime).None? ==> r == DifferenceError
    ensures !IsNow(endTime) && parse(endTime).None? ==> r == DifferenceError
    ensures parse(startTime).Some? && IsNow(endTime) ==>
      r == DifferenceText(Differences(now - parse(startTime).value))
    ensures parse(startTime).Some? && !IsNow(endTime) && parse(endTime).Some? ==>
      r == DifferenceText(Differences(parse(endTime).value - parse(startTime).value))
  {
    var start := parse(startTime);
    var end := if IsNow(endTime) then Some(now) else parse(endTime);
    if start.None? || end.None? then DifferenceError
    else DifferenceText(Differences(end.value - start.value))
  }

  /** The sign marker appears exactly when the end lies before the start. */
  lemma NegativeMarker(d: int)
    ensures "Time Difference (negative) :" <= DifferenceText(Differences(d)) <==> d < 0
  {
    var t := DifferenceText(Differences(d));
    if d >= 0 {
      assert t[16] == ':';
    }
  }

  // ---- format_time ----

  /** How `format_time` reads its `time` argument. */
  datatype TimeInput = Now | UnixSeconds(seconds: nat) | DateText(text: string)

  predicate AllDigits(s: string) {
    forall k :: 0 <= k < |s| ==> IsDigit(s[k])
  }

  /** `now` in any case reads the clock; a non-empty run of ASCII digits
      (`/^\d+$/`) is a Unix time in seconds; anything else is a date string. */
  function Classify(time: string): (c: TimeInput)
    ensures c.Now? <==> IsNow(time)
    ensures c.UnixSeconds? <==> !IsNow(time) && |time| > 0 && AllDigits(time)
    ensures c.UnixSeconds? ==> NatToString(c.seconds) == time || time[0] == '0'
  {
    if IsNow(time) then Now
    else if |time| > 0 && AllDigits(time) then
      NoLeadingZeroRoundTrip(time);
      UnixSeconds(DecimalValue(time))
    else DateText(time)
  }

  /** A digit string without a leading zero is what `toString` writes for its value. */
  lemma {:induction false} NoLeadingZeroRoundTrip(s: string)
    requires |s| > 0 && AllDigits(s)
    ensures s[0] != '0' ==> NatToString(DecimalValue(s)) == s
    decreases |s|
  {
    if s[0] != '0' {
      if |s| == 1 {
      } else {
        var init := s[..|s| - 1];
        assert init[0] == s[0];
        NoLeadingZeroRoundTrip(init);
        var v := DecimalValue(s);
        assert DecimalValue(init) > 0 by {
          LeadingDigitPositive(init);
        }
        assert v / 10 == DecimalValue(init) && v % 10 == DigitValue(s[|s| - 1]);
        assert v >= 10;
        assert NatToString(v) == NatToString(v / 10) + [DigitChar(v % 10)];
        assert s == init + [s[|s| - 1]];
      }
    }
  }

  lemma {:induction false} LeadingDigitPositive(s: string)
    requires |s| > 0 && AllDigits(s) && s[0] != '0'
    ensures DecimalValue(s) > 0
    decreases |s|
  {
    if |s| > 1 {
      var init := s[..|s| - 1];
      assert init[0] == s[0];
      LeadingDigitPositive(init);
    }
  }

  /** The time value of a classified input; `new Date(ms)` with a number
      beyond `MaxTime` in magnitude is an invalid date. */
  function InstantOf(c: TimeInput, now: int, parse: string -> Option<int>): (r: Option<int>)
    ensures c.UnixSeconds? ==> (r.Some? <==> c.seconds * 1000 <= MaxTime)
    ensures c.UnixSeconds? && r.Some? ==> r.value == c.seconds * 1000
  {
    match c
    case Now => Some(now)
    case UnixSeconds(s) => if s * 1000 <= MaxTime then Some(s * 1000) else None
    case DateText(t) => parse(t)
  }

  /** `Math.floor(ms / 1000)`: the whole seconds at or before the instant. */
  function UnixTime(ms: int): (r: int)
    ensures r * 1000 <= ms < r * 1000 + 1000
  {
    ms / 1000
  }

  datatype TimeUnit = Days | Hours | Minutes | Seconds

  function UnitMs(u: TimeUnit): nat {
    match u
    case Days => MsPerDay
    case Hours => MsPerHour
    case Minutes => MsPerMinute
    case Seconds => MsPerSecond
  }

  function UnitName(u: TimeUnit): string {
    match u
    case Days => "day"
    case Hours => "hour"
    case Minutes => "minute"
    case Seconds => "second"
  }

  datatype RelativeTime = RelativeTime(amount: nat, unit: TimeUnit, past: bool)

  lemma SecondsToMinutes(a: nat)
    ensures a / 1000 / 60 == a / 60_000
  {
  }

  lemma MinutesToHours(a: nat)
    ensures a / 60_000 / 60 == a / 3_600_000
  {
  }

  lemma HoursToDays(a: nat)
    ensures a / 3_600_000 / 24 == a / 86_400_000
  {
  }

  /** The `relative` branch: the age `diffMs = now - date` in the largest unit
      of which it holds at least one (seconds otherwise), computed by the
      source's successive floor divisions of `|diffMs|`. */
  function Relative(diffMs: int): (r: RelativeTime)
    ensures r.past <==> diffMs >= 0
    ensures r.amount == Abs(diffMs) / UnitMs(r.unit)
    ensures r.unit != Seconds ==> r.amount > 0
    ensures forall u :: UnitMs(u) > UnitMs(r.unit) ==> Abs(diffMs) < UnitMs(u)
  {
    var a := Abs(diffMs);
    var seconds := a / 1000;
    var minutes := seconds / 60;
    var hours := minutes / 60;
    var days := hours / 24;
    SecondsToMinutes(a);
    MinutesToHours(a);
    HoursToDays(a);
    var past := diffMs >= 0;
    if days > 0 then RelativeTime(days, Days, past)
    else if hours > 0 then RelativeTime(hours, Hours, past)
    else if minutes > 0 then RelativeTime(minutes, Minutes, past)
    else RelativeTime(seconds, Seconds, past)
  }

  function RelativeText(r: RelativeTime): string {
    NatToString(r.amount) + " " + UnitName(r.unit) + "(s) " + (if r.past then "ago" else "in the future")
  }

  datatype Format = Iso | Rfc2822 | Locale | RelativeFormat | Unix

  const FormatError: string := "Error: Invalid time format."

  /** `format_time`: `display(f, ms)` is the calendar rendering of the `iso`,
      `rfc2822` and `locale` formats. */
  function FormatTimeTool(time: string, format: Format, now: int, parse: string -> Option<int>,
                          display: (Format, int) -> string): (r: string)
    ensures InstantOf(Classify(time), now, parse).None? ==> r == FormatError
    ensures format == Unix && InstantOf(Classify(time), now, parse).Some? ==>
      r == IntToString(UnixTime(InstantOf(Classify(time), now, parse).value))
    ensures format == RelativeFormat && InstantOf(Classify(time), now, parse).Some? ==>
      r == RelativeText(Relative(now - InstantOf(Classify(time), now, parse).value))
  {
    match InstantOf(Classify(time), now, parse)
    case None => FormatError
    case Some(ms) =>
      match format
      case Unix => IntToString(UnixTime(ms))
      case RelativeFormat => RelativeText(Relative(now - ms))
      case _ => display(format, ms)
  }

  /** A Unix time in seconds formatted as `unix` comes back unchanged, as long
      as it is a valid date. */
  lemma UnixRoundTrip(v: nat, now: int, parse: string -> Option<int>, display: (Format, int) -> string)
    requires v * 1000 <= MaxTime
    ensures FormatTimeTool(NatToString(v), Unix, now, parse, display) == NatToString(v)
  {
    var s := NatToString(v);
    assert !IsNow(s) by {
      assert IsDigit(ToLower(s)[0]);
    }
    DecimalValueOfNatToString(v);
    assert Classify(s) == UnixSeconds(v);
    assert UnixTime(v * 1000) == v;
  }

  /** A Unix time in seconds beyond the valid range is an invalid date. */
  lemma UnixOutOfRange(v: nat, format: Format, now: int, parse: string -> Option<int>, display: (Format, int) -> string)
    requires v * 1000 > MaxTime
    ensures FormatTimeTool(NatToString(v), format, now, parse, display) == FormatError
  {
    var s := NatToString(v);
    assert !IsNow(s) by {
      assert IsDigit(ToLower(s)[0]);
    }
    DecimalValueOfNatToString(v);
    assert Classify(s) == UnixSeconds(v);
  }

  // ---- get_current_time and convert_timezone ----

  datatype CurrentFormat = CurrentIso | CurrentLocale | CurrentUnix

  /** `get_current_time`: the `unix` format is the clock in whole seconds; the
      others are calendar renderings, `display`. */
  function CurrentTimeTool(format: CurrentFormat, now: int, display: (CurrentFormat, int) -> string): (r: string)
    ensures format == CurrentUnix ==> r == IntToString(UnixTime(now))
    ensures format != CurrentUnix ==> r == display(format, now)
  {
    if format == CurrentUnix then IntToString(UnixTime(now)) else display(format, now)
  }

  const ConvertError: string := "Error: " + "Invalid time format. Please use ISO format (e.g., '2024-01-15T10:30:00')."

  /** The text of the `catch` in `convert_timezone`. */
  const ConvertFailure: string := "Error converting timezone: "

  /** The answer once both renderings succeeded. */
  function ConvertedText(fromText: string, fromZone: string, toText: string, toZone: string): string {
    "From: " + fromText + " (" + fromZone + ")\nTo: " + toText + " (" + toZone + ")"
  }

  /** `convert_timezone`: `render(ms, zone)` is the long `en-US` rendering in a
      zone, or the message of the `RangeError` that `toLocaleString` throws for
      a zone it does not know. The source zone is rendered first. */
  function ConvertTimezoneTool(time: string, fromZone: string, toZone: string, now: int,
                               parse: string -> Option<int>, render: (int, string) -> Result<string>): (r: string)
    ensures !IsNow(time) && parse(time).None? ==> r == ConvertError
    ensures ConvertInstant(time, now, parse).None? ==> r == ConvertError
    ensures forall ms :: ConvertInstant(time, now, parse) == Some(ms) && render(ms, fromZone).Err? ==>
      r == ConvertFailure + render(ms, fromZone).message
    ensures forall ms :: ConvertInstant(time, now, parse) == Some(ms) && render(ms, fromZone).Ok? && render(ms, toZone).Err? ==>
      r == ConvertFailure + render(ms, toZone).message
    ensures forall ms :: ConvertInstant(time, now, parse) == Some(ms) && render(ms, fromZone).Ok? && render(ms, toZone).Ok? ==>
      r == ConvertedText(render(ms, fromZone).value, fromZone, render(ms, toZone).value, toZone)
  {
    var date := if IsNow(time) then Some(now) else parse(time);
    match date
    case None => ConvertError
    case Some(ms) =>
      match render(ms, fromZone)
      case Err(e) => ConvertFailure + e
      case Ok(fromText) =>
        match render(ms, toZone)
        case Err(e) => ConvertFailure + e
        case Ok(toText) => ConvertedText(fromText, fromZone, toText, toZone)
  }

  /** The instant `convert_timezone` works on, if the input names one. */
  function ConvertInstant(time: string, now: int, parse: string -> Option<int>): Option<int> {
    if IsNow(time) then Some(now) else parse(time)
  }

  /** The answer is a conversion exactly when the time is valid and both zones
      render; every other answer is one of the two error texts. */
  lemma ConvertSucceedsExactly(time: string, fromZone: string, toZone: string, now: int,
                               parse: string -> Option<int>, render: (int, string) -> Result<string>)
    ensures var r := ConvertTimezoneTool(time, fromZone, toZone, now, parse, render);
      var date := ConvertInstant(time, now, parse);
      (|r| > 0 && r[0] == 'F') <==>
        (date.Some? && render(date.value, fromZone).Ok? && render(date.value, toZone).Ok?)
    ensures var r := ConvertTimezoneTool(time, fromZone, toZone, now, parse, render);
      var date := ConvertInstant(time, now, parse);
      date.Some? && render(date.value, fromZone).Err? ==> r == ConvertFailure + render(date.value, fromZone).message
  {
    var r := ConvertTimezoneTool(time, fromZone, toZone, now, parse, render);
    var date := ConvertInstant(time, now, parse);
    if date.None? {
      assert r == ConvertError;
      assert ConvertError[0] == "Error: "[0] == 'E';
    } else {
      var ms := date.value;
      if render(ms, fromZone).Err? {
        assert r == ConvertFailure + render(ms, fromZone).message;
        assert r[0] == ConvertFailure[0] == 'E';
      } else if render(ms, toZone).Err? {
        assert r == ConvertFailure + render(ms, toZone).message;
        assert r[0] == ConvertFailure[0] == 'E';
      } else {
        assert r == ConvertedText(render(ms, fromZone).value, fromZone, render(ms, toZone).value, toZone);
        assert r[0] == 'F';
      }
    }
  }

  /** An unknown zone is reported for the time `now` whatever the parser does. */
  lemma UnknownZoneReported(fromZone: string, toZone: string, now: int,
                            parse: string -> Option<int>, render: (int, string) -> Result<string>)
    requires render(now, fromZone).Err?
    ensures ConvertTimezoneTool("now", fromZone, toZone, now, parse, render)
      == ConvertFailure + render(now, fromZone).message
  {
    ToLowerIdentity("now");
  }

  // ---- list_timezones ----

  datatype Region = America | Europe | Asia | Pacific | AllRegions

  const AmericaZones: seq<string> := ["America/New_York", "America/Chicago", "America/Denver",
    "America/Los_Angeles", "America/Toronto", "America/Vancouver", "America/Sao_Paulo", "America/Mexico_City"]
  const EuropeZones: seq<string> := ["Europe/London", "Europe/Paris", "Europe/Berlin", "Europe/Rome",
    "Europe/Madrid", "Europe/Amsterdam", "Europe/Moscow"]
  const AsiaZones: seq<string> := ["Asia/Tokyo", "Asia/Shanghai", "Asia/Hong_Kong", "Asia/Singapore",
    "Asia/Seoul", "Asia/Mumbai", "Asia/Dubai", "Asia/Bangkok"]
  const PacificZones: seq<string> := ["Pacific/Auckland", "Pacific/Sydney", "Pacific/Honolulu", "Pacific/Fiji"]

  /** The zones of one region; `all` is the four regions in declaration order. */
  function Zones(region: Region): seq<string> {
    match region
    case America => AmericaZones
    case Europe => EuropeZones
    case Asia => AsiaZones
    case Pacific => PacificZones
    case AllRegions => AmericaZones + EuropeZones + AsiaZones + PacificZones
  }

  /** The lines of `list_timezones`: `UTC` first, then the zones of the region. */
  function TimezoneLines(region: Region): (r: seq<string>)
    ensures |r| == 1 + |Zones(region)| && r[0] == "UTC"
    ensures r[1..] == Zones(region)
  {
    ["UTC"] + Zones(region)
  }

  /** `list_timezones`: the listing starts with `UTC` and names every zone of
      the region. */
  function ListTimezonesTool(region: Region): (r: string)
    ensures "UTC" <= r
    ensures forall z :: z in Zones(region) ==> Contains(r, z)
  {
    var lines := TimezoneLines(region);
    JoinStartsWithFirst(lines, "\n");
    ListsEveryZone(region);
    Join(lines, "\n")
  }

  lemma ListsEveryZone(region: Region)
    ensures forall z :: z in Zones(region) ==> Contains(Join(TimezoneLines(region), "\n"), z)
  {
    var lines := TimezoneLines(region);
    forall z | z in Zones(region) ensures Contains(Join(lines, "\n"), z) {
      var i :| 0 <= i < |Zones(region)| && Zones(region)[i] == z;
      assert lines[i + 1] == z;
      JoinHasPart(lines, "\n", i + 1);
    }
  }

  /** `all` lists 28 lines holding every zone of every region. */
  lemma AllRegionsListsEveryZone(region: Region, z: string)
    ensures |TimezoneLines(AllRegions)| == 28
    ensures z in Zones(region) ==> z in TimezoneLines(AllRegions)
  {
    var all := TimezoneLines(AllRegions);
    assert all == ["UTC"] + AmericaZones + EuropeZones + AsiaZones + PacificZones;
    if z in Zones(region) {
      match region
      case America => InMiddle(["UTC"], AmericaZones, EuropeZones + AsiaZones + PacificZones, z);
      case Europe => InMiddle(["UTC"] + AmericaZones, EuropeZones, AsiaZones + PacificZones, z);
      case Asia => InMiddle(["UTC"] + AmericaZones + EuropeZones, AsiaZones, PacificZones, z);
      case Pacific => InMiddle(["UTC"] + AmericaZones + EuropeZones + AsiaZones, PacificZones, [], z);
      case AllRegions =>
    }
  }

  lemma InMiddle(a: seq<string>, b: seq<string>, c: seq<string>, z: string)
    requires z in b
    ensures z in a + b + c
  {
    var k :| 0 <= k < |b| && b[k] == z;
    assert (a + b + c)[|a| + k] == z;
  }
}

=== FILE: tools.dfy ===
/**
 * The observable outcome of one tool handler call: the text block it answers
 * with and the external operations (environment, process, network and file
 * system accesses) it performed, in order. The real I/O results are inputs of
 * each handler model; the effect log is what lets a contract say that a denied
 * request touched nothing.
 */
module Tools {

  datatype HttpMethod = Get | Post | Head

  datatype Effect =
    | ReadEnv(name: string)
    | Exec(command: string)
    | Fetch(verb: HttpMethod, url: string)
    | ReadFile(path: string)
    | WriteFile(path: string, content: string)
    | MakeDir(path: string)
    | ReadDir(path: string)
    | Stat(path: string)

  /** The single text content block of a tool response, plus the effect log. */
  datatype ToolRun = ToolRun(effects: seq<Effect>, text: string)
}

=== FILE: wrappers.dfy ===
/** Failure-carrying result types shared by every tool model. */
module Wrappers {

  /** An optional value: JavaScript's `undefined`/`null` versus a present value. */
  datatype Option<+T> = None | Some(value: T) {
    function GetOr(default: T): T {
      match this
      case Some(v) => v
      case None => default
    }
  }

  /** A value or an error message: a thrown JavaScript error becomes `Err`. */
  datatype Result<+T> = Ok(value: T) | Err(message: string)
}
